=== FILE: README.md ===
# SEO article pipeline — a Dafny model

This project models the core of a French SEO article generator. The pipeline has these stages:

- **Keyword choice.** Read a keyword CSV, normalise its columns, keep usable rows. A language model then picks the best keyword given the topics the site already covers.
- **Competitor analysis.** Scrape Google (or DuckDuckGo, or ask the model) for competitor pages and summarise them.
- **Editorial brief.** Ask the model for a brief and parse its JSON.
- **Internal links.** Offer the model a slice of the site's sitemap and take the links it proposes.
- **Word budget.** Ask the model for a budget per section, or fall back to fixed shares.
- **Writing.** Build the writer's prompt from the brief, the budget and the links. Cut the Markdown and HTML blocks out of the answer.

Around these sit three shared utilities:

- the Gemini wrapper, which retries with back-off and falls back from model to model;
- the model listing;
- sitemap fetching, keyword slugs, and JSON extraction out of free text.

From the Streamlit application come the `.env` writer and the "generate" button's missing-input message.

Each Python module has one Dafny module:

| file | module | models |
|---|---|---|
| `common.dfy` | `Common` | `Option`, `Result`, the error kinds, decoded JSON, model replies; sequence helpers |
| `text.dfy` | `Text` | Python's `isspace`, `lower`, `strip`, `split`, `in`, `join`, `str(int)` on `seq<char>` |
| `json_extract.dfy` | `JsonExtract` | `extract_json_from_text`, with the two regular expressions' leftmost, greedy and lazy choices |
| `gemini.dfy` | `Gemini`, `GeminiFacts` | `GeminiWrapper.generate_content`: a functional reference, the loop as written, and the facts about runs |
| `gemini_models.dfy` | `GeminiModels` | `list_available_gemini_models` |
| `sitemap.dfy` | `Sitemap` | `fetch_sitemap` over a fetch oracle |
| `slug.dfy` | `Slug` | `slug_from_keyword` |
| `serp.dfy` | `Serp` | the competitor cascade, the page parsers' tier logic, URL filtering, the summaries |
| `brief.dfy` | `ArticleBrief` | the brief's sections, subsections, FAQ and internal links |
| `word_budget.dfy` | `WordBudget` | `calculate_word_budget`, `_fallback_budget`, `budget_to_readable` |
| `architect.dfy` | `Architect` | `build_brief`, `find_internal_links` |
| `pepite_finder.dfy` | `PepiteFinder` | `_normalize_columns`, `parse_keyword_csv`, `find_best_keyword` |
| `redacteur.dfy` | `Redacteur` | the prompt blocks, `build_user_prompt`, `write_article` |
| `app.dfy` | `App` | `save_keys_to_env`, the generate button's condition and message |

**External services.** Every call to a language model, an HTTP server or a parser library is a parameter of the function that makes it:

- a `Reply` (text, or the exception's message);
- a `decode` function standing for `json.loads`;
- a fetch oracle for sitemaps;
- a page-text oracle for scraped pages.

The theorems hold for every behaviour of those services.

Three behaviours of the code are easy to miss:

- **No link validation.** `find_internal_links` does not check the links it returns against the sitemap: it returns the model's `internal_links` verbatim (`modules/semantic_architect.py:214-222`). `Architect.LinksAreVerbatim` states exactly that.
- **No cascade in the pipeline.** The pipeline (`app.py:453-462`) calls `scrape_google_serp` directly and summarises what it returns, or nothing when no results are asked for. The Google → DuckDuckGo → model cascade `get_competitor_data` is not used by it. The cascade is modelled too, as `Serp.GetCompetitorDataProvenance`. The pipeline's own path is `Serp.PipelineCompetitorSummary`.
- **What counts as a "substantive" URL.** A comment in `find_internal_links` calls substantive URLs those with at least five path segments. The code keeps URLs that split into at least four parts on `/` (`modules/semantic_architect.py:161`), so `https://site.fr/blog` already counts. The model follows the code (`Architect.IsDeepBySlashes`).

## Model

| member | source | states |
|---|---|---|
| JsonExtract.FencedSpanAtSpec | modules/utils.py:233 | The scanner for the fenced pattern agrees with the pattern's declarative reading in both directions. That reading is: three backticks, an optional `json`, whitespace, a bracketed body that stops at the first closing bracket followed by whitespace and a closing fence. |
| JsonExtract.FencedTakesPriority | modules/utils.py:233-235 | If a fenced block matches anywhere, the result is the capture of the leftmost fence at which the fenced pattern matches, whatever raw brackets come earlier. |
| JsonExtract.RawIsLeftmostToLast | modules/utils.py:238-240 | Without a fenced block, the result runs from the leftmost opener that has a later closer of its kind to the last such closer in the text. It is greedy, not balanced. |
| JsonExtract.ExtractNoneIff | modules/utils.py:230-242 | The function returns `None` exactly when no `{` or `[` in the text has a later matching `}` or `]`. |
| JsonExtract.ProseAroundValue | modules/utils.py:238-240 | A bracketed value surrounded by prose without brackets or backticks comes back exactly. |
| JsonExtract.FencedRoundTrip | modules/utils.py:233-235 | A bracketed value without backticks comes back exactly when it is put in a code fence after backtick-free prose. The fence may or may not carry the `json` tag and may have any whitespace around the value. |
| JsonExtract.GreedyNotBalanced | modules/utils.py:238 | On `{a} x {b}` the raw pattern captures the whole text, not the first object. |
| JsonExtract.LeftmostFence | modules/utils.py:233 | The fenced search stops at the first fence where the pattern matches. |
| JsonExtract.ExtractJson | modules/utils.py:230-242 | Any extracted text starts with an opening bracket and ends with the matching closing bracket. |
| Gemini.Candidates | modules/utils.py:60-62 | The candidates are the requested model first, then the available models other than it: they keep their order (a subsequence of the available list), and there are as many of them as the available list has entries other than the requested one. There are no duplicates when the available models are distinct. |
| Gemini.AsReply | modules/utils.py:85-113 | An answer surfaces as its text. A quota error surfaces as a message that starts with the quota header and ends with at most 200 characters of the client's message. A re-raised error keeps its message. An exhausted run's message names every candidate tried. |
| Gemini.RetryModel | modules/utils.py:66-107 | The retry loop on one model, as written with its `for`/`continue`/`break`, makes exactly the calls and waits of the functional reference and at least one call, whatever classification of error messages it is given. |
| Gemini.RunCandidates | modules/utils.py:64-113 | The loop over candidates, for any classification of error messages, ends with exactly the outcome and trace of the functional reference: it stops at the first model that does not give way and otherwise reports exhaustion. |
| Gemini.CandidateStep | modules/utils.py:64-107 | One pass of the candidate loop either ends the run as the functional reference does with that model, or leaves the reference's remaining run unchanged from the next candidate on. |
| Gemini.GenerateContent | modules/utils.py:58-113 | The two nested loops make exactly the calls, waits and final outcome of the functional reference `Generate`. |
| Gemini.RetryStep | modules/utils.py:94-99 | An overloaded model below the retry bound is waited for, `5 * (attempt + 1)` seconds, and called again. |
| GeminiFacts.TryModelCalls | modules/utils.py:66 | On one model, the retry loop calls only that model, at least once and at most `retries - attempt + 1` times. |
| GeminiFacts.TryModelDecision | modules/utils.py:76-107 | On one model, every call but the last failed and every wait follows an overload below the bound. The last call decides the end: an answer returns, a quota error stops, an unavailable model or exhausted retries move on, and any other error re-raises. |
| GeminiFacts.RunFromOutcome | modules/utils.py:64-113 | The candidate loop ends as its last call says. An exhausted run reports the message of the last error that moved it on. |
| GeminiFacts.RunFromTried | modules/utils.py:64-66 | Models are tried in candidate order, each at most once, and all of them before the run gives up. With a negative retry count no call is made. |
| GeminiFacts.RunFromCallsTo | modules/utils.py:64-66 | With distinct candidates, no model is called more than `retries + 1` times, and a model that is not a candidate is never called. |
| GeminiFacts.GenerateFacts | modules/utils.py:58-113 | The whole run: requested model called first, outcome decided by the last call, every wait justified, candidates in order, a call bound per model, and immediate exhaustion for a negative retry count. |
| GeminiFacts.SuccessEndsRun | modules/utils.py:68-74 | The first successful call ends the run with its text: no call follows it. |
| GeminiModels.RemovePrefix | modules/utils.py:35 | `removeprefix`: a name that starts with the prefix is the prefix plus the result; any other name is unchanged. |
| GeminiModels.Discovered | modules/utils.py:32-37 | The discovered models are exactly the listed names, without `models/`, that contain `gemini`, each once. |
| GeminiModels.SortSorted | modules/utils.py:41 | `sorted` on distinct names yields a strictly increasing list with the same elements. |
| GeminiModels.ExtrasFacts | modules/utils.py:41 | The extras are exactly the discovered models outside the preference list, sorted and distinct. |
| GeminiModels.ListModelsMembers | modules/utils.py:25-45 | The result holds each discovered model once. A failed listing returns the static preference list. |
| GeminiModels.ListModelsOrder | modules/utils.py:39-42 | When some preferred model is available, the preferred ones come first in preference order, then the others in sorted order. |
| GeminiModels.ListModelsNoPreferred | modules/utils.py:42 | When no preferred model is available, every discovered model is returned. |
| Sitemap.LocTexts | modules/utils.py:172-174 | The collected URLs are the stripped `<loc>` texts in order, up to the first `<loc>` without text, whose `.strip()` raises and ends the collection. |
| Sitemap.FetchSitemap | modules/utils.py:146-179 | The result has no duplicates, and nothing is fetched beyond the maximum depth. |
| Sitemap.RequestsBound | modules/utils.py:148-149 | The depth bound and the eight-children cap together bound the requests by the size of an 8-ary tree of the remaining depth. |
| Sitemap.DefaultRequestsBound | modules/utils.py:146 | With the default depth bound, one sitemap costs at most 73 requests. |
| Sitemap.NothingBeyondMaxDepth | modules/utils.py:148-149 | Beyond the maximum depth there is no request and no URL. |
| Sitemap.UrlSetMembers | modules/utils.py:170-174 | The URLs of a plain sitemap are exactly its stripped `<loc>` texts before the first one without text. |
| Sitemap.IndexMembers | modules/utils.py:165-169 | The URLs of an index are exactly those of its first eight child sitemaps, each fetched one level deeper. |
| Sitemap.FetchAgree | modules/utils.py:152-177 | The result depends only on the answers for the URLs actually requested. |
| Sitemap.IndexIgnoresBeyondEight | modules/utils.py:167 | Entries of an index after the eighth never change the result. |
| Slug.SlugIsWellFormed | modules/utils.py:215-227 | The slug is empty or made of lower-case letters and digits in groups separated by single dashes, with no dash at either end. |
| Slug.SlugKeepsAlnums | modules/utils.py:217-227 | The slug's letters and digits are exactly those of the lower-cased, stripped and unaccented keyword, in order. |
| Slug.SlugIdempotent | modules/utils.py:215-227 | Slugging a slug gives it back. |
| Slug.SlugOfSlug | modules/utils.py:215-227 | Every well-formed slug is its own slug. |
| Slug.SlugExample | modules/utils.py:218-224 | `Été-2024` becomes `ete-2024`: the accents are mapped, not dropped. |
| Serp.IsBlockedIgnoresCase | modules/serp_analyzer.py:33-37 | Block detection does not depend on the page's case. |
| Serp.IsBlockedInExtension | modules/serp_analyzer.py:33-37 | A page that contains a blocked page's text is blocked too. |
| Serp.ValidUrlOfHost | modules/serp_analyzer.py:40-49 | For an `http…://host/path` link, validity is exactly that the host, with its tabs and line breaks deleted and then every `www.` removed, is not a skipped domain. |
| Serp.DropWwwIsReplace | modules/serp_analyzer.py:41 | Removing `www.` one character at a time gives the same text as `str.replace("www.", "")`, which removes the leftmost non-overlapping occurrences. |
| Serp.SubdomainIsValid | modules/serp_analyzer.py:23-28 | The skip list matches whole network locations only, so a subdomain of a skipped domain is a competitor. |
| Serp.WwwIsSkipped | modules/serp_analyzer.py:43 | A `www.` prefix does not get a link past the skip list. |
| Serp.OnlyHttp | modules/serp_analyzer.py:49 | Links without an `http` scheme are rejected. |
| Serp.DomainExample | modules/serp_analyzer.py:40-45 | `urlparse(url).netloc` of `scheme://host/path` is the host with its tabs, carriage returns and line feeds deleted, and parsing succeeds. |
| Serp.TabbedHostIsSkipped | modules/serp_analyzer.py:40-49 | `https://www.face\tbook.com/x` is not a valid link: the tab is deleted before the host is read, which leaves `facebook.com`. |
| Serp.SafeCharsIsFilter | modules/serp_analyzer.py:40-43 | Before splitting, the URL's tabs, carriage returns and line feeds are deleted, and every other character is kept in order. |
| Serp.TierMembers | modules/serp_analyzer.py:58-102 | The results of a selector tier are exactly the results of its usable entries. |
| Serp.TierSnoc | modules/serp_analyzer.py:58-102 | An entry appended to a tier adds its result at the end exactly when it is usable, so a tier gives one result per usable entry, in document order. |
| Serp.ParseGoogle | modules/serp_analyzer.py:54-102 | The parsed list is empty exactly when all three tiers are. Every result has a valid URL, a snippet of at most 400 characters and no content. |
| Serp.ParseGoogleFirstTier | modules/serp_analyzer.py:58-74 | A usable result of the classic layout wins over every later tier. |
| Serp.ParseGoogleSecondTier | modules/serp_analyzer.py:72-90 | With no usable result in the classic layout, a usable `data-hveid` result makes that tier the result, whatever the last tier holds. |
| Serp.ParseGoogleLastTier | modules/serp_analyzer.py:92-102 | The last tier counts only when no entry of the first two is usable. |
| Serp.ScrapeGoogle | modules/serp_analyzer.py:105-125 | A failed request, a status other than 200 or a blocked page gives nothing. The result has at most `num_results` entries, each with at most 3500 characters of page text. |
| Serp.ScrapeGooglePrefix | modules/serp_analyzer.py:117-122 | On an answered, unblocked page the results are the first `num_results` parsed ones, in order. |
| Serp.ScrapeDuckDuckGo | modules/serp_analyzer.py:130-165 | The collecting loop, with its early stop and final slice, returns exactly the first `num_results` usable blocks, each with its page excerpt. |
| Serp.DuckDuckGo | modules/serp_analyzer.py:130-165 | A failed request or a status other than 200 gives nothing. The result has at most `max(num_results, 0)` entries, all valid. |
| Serp.CompetitorsLinesCount | modules/serp_analyzer.py:206-218 | Each competitor contributes 3 to 6 lines, opening with its numbered heading. |
| Serp.CompetitorLinesShape | modules/serp_analyzer.py:207-218 | A competitor's block is its numbered title and domain, then one line each for the angles, the structure and the weaknesses exactly when that list is non-empty, in that order, then a blank line. |
| Serp.CompetitorAnalysis | modules/serp_analyzer.py:170-229 | The analysis never raises. A model error or undecodable JSON gives the failure text. An answer without JSON gives its first 200 characters. Otherwise the text starts with the analysis header. |
| Serp.GetCompetitorDataProvenance | modules/serp_analyzer.py:234-259 | The source is `"google"` or `"duckduckgo"` exactly when that scraper, tried in that order, found results. Otherwise the results are empty and the text is the model's analysis, or the fixed message when there is no model. |
| Serp.AnalysisIsNotATag | modules/serp_analyzer.py:255-257 | No analysis text can be mistaken for a provenance tag. |
| Serp.SummaryBlock | modules/serp_analyzer.py:268-272 | A competitor's block opens with its numbered heading and URL. The line `Extrait SERP : <snippet>` follows exactly when the snippet is non-empty. The block closes with the first 1200 characters of the content exactly when the content is non-empty. Its length leaves room for no other line. |
| Serp.SummaryBlockParts | modules/serp_analyzer.py:268-272 | For each combination of a present or absent snippet and content, the block is the heading followed by exactly the lines for the parts present. |
| Serp.CompetitorSummary | modules/serp_analyzer.py:262-274 | The summary is the fixed "no data" text exactly when there are no results. |
| Serp.SummarySnoc | modules/serp_analyzer.py:266-274 | One more result appends a blank line and its block, numbered next. |
| Serp.PipelineCompetitorSummary | app.py:453-462 | The pipeline's summary is empty when no results are asked for, and the "no data" text when Google gives none. |
| Serp.PipelineSummaryOpensWithFirst | app.py:453-456 | When Google answers, the pipeline's summary opens with the first result's block. |
| WordBudget.FallbackBudget | modules/seo_calculator.py:93-135 | The fallback has every field, the target as its total, and one section entry per section id, including generated `s{i+1}` ids. |
| WordBudget.FallbackShares | modules/seo_calculator.py:98-101 | Introduction 9% and conclusion 6%, truncated. The FAQ gets the larger of 70 words per question and 10%. The four parts add up to the target. |
| WordBudget.FallbackWithoutSections | modules/seo_calculator.py:111-112 | A brief without sections gets an empty section budget. |
| WordBudget.FallbackSection | modules/seo_calculator.py:114-133 | Each section not overwritten by a later one with the same id gets its allocation for an equal share of the body. |
| WordBudget.AllocationShape | modules/seo_calculator.py:118-133 | A section without subsections gives its whole share to the H2. One with subsections gives the H2 100 words and keys the subsections by their ids. |
| WordBudget.SubsectionAllocation | modules/seo_calculator.py:122-126 | Subsection `j` gets the floor share of what the H2 leaves, plus `5 * j`. |
| WordBudget.SubsectionsDiffer | modules/seo_calculator.py:126 | Of two sibling subsections with distinct ids, the later one always gets more words. |
| WordBudget.SectionWordsBounds | modules/seo_calculator.py:114-128 | A section's words are within the floor-division loss of its share, plus the `5 * j` steps. With at most one subsection they equal its share. |
| WordBudget.FallbackAddsUp | modules/seo_calculator.py:98-133 | When no section has more than one subsection, everything handed out adds up to the target, short by less than one word per section. |
| WordBudget.ShortArticleNegativeCount | modules/seo_calculator.py:100-126 | At 800 words with eight questions and two sections, a lone subsection is given −40 words. |
| WordBudget.Patched | modules/seo_calculator.py:83-84 | Only the total can change. A missing `total_calculated` becomes the target; a present one is kept. |
| WordBudget.CalculateWordBudget | modules/seo_calculator.py:75-90 | A model exception escapes. Any answer gives a budget with a total. |
| WordBudget.WordBudgetOutcome | modules/seo_calculator.py:78-90 | An answer always gives a budget. When it holds JSON that decodes, every field the model wrote is kept and only a missing total becomes the target. Otherwise the total is the target and the introduction, conclusion, FAQ and body add up to it. |
| WordBudget.ReadableLineCount | modules/seo_calculator.py:138-158 | The rendering has an introduction line, one line per section and subsection, and three closing lines. |
| WordBudget.ReadableSectionLines | modules/seo_calculator.py:143-153 | For any rendering that gives each section one H2 line and one line per subsection, section `i`'s lines appear in one piece. They come right after the introduction line and the lines of the sections before it. |
| WordBudget.SectionLines | modules/seo_calculator.py:143-153 | As written, a section is rendered with one H2 line and one line per subsection. The H2 line shows the entry found under the section's id, or under `""` when the section has none. Each H3 line shows its subsection's entry within that section, found the same way. With no entry under that key, the H2 line shows 100 words and each H3 line 200. |
| WordBudget.IdLessSectionShowsDefault | modules/seo_calculator.py:144-146 | As written, a section without an id shows the default 100 words, although the fallback gave it 1500 under `s1`. |
| WordBudget.ReadableByIdShowsFallback | modules/seo_calculator.py:116-153 | Looked up under the fallback's ids, each section and subsection shows exactly the words the fallback allocated to it. |
| Architect.BuildBrief | modules/semantic_architect.py:132-142 | A model exception escapes. The brief is the decoded JSON exactly when the answer holds JSON that decodes. Otherwise a ValueError is raised, quoting at most 500 characters of the answer. |
| Architect.BuildBriefDecodeError | modules/semantic_architect.py:139-140 | A decode error's message names the error and ends with at most 500 characters of the JSON. |
| Architect.IsDeepBySlashes | modules/semantic_architect.py:161 | A URL is substantive exactly when it has at least three slashes once its trailing slashes are removed. |
| Architect.OfferedFacts | modules/semantic_architect.py:161-164 | At most 70 sitemap URLs are offered, in sitemap order. They are the first 70 substantive URLs when there are any, otherwise the first 60 URLs. A non-empty sitemap always offers some. |
| Architect.FindInternalLinks | modules/semantic_architect.py:147-222 | An empty sitemap gives no links and no model call. The function fails exactly when the model raises. |
| Architect.LinksAreVerbatim | modules/semantic_architect.py:214-218 | The model's `internal_links` are returned as they are, in order, whether or not their URLs are in the sitemap. |
| Architect.NoLinksWithoutJson | modules/semantic_architect.py:214-222 | No JSON, a decode error, or JSON without `internal_links` all give no links. |
| Architect.EmptySitemapSkipsModel | modules/semantic_architect.py:157-158 | With an empty sitemap the result does not depend on the model. |
| Architect.OnlyOfferedMatters | modules/semantic_architect.py:161-182 | In this model the answer depends on the sitemap only through the offered URLs: two models that answer the offer alike give the same links. |
| PepiteFinder.Assign | modules/pepite_finder.py:21-30 | A column gets the highest-priority canonical name it matches that no earlier column took. |
| PepiteFinder.AssignedOnce | modules/pepite_finder.py:23-30 | No canonical name goes to two columns. |
| PepiteFinder.MatchIsAssigned | modules/pepite_finder.py:23-30 | A column matching a group, when no earlier column took it, gets that name or one of higher priority. |
| PepiteFinder.KeywordToFirstMatch | modules/pepite_finder.py:23-24 | The first column matching a keyword alias becomes `keyword`. |
| PepiteFinder.UnmatchedKeepsName | modules/pepite_finder.py:32 | A column matching no alias keeps its name through the renaming. |
| PepiteFinder.KeywordColumnExists | modules/pepite_finder.py:18-41 | After normalisation there is a `keyword` column exactly when some column name holds a keyword alias or some column is text-typed. |
| PepiteFinder.CoerceIgnoresCommas | modules/pepite_finder.py:64 | A numeric cell reads the same with its thousands separators removed. |
| PepiteFinder.CoerceUnparsed | modules/pepite_finder.py:64 | A cell that does not parse as a number reads as 0. |
| PepiteFinder.KeptRowsMembers | modules/pepite_finder.py:57-59 | The rows kept are exactly the converted rows whose keyword is present and longer than two characters once stripped. |
| PepiteFinder.KeptRowsShape | modules/pepite_finder.py:57-64 | Every kept keyword is stripped and longer than two characters. A row has a number for exactly the numeric columns the table has. |
| PepiteFinder.ParseKeywordCsv | modules/pepite_finder.py:56-66 | Without a `keyword` column after normalisation, selecting it raises KeyError. Otherwise at most as many rows come back as the table has. |
| PepiteFinder.ParsedRows | modules/pepite_finder.py:56-66 | The rows returned are exactly the converted rows of the table whose cell in the first `keyword` column survives. |
| PepiteFinder.ParsedRowsSnoc | modules/pepite_finder.py:56-66 | A row appended to the table adds its conversion at the end exactly when its keyword survives, so the rows come back in table order, each once. |
| PepiteFinder.TruncReal | modules/pepite_finder.py:86-88 | `int()` on a finite float truncates toward zero. |
| PepiteFinder.Records | modules/pepite_finder.py:82-91 | The first 100 rows are serialised, keeping each keyword and exactly the numeric fields the table has. An infinite volume or difficulty among them raises OverflowError, and nothing else does. |
| PepiteFinder.FieldToInt | modules/pepite_finder.py:86-88 | `int()` of a present field truncates a finite value and raises OverflowError on an infinity; an absent field stays absent. |
| PepiteFinder.InfiniteCountRaises | modules/pepite_finder.py:82-91 | An infinite volume or difficulty in the first 100 rows makes `find_best_keyword` raise OverflowError before the model is asked. |
| PepiteFinder.FiniteCountsReachModel | modules/pepite_finder.py:82-143 | With every count finite, the model is asked with the records and the covered topics, and its answer decides. |
| PepiteFinder.CoveredTopics | modules/pepite_finder.py:94-98 | At most 60 topics. Each is non-empty and has no `/`, `-` or `_`. |
| PepiteFinder.TopicsFromRecentUrls | modules/pepite_finder.py:94-97 | Each topic is the last path segment of one of the last 60 sitemap URLs. |
| PepiteFinder.AnswerKeyword | modules/pepite_finder.py:136-143 | A model exception escapes. The result is the decoded JSON exactly when the answer holds JSON that decodes. No JSON raises ValueError quoting 500 characters. |
| PepiteFinder.RecordsIgnoreLaterRows | modules/pepite_finder.py:83 | Rows beyond the hundredth are not serialised. |
| PepiteFinder.TopicsIgnoreOlderUrls | modules/pepite_finder.py:96 | URLs before the last 60 give no topic. |
| PepiteFinder.OnlyPromptDataMatters | modules/pepite_finder.py:82-143 | Rows beyond the hundredth and URLs before the last 60 do not change the keyword chosen. |
| Redacteur.BlockIsRegexGroup | modules/redacteur.py:246-247 | When the delimiter pattern matches, the block is the group Python picks: the leftmost start, the longest leading `\s*`, then the shortest `.*?`. That group needs no stripping. |
| Redacteur.BlockNoneIff | modules/redacteur.py:246-247 | The pattern finds nothing exactly when there is no match anywhere in the answer. |
| Redacteur.ExtractMarkdown | modules/redacteur.py:246-248 | The Markdown never has leading or trailing whitespace: stripping it again changes nothing. |
| Redacteur.ExtractMarkdownFromMatch | modules/redacteur.py:246-248 | When the Markdown pattern matches, the Markdown is the group of the match `re.search` reports. Without a match anywhere, it is the whole answer stripped. |
| Redacteur.ExtractHtmlFromMatch | modules/redacteur.py:250-259 | When the HTML pattern matches, the HTML is the already stripped group of the match `re.search` reports. Without a match anywhere, it is the Markdown converted by the library, or wrapped in one paragraph when the library is missing. |
| Redacteur.BlockAround | modules/redacteur.py:246-247 | A block framed by its markers, with no earlier opening marker and no closing marker inside it, is found exactly. |
| Redacteur.MarkedAnswer | modules/redacteur.py:243-259 | An answer laid out as the prompt asks gives back both blocks exactly, whatever text surrounds them. |
| Redacteur.UnmarkedAnswer | modules/redacteur.py:243-259 | An answer without markers is the article: its Markdown is the stripped answer, and its HTML comes from that Markdown. |
| Redacteur.ArticleSlug | modules/redacteur.py:157 | The article slug contains only `a-z`, `0-9` and `-`. |
| Redacteur.ArticleSlugByChar | modules/redacteur.py:157 | The slug is made character by character: spaces become dashes, upper-case ASCII becomes lower-case, anything else outside `[a-z0-9-]` is deleted. |
| Redacteur.AccentsDropped | modules/redacteur.py:157 | Accented Latin-1 letters leave nothing in the article slug. |
| Redacteur.ArticleSlugExample | modules/redacteur.py:157 | `Été-2024` gives `t-2024` here, where the utilities' slug gives `ete-2024`. |
| Redacteur.ArticleSlugIdempotent | modules/redacteur.py:157 | An article slug is its own slug. |
| Redacteur.RoundHalfEven | modules/redacteur.py:156 | Python's `round`: the nearest integer, with halves going to the even one. |
| Redacteur.RoundUnique | modules/redacteur.py:156 | Only one integer satisfies that rounding specification. |
| Redacteur.KeywordCount | modules/redacteur.py:154-156 | The keyword count is at least four, exactly four up to 300 words, and otherwise 1.5% of the words rounded to the nearest integer, a tie going to the even one. |
| Redacteur.KeywordCountTie | modules/redacteur.py:154-156 | At 500 words the count is 8: Python's `round(7.5)` rounds the tie to the even neighbour. |
| Redacteur.DefaultKeywordCount | modules/redacteur.py:154-156 | Without a total, the 2000-word default asks for 30 occurrences. |
| Redacteur.KeywordCountMonotone | modules/redacteur.py:154-156 | More words never ask for fewer occurrences. |
| Redacteur.LinksBlock | modules/redacteur.py:105-108 | Without links the block is the fixed "no links" text. |
| Redacteur.LinksBlockSnoc | modules/redacteur.py:109-116 | The block is the header, then one entry per link, in input order. |
| Redacteur.MissingTargetShownAsUnknown | modules/redacteur.py:112 | A link without a target section is shown with the section `?`. |
| Redacteur.SectionHeadShape | modules/redacteur.py:121-128 | A section's lines open with its title, its LSI terms and its points. The media note follows exactly when the suggestion is truthy. |
| Redacteur.OneTitlePerSection | modules/redacteur.py:119-133 | Only a section's first line is an H2 title: each H3 and point belongs to the H2 above it. |
| Redacteur.SubsectionLinesAt | modules/redacteur.py:129-132 | Each subsection's title and points come in their place, after the section's head. |
| Redacteur.SectionLinesInBlock | modules/redacteur.py:119-133 | Each section's lines appear in one piece, in brief order. |
| Redacteur.FaqBlock | modules/redacteur.py:136-139 | The FAQ block is empty exactly when the brief has no questions. |
| Redacteur.FaqBlockSnoc | modules/redacteur.py:140-144 | The FAQ block is the header, then each question and its answer hint, in order. |
| Redacteur.UserPrompt | modules/redacteur.py:147-209 | The prompt carries the keyword, a keyword count of at least four, a slug of `[a-z0-9-]` only, the "no links" text without links, and an FAQ block exactly when there are questions. The budget is rendered with the corrected lookup of the finding below, not as `budget_to_readable` does at line 164. |
| Redacteur.WriteArticle | modules/redacteur.py:214-274 | A model exception escapes. Otherwise the article keeps the raw answer, its Markdown and HTML are those extracted from it, its slug is the keyword's slug, and the keyword, brief, budget and links pass through unchanged. |
| Redacteur.PromptSlugIsArticleSlug | modules/redacteur.py:157-262 | The slug the prompt announces is the slug the article is returned with. |
| App.SplitLines | app.py:156 | `splitlines()` yields lines without any line boundary. |
| App.SplitUnlines | app.py:156 | Splitting a text written one line per `\n` gives the lines back. |
| App.ParseLine | app.py:157-163 | A line is a setting exactly when, stripped, it is non-empty, does not start with `#` and holds a `=`. The key and the value are the stripped text before and after the first `=`. Any other line is kept verbatim. |
| App.SettingRoundTrip | app.py:157-160 | A `key=value` line written for a plain key and a stripped value parses back to the same setting. |
| App.Put | app.py:160 | Assigning a dictionary key keeps an existing key in its place with the new value, and appends a new key last. |
| App.PutAllKeys | app.py:155-166 | The dictionary has each assigned key once, in order of first assignment. |
| App.PutAllValues | app.py:155-166 | Each key holds the value last assigned to it. |
| App.EnvTextLayout | app.py:168-170 | The file written is the other lines, their leading whitespace dropped, then one `key=value` line per dictionary entry, ending with a newline. The `lstrip` never reaches the settings. |
| App.KeysAfterGiven | app.py:165-166 | After the two API keys are assigned, the dictionary holds every key read or assigned, each once, in order of first appearance. |
| App.ValuesAfterGiven | app.py:165-166 | The two API keys hold the given values. Every other key holds the value of its last line. |
| App.EnvSettings | app.py:151-170 | `save_keys_to_env`'s dictionary: every key from the file plus the two API keys, in first-appearance order, with the given API values and each other key's last value. |
| App.EnvTextWithoutFile | app.py:151-170 | Without a file, the text written is exactly the two API key lines, in order. |
| App.OtherLinesVerbatim | app.py:161-163 | The other lines kept are exactly the lines that are not settings, verbatim. |
| App.AbsentFacts | app.py:369-374 | The missing labels are empty exactly when every input is present. They keep the check order, and a label is listed exactly when its input is absent. |
| App.MissingFacts | app.py:368-375 | The button is enabled exactly when nothing is missing. The missing labels follow the order the inputs are checked, each listed exactly when its input is absent. The message appears exactly when the button is disabled. |

## Left out

- **Network access.** HTTP requests, timeouts, sessions, `random_delay` and `time.sleep` are not modelled; waits appear in the Gemini trace instead. Pages and sitemaps are oracles. An exception while reading a sitemap ends its collection: a failed fetch, a `<loc>` without text, or a parse error.
- **BeautifulSoup and lxml.** The selector tiers of `_parse_google` and the DuckDuckGo result blocks are given as lists of entries (link, title, snippet). CSS selection, the `/url?q=` unwrapping and the title and snippet extraction happen in the parser library.
- **`scrape_page_text`.** A page-text oracle; its own HTML cleaning is outside the modelled core.
- **Model calls.** Anthropic and Gemini calls are oracles returning text or an exception message. The prompt templates (their French text, the category context of `find_best_keyword`, the sitemap and section listings of `find_internal_links`) are left out. Each modelled prompt carries only the values the model's statements are about; what the writer's prompt drops is listed on the `Redacteur.UserPrompt` line below.
- **`response.content[0]`.** The case where the Anthropic response has no content block (an IndexError) is folded into the model's exception.
- **`json.loads`.** It is a decode oracle per stage, returning the stage's typed value or an error message. JSON values of an unexpected shape (a list where a dict is read) are not modelled.
- **`pd.read_csv`.** Its encoding loop and its ValueError are not modelled, nor is `on_bad_lines="skip"`: the model starts from the parsed table of cells. Number parsing is an oracle over the comma-free text giving a finite number, an infinity (for `inf` or `1e400`) or nothing, and missing values are `None`. Duplicate column labels after renaming are not modelled; `df["keyword"]` is read as the first column of that name.
- **Floating point.**
  - The shares `0.09`, `0.06`, `0.10` are exact ratios, truncated as `int()` does.
  - `0.015` is `3/200`, rounded half to even.
  - CPC values are `real`.
  - Binary floating-point rounding of these products is not modelled.
- **Case folding.** `lower()` is exact on ASCII and Latin-1 and the identity elsewhere, so upper-case letters beyond Latin-1 are not folded.
- **Python dicts.** Dict order and keys missing versus `None` are modelled only where the code distinguishes them.
- **Sets.** When no preferred Gemini model is available, `list(available)` follows Python's set order. That order is undefined, so the model picks the discovery order: `GeminiModels.ListModelsNoPreferred` states that the list is the discovered names, each once, in the order they were discovered.
- **`insight_miner`.** The module is not part of this model.
- **Outside the pipeline.** The Streamlit user interface, session state, `os.environ`, cloud detection, file output and timestamps (`generated_at`) are not modelled.
- **The `.env` file.** Its path, encoding and write are left out. `App.EnvText` is the text that would be written.
- Redacteur.UserPrompt: renders the budget with `WordBudget.BudgetToReadableById`, the corrected lookup, where `modules/redacteur.py:164` calls `budget_to_readable` as written; the prompt is therefore not promised to carry the as-written budget text (see "## Findings").
- Serp.NetLoc: follows `urlsplit` in stripping leading C0 controls and spaces, deleting tabs, carriage returns and line feeds, and raising ValueError when only one of `[` and `]` is present. Its further checks are not modelled: the validation of a bracketed IPv6 host and the NFKC check of a non-ASCII netloc. Those raise ValueError in the code, so `_domain` gives `""` where the model gives the netloc.
- **Fields carried as text.** The keyword data, the brief and the article hold only the fields some modelled decision or statement depends on. Fields the code merely copies into prompt text or into its output dictionaries are left out, including some the code reads; the writer's prompt fields are listed on the next line.
- Redacteur.UserPrompt: the prompt does not carry the keyword data's `search_intent` (default `informational`), `target_audience`, `angle_editorial` and `semantic_variants`, nor the brief's `h1` (default the keyword), `meta_description`, `intro_hook`, `intro_key_points` and `conclusion_cta`, nor the date `today` read from the clock and the `current_year` argument (`modules/redacteur.py:159`, `171-190`, `206`, `226`). They are copied into the text verbatim and no statement is about them.

## Findings

| source | as written | input that shows it | evidently intended | confidence | as-written member | corrected member |
|---|---|---|---|---|---|---|
| modules/seo_calculator.py:144-153 | `budget_to_readable` looks sections up under `s.get("id", "")` and subsections under `ss.get("id", "")`. `_fallback_budget` stores sections without an id under `s{i+1}` and subsections under `{sid}-{j+1}` (lines 116 and 125). | A brief whose only section has no `id`, with a 2000-word target: the fallback gives `s1` 1500 words, but the prompt says 100. | Look entries up under the same ids the fallback writes. | not executed | WordBudget.IdLessSectionShowsDefault | WordBudget.ReadableByIdShowsFallback |

The writer's prompt (`Redacteur.UserPrompt`) uses the corrected rendering: sections are looked up under their fallback ids.

=== FILE: app.dfy ===
/** The two pieces of logic in the user interface (app.py): merging the API
    keys into the `.env` text, and deciding whether the article can be
    generated. Reading and writing the file and the widgets are left out. */
module App {
  import opened Common
  import opened Text

  // ---- str.splitlines ----

  /** Index of the first line boundary in `s`. */
  function FirstBreak(s: string): (r: Option<nat>)
    ensures r.Some? ==> r.value < |s| && IsLineBreak(s[r.value]) && forall j :: 0 <= j < r.value ==> !IsLineBreak(s[j])
    ensures r.None? ==> forall j :: 0 <= j < |s| ==> !IsLineBreak(s[j])
  {
    if |s| == 0 then None
    else if IsLineBreak(s[0]) then Some(0)
    else match FirstBreak(s[1..])
      case None => None
      case Some(k) => Some(k + 1)
  }

  /** `s.splitlines()`: the lines without their boundaries (`\r\n` is one
      boundary); no final empty line. */
  function SplitLines(s: string): (lines: seq<string>)
    ensures forall i, j :: 0 <= i < |lines| && 0 <= j < |lines[i]| ==> !IsLineBreak(lines[i][j])
    decreases |s|
  {
    if |s| == 0 then []
    else match FirstBreak(s)
      case None => [s]
      case Some(i) =>
        var width := if s[i] == '\r' && i + 1 < |s| && s[i + 1] == '\n' then 2 else 1;
        [s[..i]] + SplitLines(s[i + width..])
  }

  /** Lines each ended by `\n`. */
  function Unlines(lines: seq<string>): string
    decreases |lines|
  {
    if |lines| == 0 then "" else lines[0] + "\n" + Unlines(lines[1..])
  }

  predicate NoBreaks(lines: seq<string>) {
    forall i, j :: 0 <= i < |lines| && 0 <= j < |lines[i]| ==> !IsLineBreak(lines[i][j])
  }

  /** Splitting undoes writing one line per `\n`. */
  lemma {:induction false} SplitUnlines(lines: seq<string>)
    requires NoBreaks(lines)
    ensures SplitLines(Unlines(lines)) == lines
    decreases |lines|
  {
    if |lines| > 0 {
      assert forall j :: 0 <= j < |lines[0]| ==> !IsLineBreak(lines[0][j]);
      SplitLinesCons(lines[0], Unlines(lines[1..]));
      SplitUnlines(lines[1..]);
    }
  }

  /** A line without boundaries followed by `\n` splits off as the first line. */
  lemma SplitLinesCons(l: string, rest: string)
    requires forall j :: 0 <= j < |l| ==> !IsLineBreak(l[j])
    ensures SplitLines(l + "\n" + rest) == [l] + SplitLines(rest)
  {
    var s := l + "\n" + rest;
    assert s[|l|] == '\n';
    assert forall j :: 0 <= j < |l| ==> s[j] == l[j];
    FirstBreakAt(s, |l|);
    assert s[..|l|] == l;
    assert s[|l| + 1..] == rest;
  }

  /** The first boundary is the one with no boundary before it. */
  lemma FirstBreakAt(s: string, p: nat)
    requires p < |s| && IsLineBreak(s[p]) && forall j :: 0 <= j < p ==> !IsLineBreak(s[j])
    ensures FirstBreak(s) == Some(p)
  {
  }

  // ---- save_keys_to_env ----

  const AnthropicKey := "ANTHROPIC_API_KEY"
  const GoogleKey := "GOOGLE_API_KEY"

  /** A line of the `.env` text: a `key=value` setting or any other line. */
  datatype EnvLine = Setting(key: string, value: string) | Other(line: string)

  /** A line is a setting when, stripped, it is not empty, is not a comment
      and holds `=`; it is split at the first `=`, both sides stripped. Any
      other line is kept as it is. */
  function ParseLine(line: string): (r: EnvLine)
    ensures r.Other? ==> r.line == line
    ensures r.Setting? <==> |Strip(line)| > 0 && Strip(line)[0] != '#' && '=' in Strip(line)
    ensures r.Setting? ==> exists i :: SplitAtFirst(Strip(line), i, r.key, r.value)
    ensures r.Setting? ==> NoLeadingSpace(r.key)
  {
    var st := Strip(line);
    if |st| > 0 && st[0] != '#' then
      match IndexOf(st, '=')
      case None => Other(line)
      case Some(i) =>
        assert SplitAtFirst(st, i, Strip(st[..i]), Strip(st[i + 1..]));
        Setting(Strip(st[..i]), Strip(st[i + 1..]))
    else Other(line)
  }

  /** `k, _, v = st.partition("=")` with both sides stripped: `i` is the first
      `=` of `st`. */
  predicate SplitAtFirst(st: string, i: int, key: string, value: string) {
    && 0 <= i < |st| && st[i] == '=' && '=' !in st[..i]
    && key == Strip(st[..i]) && value == Strip(st[i + 1..])
  }

  /** A key and a value as written back: `key=value`. */
  function SettingLine(k: string, v: string): string { k + "=" + v }

  /** A key that reads back as itself: stripped, not empty, not starting a
      comment and without `=`. */
  predicate PlainKey(k: string) {
    |k| > 0 && Strip(k) == k && k[0] != '#' && '=' !in k
  }

  /** A setting written back reads back as the same setting. */
  lemma SettingRoundTrip(k: string, v: string)
    requires PlainKey(k) && Strip(v) == v
    ensures ParseLine(SettingLine(k, v)) == Setting(k, v)
  {
    var line := SettingLine(k, v);
    SettingLineStripped(k, v);
    assert line[|k|] == '=' && forall j :: 0 <= j < |k| ==> line[j] == k[j];
    assert IndexOf(line, '=') == Some(|k|);
    assert line[..|k|] == k && line[|k| + 1..] == v;
  }

  lemma SettingLineStripped(k: string, v: string)
    requires PlainKey(k) && Strip(v) == v
    ensures Strip(SettingLine(k, v)) == SettingLine(k, v)
  {
    var line := SettingLine(k, v);
    assert line[0] == k[0] && line[|line| - 1] == (if |v| > 0 then v[|v| - 1] else '=');
    assert !IsSpace(line[|line| - 1]) by {
      if |v| > 0 { assert v == Strip(v); }
    }
    StripOfStripped(line);
  }

  /** An ordered dictionary: `(key, value)` items in insertion order. */
  type Item = (string, string)

  function KeysOf(d: seq<Item>): (ks: seq<string>)
    ensures |ks| == |d| && forall i :: 0 <= i < |d| ==> ks[i] == d[i].0
  {
    seq(|d|, i requires 0 <= i < |d| => d[i].0)
  }

  function ValuesOf(d: seq<Item>): (vs: seq<string>)
    ensures |vs| == |d| && forall i :: 0 <= i < |d| ==> vs[i] == d[i].1
  {
    seq(|d|, i requires 0 <= i < |d| => d[i].1)
  }

  lemma KeysOfAppend(a: seq<Item>, b: seq<Item>)
    ensures KeysOf(a + b) == KeysOf(a) + KeysOf(b) && ValuesOf(a + b) == ValuesOf(a) + ValuesOf(b)
  {
  }

  /** `d[k] = v`: an existing key keeps its place and takes the new value; a
      new key goes last. */
  function Put(d: seq<Item>, k: string, v: string): (r: seq<Item>)
    requires NoDups(KeysOf(d))
    ensures KeysOf(r) == if k in KeysOf(d) then KeysOf(d) else KeysOf(d) + [k]
    ensures NoDups(KeysOf(r))
    ensures forall i :: 0 <= i < |r| ==> r[i].1 == if r[i].0 == k then v else d[i].1
  {
    if k in KeysOf(d) then
      var r := seq(|d|, i requires 0 <= i < |d| => if d[i].0 == k then (k, v) else d[i]);
      assert KeysOf(r) == KeysOf(d);
      r
    else
      KeysOfAppend(d, [(k, v)]);
      assert KeysOf([(k, v)]) == [k];
      d + [(k, v)]
  }

  /** The dictionary after assigning the items in order. */
  function PutAll(items: seq<Item>): (d: seq<Item>)
    ensures NoDups(KeysOf(d))
    decreases |items|
  {
    if |items| == 0 then []
    else
      var n := |items| - 1;
      Put(PutAll(items[..n]), items[n].0, items[n].1)
  }

  /** The dictionary the assignments build has each key once, in order of
      first assignment. */
  lemma {:induction false} PutAllKeys(items: seq<Item>)
    ensures KeysOf(PutAll(items)) == Dedup(KeysOf(items))
    decreases |items|
  {
    if |items| > 0 {
      var n := |items| - 1;
      var init := items[..n];
      var k := items[n].0;
      PutAllKeys(init);
      assert items == init + [items[n]];
      KeysOfAppend(init, [items[n]]);
      assert KeysOf([items[n]]) == [k];
      DedupSnoc(KeysOf(init), k);
      assert k in KeysOf(PutAll(init)) <==> k in KeysOf(init);
    }
  }

  /** Every entry of `d` holds the value `m` gives its key. */
  predicate Agrees(d: seq<Item>, m: map<string, string>) {
    forall i :: 0 <= i < |d| ==> d[i].0 in m && d[i].1 == m[d[i].0]
  }

  /** Assigning `k` in the dictionary and in the reference map keeps them in
      agreement. */
  lemma PutAgrees(d: seq<Item>, k: string, v: string, m: map<string, string>)
    requires NoDups(KeysOf(d)) && Agrees(d, m)
    ensures Agrees(Put(d, k, v), m[k := v])
  {
    var r := Put(d, k, v);
    forall i | 0 <= i < |r|
      ensures r[i].0 in m[k := v] && r[i].1 == m[k := v][r[i].0]
    {
      if r[i].0 != k {
        assert KeysOf(r)[i] == r[i].0;
        assert i < |d| && KeysOf(d)[i] == r[i].0;
        assert r[i].1 == d[i].1;
      }
    }
  }

  /** Every key of the dictionary holds the value last assigned to it, as
      the reference map built from the assignments says. */
  lemma {:induction false} PutAllValues(items: seq<Item>)
    ensures Agrees(PutAll(items), BuildMap(KeysOf(items), ValuesOf(items)))
    decreases |items|
  {
    if |items| > 0 {
      var n := |items| - 1;
      var init := items[..n];
      PutAllValues(init);
      assert KeysOf(items)[..n] == KeysOf(init) && ValuesOf(items)[..n] == ValuesOf(init);
      PutAgrees(PutAll(init), items[n].0, items[n].1, BuildMap(KeysOf(init), ValuesOf(init)));
    }
  }

  function IsSetting(l: EnvLine): bool { l.Setting? }
  function IsOther(l: EnvLine): bool { l.Other? }
  function ItemOf(l: EnvLine): Item { if l.Setting? then (l.key, l.value) else ("", "") }
  function LineOf(l: EnvLine): string { if l.Other? then l.line else "" }

  function Parsed(lines: seq<string>): (p: seq<EnvLine>)
    ensures |p| == |lines| && forall i :: 0 <= i < |lines| ==> p[i] == ParseLine(lines[i])
  {
    seq(|lines|, i requires 0 <= i < |lines| => ParseLine(lines[i]))
  }

  /** The settings of the existing text, in order. */
  function Settings(lines: seq<string>): seq<Item> {
    MapFilter(Parsed(lines), IsSetting, ItemOf)
  }

  /** The assignments to the dictionary: the settings, then the `given` ones. */
  function Assignments(lines: seq<string>, given: seq<Item>): seq<Item> {
    Settings(lines) + given
  }

  /** The two keys the sidebar saves, with their new values. */
  function Fresh(anthropic: string, google: string): seq<Item> {
    [(AnthropicKey, anthropic), (GoogleKey, google)]
  }

  /** The lines that are not settings, verbatim and in order. */
  function OtherLines(lines: seq<string>): seq<string> {
    MapFilter(Parsed(lines), IsOther, LineOf)
  }

  /** The existing text's lines (none without a file). */
  function ExistingLines(existing: Option<string>): seq<string> {
    if existing.Some? then SplitLines(existing.value) else []
  }

  /** The settings written back, one per line. */
  function SettingsText(d: seq<Item>): string {
    Join("\n", seq(|d|, i requires 0 <= i < |d| => SettingLine(d[i].0, d[i].1)))
  }

  /** The other lines written back: joined, trailing whitespace dropped, and a
      newline; nothing when there are none. */
  function OthersText(others: seq<string>): string {
    if |others| > 0 then RStrip(Join("\n", others)) + "\n" else ""
  }

  /** The text written when the `given` items are assigned over the existing
      text (`None` without a file). */
  function EnvTextWith(existing: Option<string>, given: seq<Item>): string {
    var lines := ExistingLines(existing);
    var d := PutAll(Assignments(lines, given));
    LStrip(OthersText(OtherLines(lines)) + (SettingsText(d) + "\n"))
  }

  /** The new `.env` text `save_keys_to_env(anthropic, google)` writes. */
  function EnvText(existing: Option<string>, anthropic: string, google: string): string {
    EnvTextWith(existing, Fresh(anthropic, google))
  }

  /** A key never starts with whitespace: keys read from the text are
      stripped. */
  predicate NoLeadingSpace(x: string) { |x| == 0 || !IsSpace(x[0]) }

  /** The settings text starts where its first key does, or with `=`. */
  lemma SettingsTextStart(d: seq<Item>)
    requires |d| > 0 && NoLeadingSpace(d[0].0)
    ensures var t := SettingsText(d); |t| > 0 && !IsSpace(t[0])
  {
    var first := SettingLine(d[0].0, d[0].1);
    var t := SettingsText(d);
    var lines := seq(|d|, i requires 0 <= i < |d| => SettingLine(d[i].0, d[i].1));
    assert lines[0] == first;
    assert t[..|first|] == first by {
      if |d| > 1 { assert t == first + "\n" + Join("\n", lines[1..]); }
    }
    if |d[0].0| > 0 {
      assert first[0] == d[0].0[0];
    } else {
      assert first[0] == '=';
    }
  }

  /** Leading whitespace is taken from the first part only when the second
      does not start with any. */
  lemma {:induction false} TrimStartAppend(a: string, b: string)
    requires |b| > 0 && !IsSpace(b[0])
    ensures TrimStart(a + b, IsSpace) == TrimStart(a, IsSpace) + b
    decreases |a|
  {
    if |a| == 0 {
      assert a + b == b;
    } else {
      assert (a + b)[1..] == a[1..] + b;
      TrimStartAppend(a[1..], b);
    }
  }

  predicate KeyStarts(it: Item) { NoLeadingSpace(it.0) }

  /** Every key read from the text starts without whitespace. */
  lemma SettingsKeysStart(lines: seq<string>)
    ensures forall it :: it in Settings(lines) ==> KeyStarts(it)
  {
    var p := Parsed(lines);
    assert forall i :: 0 <= i < |p| && IsSetting(p[i]) ==> KeyStarts(ItemOf(p[i])) by {
      assert forall i :: 0 <= i < |p| ==> p[i] == ParseLine(lines[i]);
    }
    MapFilterAll(p, IsSetting, ItemOf, KeyStarts);
  }

  /** Every key assigned starts without whitespace when the given ones do. */
  lemma AssignedKeysStart(lines: seq<string>, given: seq<Item>)
    requires forall i :: 0 <= i < |given| ==> KeyStarts(given[i])
    ensures forall k :: k in KeysOf(Assignments(lines, given)) ==> NoLeadingSpace(k)
  {
    var settings := Settings(lines);
    var items := Assignments(lines, given);
    SettingsKeysStart(lines);
    forall k | k in KeysOf(items) ensures NoLeadingSpace(k) {
      var t :| 0 <= t < |items| && KeysOf(items)[t] == k;
      if t < |settings| {
        assert items[t] == settings[t] && settings[t] in settings;
      } else {
        assert items[t] == given[t - |settings|];
      }
    }
  }

  /** The text written is the other lines (leading whitespace dropped), then
      one `key=value` line per entry of the dictionary, ending with a newline:
      the `lstrip` never reaches the settings. */
  lemma EnvTextWithLayout(existing: Option<string>, given: seq<Item>)
    requires |given| > 0 && forall i :: 0 <= i < |given| ==> KeyStarts(given[i])
    ensures var lines := ExistingLines(existing);
            var d := PutAll(Assignments(lines, given));
            EnvTextWith(existing, given) == LStrip(OthersText(OtherLines(lines))) + (SettingsText(d) + "\n")
  {
    var lines := ExistingLines(existing);
    var items := Assignments(lines, given);
    var d := PutAll(items);
    PutAllKeys(items);
    AssignedKeysStart(lines, given);
    assert KeysOf(items)[|items| - 1] in KeysOf(items);
    assert |d| > 0 && KeysOf(d)[0] in KeysOf(items);
    SettingsTextStart(d);
    var others := OthersText(OtherLines(lines));
    TrimStartAppend(others, SettingsText(d) + "\n");
  }

  /** The two keys saved start with a letter and differ. */
  lemma FreshKeys()
    ensures NoLeadingSpace(AnthropicKey) && NoLeadingSpace(GoogleKey) && AnthropicKey != GoogleKey
  {
    assert AnthropicKey[0] == 'A' && GoogleKey[0] == 'G';
  }

  /** The text `save_keys_to_env` writes: the other lines first, then the
      dictionary's entries, one `key=value` line each, ending with a newline. */
  lemma EnvTextLayout(existing: Option<string>, anthropic: string, google: string)
    ensures var lines := ExistingLines(existing);
            var d := PutAll(Assignments(lines, Fresh(anthropic, google)));
            EnvText(existing, anthropic, google) == LStrip(OthersText(OtherLines(lines))) + (SettingsText(d) + "\n")
  {
    FreshKeys();
    EnvTextWithLayout(existing, Fresh(anthropic, google));
  }

  /** Assigning two keys last: the dictionary holds every key read or
      assigned, each once, in order of first appearance. */
  lemma KeysAfterGiven(settings: seq<Item>, ka: string, a: string, kg: string, g: string)
    ensures KeysOf(PutAll(settings + [(ka, a), (kg, g)])) == Dedup(KeysOf(settings) + [ka, kg])
  {
    PutAllKeys(settings + [(ka, a), (kg, g)]);
    TwoMoreItems(settings, ka, a, kg, g);
  }

  /** Assigning two distinct keys last: they hold the given values, and
      every other key holds the value of its last setting. */
  lemma ValuesAfterGiven(settings: seq<Item>, ka: string, a: string, kg: string, g: string)
    requires ka != kg
    ensures var d := PutAll(settings + [(ka, a), (kg, g)]);
            var m := BuildMap(KeysOf(settings), ValuesOf(settings));
            && (forall i :: 0 <= i < |d| && d[i].0 == ka ==> d[i].1 == a)
            && (forall i :: 0 <= i < |d| && d[i].0 == kg ==> d[i].1 == g)
            && forall i :: 0 <= i < |d| && d[i].0 != ka && d[i].0 != kg ==> d[i].0 in m && d[i].1 == m[d[i].0]
  {
    var items := settings + [(ka, a), (kg, g)];
    PutAllValues(items);
    TwoMoreItems(settings, ka, a, kg, g);
    BuildMapTwoMore(KeysOf(settings), ValuesOf(settings), ka, a, kg, g);
    AgreesAfterTwo(PutAll(items), BuildMap(KeysOf(settings), ValuesOf(settings)), ka, a, kg, g);
  }

  lemma TwoMoreItems(settings: seq<Item>, ka: string, a: string, kg: string, g: string)
    ensures KeysOf(settings + [(ka, a), (kg, g)]) == KeysOf(settings) + [ka, kg]
    ensures ValuesOf(settings + [(ka, a), (kg, g)]) == ValuesOf(settings) + [a, g]
  {
    KeysOfAppend(settings, [(ka, a), (kg, g)]);
    assert KeysOf([(ka, a), (kg, g)]) == [ka, kg] && ValuesOf([(ka, a), (kg, g)]) == [a, g];
  }

  /** Agreeing with a map after two distinct updates: the updated keys hold
      the new values, every other key what the map held. */
  lemma AgreesAfterTwo(d: seq<Item>, m: map<string, string>, ka: string, a: string, kg: string, g: string)
    requires ka != kg && Agrees(d, m[ka := a][kg := g])
    ensures forall i :: 0 <= i < |d| && d[i].0 == ka ==> d[i].1 == a
    ensures forall i :: 0 <= i < |d| && d[i].0 == kg ==> d[i].1 == g
    ensures forall i :: 0 <= i < |d| && d[i].0 != ka && d[i].0 != kg ==> d[i].0 in m && d[i].1 == m[d[i].0]
  {
  }

  /** Two more assignments update the map built so far. */
  lemma BuildMapTwoMore(ks: seq<string>, vs: seq<string>, ka: string, a: string, kg: string, g: string)
    requires |ks| == |vs|
    ensures BuildMap(ks + [ka, kg], vs + [a, g]) == BuildMap(ks, vs)[ka := a][kg := g]
  {
    var n := |ks|;
    assert (ks + [ka, kg])[..n + 1] == ks + [ka] && (vs + [a, g])[..n + 1] == vs + [a];
    assert (ks + [ka])[..n] == ks && (vs + [a])[..n] == vs;
  }

  /** `save_keys_to_env`'s dictionary: every key of the existing text and the
      two API keys, each once, in order of first appearance; the API keys hold
      the given values and every other key the value of its last line. */
  lemma EnvSettings(lines: seq<string>, anthropic: string, google: string)
    ensures var d := PutAll(Assignments(lines, Fresh(anthropic, google)));
            var m := BuildMap(KeysOf(Settings(lines)), ValuesOf(Settings(lines)));
            && KeysOf(d) == Dedup(KeysOf(Settings(lines)) + [AnthropicKey, GoogleKey])
            && (forall i :: 0 <= i < |d| && d[i].0 == AnthropicKey ==> d[i].1 == anthropic)
            && (forall i :: 0 <= i < |d| && d[i].0 == GoogleKey ==> d[i].1 == google)
            && forall i :: 0 <= i < |d| && d[i].0 != AnthropicKey && d[i].0 != GoogleKey ==>
                 d[i].0 in m && d[i].1 == m[d[i].0]
  {
    FreshKeys();
    KeysAfterGiven(Settings(lines), AnthropicKey, anthropic, GoogleKey, google);
    ValuesAfterGiven(Settings(lines), AnthropicKey, anthropic, GoogleKey, google);
  }

  /** Without a file the dictionary is the two distinct keys, in order. */
  lemma DictWithoutFile(ka: string, a: string, kg: string, g: string)
    requires ka != kg
    ensures PutAll(Assignments([], [(ka, a), (kg, g)])) == [(ka, a), (kg, g)]
  {
    var items := Assignments([], [(ka, a), (kg, g)]);
    assert Settings([]) == [];
    assert items == [(ka, a), (kg, g)];
    assert items[..1] == [(ka, a)] && items[..1][..0] == [];
    assert PutAll(items[..1]) == [(ka, a)];
  }

  lemma SettingsTextTwo(ka: string, a: string, kg: string, g: string)
    ensures SettingsText([(ka, a), (kg, g)]) == SettingLine(ka, a) + "\n" + SettingLine(kg, g)
  {
    var d := [(ka, a), (kg, g)];
    var lines := seq(|d|, i requires 0 <= i < |d| => SettingLine(d[i].0, d[i].1));
    assert lines == [SettingLine(ka, a), SettingLine(kg, g)];
    assert SettingsText(d) == Join("\n", lines);
    assert lines[1..] == [SettingLine(kg, g)];
    assert Join("\n", lines[1..]) == SettingLine(kg, g);
  }

  /** Without a file, two distinct keys are written alone, in order. */
  lemma TextWithoutFile(ka: string, a: string, kg: string, g: string)
    requires ka != kg && NoLeadingSpace(ka) && NoLeadingSpace(kg)
    ensures EnvTextWith(None, [(ka, a), (kg, g)]) == SettingLine(ka, a) + "\n" + SettingLine(kg, g) + "\n"
  {
    DictWithoutFile(ka, a, kg, g);
    SettingsTextTwo(ka, a, kg, g);
    EnvTextWithLayout(None, [(ka, a), (kg, g)]);
    assert ExistingLines(None) == [];
    assert OthersText(OtherLines([])) == "";
    assert LStrip("") == "";
    var body := SettingLine(ka, a) + "\n" + SettingLine(kg, g);
    assert EnvTextWith(None, [(ka, a), (kg, g)]) == "" + (body + "\n");
    assert "" + (body + "\n") == body + "\n";
  }

  /** Without a file the text is exactly the two API keys, in order. */
  lemma EnvTextWithoutFile(anthropic: string, google: string)
    ensures EnvText(None, anthropic, google)
              == SettingLine(AnthropicKey, anthropic) + "\n" + SettingLine(GoogleKey, google) + "\n"
  {
    FreshKeys();
    TextWithoutFile(AnthropicKey, anthropic, GoogleKey, google);
  }

  /** The other lines are kept verbatim: exactly the lines that are not
      settings. */
  lemma OtherLinesVerbatim(lines: seq<string>, x: string)
    ensures x in OtherLines(lines) <==> exists i :: 0 <= i < |lines| && ParseLine(lines[i]).Other? && lines[i] == x
  {
    MapFilterMembers(Parsed(lines), IsOther, LineOf, x);
  }

  // ---- the generate button ----

  /** What the sidebar holds: whether a CSV file was uploaded, the sitemap URL
      and the two API keys. */
  datatype Inputs = Inputs(csvUploaded: bool, sitemapUrl: string, anthropicKey: string, googleKey: string)

  /** The labels of the missing inputs, in the order they are checked. */
  const Labels := ["fichier CSV", "URL sitemap", "cl\U{E9} Anthropic", "cl\U{E9} Google"]

  /** Which inputs are present (a string is present when it is not empty). */
  function Present(inp: Inputs): seq<bool> {
    [inp.csvUploaded, |inp.sitemapUrl| > 0, |inp.anthropicKey| > 0, |inp.googleKey| > 0]
  }

  /** `can_generate`. */
  predicate CanGenerate(inp: Inputs) {
    inp.csvUploaded && |inp.sitemapUrl| > 0 && |inp.anthropicKey| > 0 && |inp.googleKey| > 0
  }

  /** The labels whose input is absent, in order. */
  function Absent(present: seq<bool>, labels: seq<string>): (r: seq<string>)
    requires |present| == |labels|
    ensures |r| <= |labels|
    decreases |labels|
  {
    if |labels| == 0 then []
    else (if present[0] then [] else [labels[0]]) + Absent(present[1..], labels[1..])
  }

  /** `missing`: the labels of the inputs not given. */
  function Missing(inp: Inputs): seq<string> {
    Absent(Present(inp), Labels)
  }

  /** The message shown when the button is disabled. */
  function MissingMessage(inp: Inputs): Option<string> {
    if CanGenerate(inp) then None else Some("\U{26A0}\U{FE0F} Manquant : " + Join(", ", Missing(inp)))
  }

  /** Nothing is absent exactly when everything is present; the absent labels
      keep their order; a label is listed exactly when its input is absent. */
  lemma {:induction false} AbsentFacts(present: seq<bool>, labels: seq<string>)
    requires |present| == |labels| && NoDups(labels)
    ensures |Absent(present, labels)| == 0 <==> forall i :: 0 <= i < |present| ==> present[i]
    ensures IsSubsequence(Absent(present, labels), labels)
    ensures forall i :: 0 <= i < |labels| ==> (labels[i] in Absent(present, labels) <==> !present[i])
    decreases |labels|
  {
    if |labels| > 0 {
      var rest := Absent(present[1..], labels[1..]);
      assert NoDups(labels[1..]);
      AbsentFacts(present[1..], labels[1..]);
      AbsentMembers(present[1..], labels[1..]);
      assert labels[0] !in labels[1..];
      forall i | 0 <= i < |labels| ensures labels[i] in Absent(present, labels) <==> !present[i] {
        if i > 0 { assert labels[i] == labels[1..][i - 1] && present[i] == present[1..][i - 1]; }
      }
      assert (forall i :: 0 <= i < |present| ==> present[i])
             <==> present[0] && forall i :: 0 <= i < |present[1..]| ==> present[1..][i];
      if present[0] {
        assert Absent(present, labels) == rest;
        SubsequenceOfTail(rest, labels);
      } else {
        var r := Absent(present, labels);
        assert r == [labels[0]] + rest;
        assert r[0] == labels[0] && r[1..] == rest;
      }
    }
  }

  lemma {:induction false} AbsentMembers(present: seq<bool>, labels: seq<string>)
    requires |present| == |labels|
    ensures forall x :: x in Absent(present, labels) ==> x in labels
    decreases |labels|
  {
    if |labels| > 0 {
      AbsentMembers(present[1..], labels[1..]);
    }
  }

  /** The button is enabled exactly when nothing is missing; the missing
      labels are listed in the order the inputs are checked, each exactly when
      its input is absent, and the message appears only when disabled. */
  lemma MissingFacts(inp: Inputs)
    ensures CanGenerate(inp) <==> |Missing(inp)| == 0
    ensures IsSubsequence(Missing(inp), Labels)
    ensures forall i :: 0 <= i < 4 ==> (Labels[i] in Missing(inp) <==> !Present(inp)[i])
    ensures MissingMessage(inp).None? <==> CanGenerate(inp)
  {
    LabelsDistinct();
    AbsentFacts(Present(inp), Labels);
  }

  lemma LabelsDistinct()
    ensures NoDups(Labels)
  {
    assert Labels[0][0] == 'f' && Labels[1][0] == 'U';
    assert Labels[2][4] == 'A' && Labels[3][4] == 'G';
  }
}

=== FILE: architect.dfy ===
/** The architect stage (modules/semantic_architect.py): reading the model's
    editorial brief, and choosing the sitemap URLs offered to the model for
    internal links. The links the model returns are passed on as they are:
    nothing checks them against the sitemap. */
module Architect {
  import opened Common
  import opened Text
  import opened JsonExtract
  import opened ArticleBrief

  // ---- build_brief ----

  const InvalidJsonPrefix := "JSON invalide dans la r\U{E9}ponse Gemini (brief): "
  const NoJsonPrefix := "Gemini n'a pas retourn\U{E9} de JSON pour le brief.\nR\U{E9}ponse brute : "

  /** `build_brief(...)`: `reply` is the model's answer to the brief prompt and
      `decode` what `json.loads` makes of the extracted text. The parsed brief
      is returned; a decode error or a reply without JSON raises ValueError,
      quoting at most 500 characters; an exception from the model escapes. */
  function BuildBrief(reply: Reply, decode: string -> Decoded<Brief>): (r: Result<Brief>)
    ensures reply.Failure? ==> r == Err(Propagated(reply.message))
    ensures r.Ok? <==> reply.Response? && ExtractJson(Strip(reply.text)).Some?
                       && decode(ExtractJson(Strip(reply.text)).value).Decoded?
    ensures r.Ok? ==> r.value == decode(ExtractJson(Strip(reply.text)).value).value
    ensures reply.Response? && r.Err? ==> r.error.ValueError?
    ensures reply.Response? && ExtractJson(Strip(reply.text)).None? ==>
              r == Err(ValueError(NoJsonPrefix + Take(Strip(reply.text), 500)))
  {
    match reply
    case Failure(m) => Err(Propagated(m))
    case Response(text) =>
      var raw := Strip(text);
      match ExtractJson(raw)
      case None => Err(ValueError(NoJsonPrefix + Take(raw, 500)))
      case Some(js) =>
        match decode(js)
        case Malformed(e) => Err(ValueError(InvalidJsonPrefix + e + "\n---\n" + Take(js, 500)))
        case Decoded(b) => Ok(b)
  }

  /** A decode error's message names the error and quotes the start of the JSON. */
  lemma BuildBriefDecodeError(text: string, decode: string -> Decoded<Brief>)
    requires ExtractJson(Strip(text)).Some? && decode(ExtractJson(Strip(text)).value).Malformed?
    ensures var js := ExtractJson(Strip(text)).value;
            var r := BuildBrief(Response(text), decode);
            && r.Err? && r.error.ValueError?
            && StartsWith(r.error.message, InvalidJsonPrefix + decode(js).message)
            && EndsWith(r.error.message, js[..Min(500, |js|)])
  {
    var js := ExtractJson(Strip(text)).value;
    var msg := InvalidJsonPrefix + decode(js).message;
    var tail := "\n---\n" + Take(js, 500);
    assert msg + "\n---\n" + Take(js, 500) == msg + tail;
    assert (msg + tail)[..|msg|] == msg;
    assert (msg + tail)[|msg + tail| - |Take(js, 500)|..] == Take(js, 500);
  }

  // ---- find_internal_links: the URLs offered ----

  const DeepCap := 80
  const ShallowCap := 60
  const OfferCap := 70

  /** A substantive URL: `u.rstrip("/").split("/")` has at least four parts. */
  predicate IsDeep(u: string) { |Split(TrimEnd(u, IsSlash), '/')| >= 4 }

  /** Four parts means three slashes once the trailing ones are removed, so
      `https://site.fr/blog` already qualifies and only a bare host does not. */
  lemma IsDeepBySlashes(u: string)
    ensures IsDeep(u) <==> Count(TrimEnd(u, IsSlash), '/') >= 3
  {
    SplitCount(TrimEnd(u, IsSlash), '/');
  }

  /** The candidate URLs: the first 80 substantive ones in sitemap order, or
      the first 60 of all when none is substantive. */
  function Candidates(urls: seq<string>): seq<string> {
    var deep := Take(Filter(urls, IsDeep), DeepCap);
    if |deep| > 0 then deep else Take(urls, ShallowCap)
  }

  /** The URLs the prompt lists: at most 70 candidates. */
  function Offered(urls: seq<string>): seq<string> {
    Take(Candidates(urls), OfferCap)
  }

  lemma TakeTake<T>(s: seq<T>, m: nat, n: nat)
    ensures Take(Take(s, m), n) == Take(s, Min(m, n))
  {
  }

  lemma TakeIsSubsequence<T>(s: seq<T>, n: int)
    ensures IsSubsequence(Take(s, n), s)
  {
    PrefixIsSubsequence(Take(s, n), s);
  }

  /** The offer is at most 70 sitemap URLs, in sitemap order. When any URL is
      substantive it is the first 70 substantive URLs; otherwise it is the
      first 60 URLs. A non-empty sitemap always offers something. */
  lemma OfferedFacts(urls: seq<string>)
    ensures var o := Offered(urls);
            && |o| <= OfferCap
            && IsSubsequence(o, urls)
            && (forall u :: u in o ==> u in urls)
            && ((exists u :: u in urls && IsDeep(u)) ==>
                  o == Take(Filter(urls, IsDeep), OfferCap) && forall u :: u in o ==> IsDeep(u))
            && ((forall u :: u in urls ==> !IsDeep(u)) ==> o == Take(urls, ShallowCap))
            && (|urls| > 0 ==> |o| > 0)
  {
    var deep := Filter(urls, IsDeep);
    TakeTake(deep, DeepCap, OfferCap);
    TakeTake(urls, ShallowCap, OfferCap);
    if exists u :: u in urls && IsDeep(u) {
      var u :| u in urls && IsDeep(u);
      assert u in deep;
      TakeIsSubsequence(deep, OfferCap);
      FilterIsSubsequence(urls, IsDeep);
      SubsequenceTransitive(Take(deep, OfferCap), deep, urls);
      SubsequenceMembers(Take(deep, OfferCap), urls);
    } else {
      TakeIsSubsequence(urls, ShallowCap);
      SubsequenceMembers(Take(urls, ShallowCap), urls);
    }
  }

  lemma {:induction false} SubsequenceMembers<T>(a: seq<T>, b: seq<T>)
    requires IsSubsequence(a, b)
    ensures forall x :: x in a ==> x in b
    decreases |b|
  {
    if |a| > 0 {
      if a[0] == b[0] {
        SubsequenceMembers(a[1..], b[1..]);
        assert forall x :: x in a ==> x == a[0] || x in a[1..];
      } else {
        SubsequenceMembers(a, b[1..]);
      }
    }
  }

  // ---- find_internal_links: the result ----

  /** `find_internal_links(brief, sitemap_urls, keyword, model)`: `ask` is the
      model, seen through the URLs the prompt offers it; `decode` gives the
      `internal_links` value of the parsed JSON (`None` when the key is missing).
      The links are returned verbatim. */
  function FindInternalLinks(urls: seq<string>, ask: seq<string> -> Reply,
                             decode: string -> Decoded<Option<seq<InternalLink>>>): (r: Result<seq<InternalLink>>)
    ensures |urls| == 0 ==> r == Ok([])
    ensures r.Err? <==> |urls| > 0 && ask(Offered(urls)).Failure?
    ensures r.Err? ==> r == Err(Propagated(ask(Offered(urls)).message))
  {
    if |urls| == 0 then Ok([])
    else
      match ask(Offered(urls))
      case Failure(m) => Err(Propagated(m))
      case Response(text) =>
        match ExtractJson(Strip(text))
        case None => Ok([])
        case Some(js) =>
          match decode(js)
          case Malformed(_) => Ok([])
          case Decoded(links) => Ok(links.GetOr([]))
  }

  /** Whatever links the model's JSON names are the result, in its order,
      whether or not their URLs are in the sitemap. */
  lemma LinksAreVerbatim(urls: seq<string>, ask: seq<string> -> Reply,
                         decode: string -> Decoded<Option<seq<InternalLink>>>, links: seq<InternalLink>)
    requires |urls| > 0 && ask(Offered(urls)).Response?
    requires var js := ExtractJson(Strip(ask(Offered(urls)).text));
             js.Some? && decode(js.value) == Decoded(Some(links))
    ensures FindInternalLinks(urls, ask, decode) == Ok(links)
  {
  }

  /** No JSON in the answer, a decode error, or JSON without `internal_links`
      all give no links. */
  lemma NoLinksWithoutJson(urls: seq<string>, ask: seq<string> -> Reply,
                           decode: string -> Decoded<Option<seq<InternalLink>>>)
    requires |urls| > 0 && ask(Offered(urls)).Response?
    requires var js := ExtractJson(Strip(ask(Offered(urls)).text));
             js.None? || decode(js.value).Malformed? || decode(js.value) == Decoded(None)
    ensures FindInternalLinks(urls, ask, decode) == Ok([])
  {
  }

  /** An empty sitemap never reaches the model: the result does not depend on it. */
  lemma EmptySitemapSkipsModel(ask1: seq<string> -> Reply, ask2: seq<string> -> Reply,
                               decode: string -> Decoded<Option<seq<InternalLink>>>)
    ensures FindInternalLinks([], ask1, decode) == FindInternalLinks([], ask2, decode) == Ok([])
  {
  }

  /** The model sees only the offered URLs of the sitemap: two models that give
      the same answer for that offer give the same result. */
  lemma OnlyOfferedMatters(urls: seq<string>, ask1: seq<string> -> Reply, ask2: seq<string> -> Reply,
                           decode: string -> Decoded<Option<seq<InternalLink>>>)
    requires ask1(Offered(urls)) == ask2(Offered(urls))
    ensures FindInternalLinks(urls, ask1, decode) == FindInternalLinks(urls, ask2, decode)
  {
  }
}

=== FILE: brief.dfy ===
/** The editorial brief the architect stage produces and the later stages read
    (modules/semantic_architect.py), and the internal links chosen for it.
    Only the fields the modelled code looks at are kept; a field the code reads
    with `.get(key, default)` is an `Option` when the default differs between
    readers, and a plain value (the default when missing) otherwise. */
module ArticleBrief {
  import opened Common

  /** One H3 of a section: `id`, `h3`, `key_points`. */
  datatype Subsection = Subsection(id: Option<string>, h3: Option<string>, keyPoints: seq<string>)

  /** One H2 of the brief: `id`, `h2`, `lsi_to_use`, `key_points`,
      `media_suggestion` (`None` for null or missing) and `subsections`. */
  datatype Section = Section(
    id: Option<string>,
    h2: Option<string>,
    lsi: seq<string>,
    keyPoints: seq<string>,
    media: Option<string>,
    subsections: seq<Subsection>)

  /** One FAQ entry: `question`, `answer_hint`. */
  datatype FaqItem = FaqItem(question: string, answerHint: string)

  /** The brief: its `sections` and its `faq`. */
  datatype Brief = Brief(sections: seq<Section>, faq: seq<FaqItem>)

  /** One internal link proposed for the article: `url`, `anchor_text`,
      `target_section_id` (`None` when missing) and `integration_hint`. */
  datatype InternalLink = InternalLink(url: string, anchorText: string, targetSection: Option<string>, hint: string)
}

=== FILE: common.dfy ===
/** Value types shared by every module of the model (optional values, Python
    exceptions, model replies) and the sequence helpers the pipeline uses
    (Python slicing, filtering, order-preserving de-duplication, dict building). */
module Common {

  /** A value that may be absent: a missing dict key, a failed search. */
  datatype Option<T> = None | Some(value: T) {
    function GetOr(default: T): T {
      match this
      case Some(v) => v
      case None => default
    }
  }

  /** The Python exceptions the modelled code lets escape, tagged by class. */
  datatype Error =
    | ValueError(message: string)
    | TypeError(message: string)
    | AttributeError(message: string)
    | KeyError(message: string)
    | OverflowError(message: string)
      // raised by a collaborator (a model client) and not caught on the way up
    | Propagated(message: string)

  /** The outcome of a Python function that either returns a value or raises. */
  datatype Result<T> = Ok(value: T) | Err(error: Error)

  /** What `json.loads`, together with reading the fields a stage expects,
      makes of one extracted text: a decode error, or the value. */
  datatype Decoded<T> = Malformed(message: string) | Decoded(value: T)

  /** One call of a language-model client: generated text, or an exception
      whose `str()` is `message`. */
  datatype Reply = Response(text: string) | Failure(message: string)

  function Min(a: int, b: int): int { if a <= b then a else b }
  function Max(a: int, b: int): int { if a >= b then a else b }

  /** Python's `int(a / b)` for a positive divisor: division truncating toward zero
      (Dafny's `/` is Euclidean, which differs for a negative dividend). */
  function TruncDiv(a: int, b: int): (q: int)
    requires b > 0
    ensures a >= 0 ==> q == a / b
    ensures a < 0 ==> q == -((-a) / b)
  {
    if a >= 0 then a / b else -((-a) / b)
  }

  /** Python's prefix slice `s[:n]`, for any integer `n` (a negative `n` drops
      elements from the end). */
  function Take<T>(s: seq<T>, n: int): (r: seq<T>)
    ensures |r| <= |s| && r == s[..|r|]
    ensures n >= 0 ==> |r| == Min(n, |s|)
    ensures n < 0 ==> |r| == Max(|s| + n, 0)
  {
    if n >= 0 then (if n <= |s| then s[..n] else s)
    else if |s| + n > 0 then s[..|s| + n] else []
  }

  /** Python's suffix slice `s[-n:]` for a positive `n`: the last `n` elements. */
  function TakeLast<T>(s: seq<T>, n: nat): (r: seq<T>)
    requires n > 0
    ensures |r| == Min(n, |s|) && r == s[|s| - |r|..]
  {
    if n <= |s| then s[|s| - n..] else s
  }

  /** No element occurs twice. */
  predicate NoDups<T(==)>(s: seq<T>) {
    forall i, j :: 0 <= i < j < |s| ==> s[i] != s[j]
  }

  /** `[x for x in s if p(x)]`. */
  function Filter<T(!new)>(s: seq<T>, p: T -> bool): (r: seq<T>)
    ensures |r| <= |s|
    ensures forall x :: x in r <==> x in s && p(x)
    ensures forall i :: 0 <= i < |r| ==> p(r[i])
  {
    if |s| == 0 then []
    else if p(s[0]) then [s[0]] + Filter(s[1..], p)
    else Filter(s[1..], p)
  }

  /** Filtering keeps distinct elements distinct. */
  lemma {:induction false} FilterNoDups<T(!new)>(s: seq<T>, p: T -> bool)
    requires NoDups(s)
    ensures NoDups(Filter(s, p))
    decreases |s|
  {
    if |s| > 0 {
      assert NoDups(s[1..]);
      FilterNoDups(s[1..], p);
    }
  }

  /** Filtering distributes over concatenation. */
  lemma {:induction false} FilterAppend<T(!new)>(a: seq<T>, b: seq<T>, p: T -> bool)
    ensures Filter(a + b, p) == Filter(a, p) + Filter(b, p)
    decreases |a|
  {
    if |a| == 0 {
      assert a + b == b;
    } else {
      assert (a + b)[1..] == a[1..] + b;
      FilterAppend(a[1..], b, p);
    }
  }

  /** Filtering keeps a sequence whose elements all pass unchanged. */
  lemma {:induction false} FilterAll<T(!new)>(s: seq<T>, p: T -> bool)
    requires forall i :: 0 <= i < |s| ==> p(s[i])
    ensures Filter(s, p) == s
    decreases |s|
  {
    if |s| > 0 {
      FilterAll(s[1..], p);
    }
  }

  /** Number of occurrences of `x` in `s`. */
  function Count<T(==)>(s: seq<T>, x: T): nat {
    if |s| == 0 then 0 else (if s[0] == x then 1 else 0) + Count(s[1..], x)
  }

  /** `a` is obtained from `b` by deleting elements: same relative order. */
  predicate IsSubsequence<T(==)>(a: seq<T>, b: seq<T>)
    decreases |b|
  {
    |a| == 0 || (|b| > 0 && if a[0] == b[0] then IsSubsequence(a[1..], b[1..]) else IsSubsequence(a, b[1..]))
  }

  lemma {:induction false} FilterIsSubsequence<T(!new)>(s: seq<T>, p: T -> bool)
    ensures IsSubsequence(Filter(s, p), s)
    decreases |s|
  {
    if |s| > 0 {
      FilterIsSubsequence(s[1..], p);
      if !p(s[0]) {
        SubsequenceOfTail(Filter(s[1..], p), s);
      }
    }
  }

  lemma {:induction false} SubsequenceOfTail<T>(a: seq<T>, b: seq<T>)
    requires |b| > 0 && IsSubsequence(a, b[1..])
    ensures IsSubsequence(a, b)
    decreases |b|, |a|
  {
    if |a| > 0 && a[0] == b[0] {
      SubsequenceDropHead(a, b[1..]);
    }
  }

  lemma {:induction false} SubsequenceDropHead<T>(a: seq<T>, b: seq<T>)
    requires |a| > 0 && IsSubsequence(a, b)
    ensures IsSubsequence(a[1..], b)
    decreases |b|, |a|
  {
    if a[0] == b[0] {
      if |a[1..]| > 0 {
        SubsequenceOfTail(a[1..], b);
      }
    } else {
      SubsequenceDropHead(a, b[1..]);
      if |a[1..]| > 0 {
        SubsequenceOfTail(a[1..], b);
      }
    }
  }

  lemma {:induction false} PrefixIsSubsequence<T>(a: seq<T>, b: seq<T>)
    requires |a| <= |b| && a == b[..|a|]
    ensures IsSubsequence(a, b)
    decreases |b|
  {
    if |a| > 0 {
      assert a[1..] == b[1..][..|a| - 1];
      PrefixIsSubsequence(a[1..], b[1..]);
    }
  }

  lemma {:induction false} SubsequenceTransitive<T>(a: seq<T>, b: seq<T>, c: seq<T>)
    requires IsSubsequence(a, b) && IsSubsequence(b, c)
    ensures IsSubsequence(a, c)
    decreases |c|
  {
    if |a| > 0 {
      assert |b| > 0 && |c| > 0;
      if b[0] == c[0] {
        if a[0] == b[0] {
          SubsequenceTransitive(a[1..], b[1..], c[1..]);
        } else {
          SubsequenceTransitive(a, b[1..], c[1..]);
          SubsequenceOfTail(a, c);
        }
      } else {
        SubsequenceTransitive(a, b, c[1..]);
        SubsequenceOfTail(a, c);
      }
    }
  }

  /** `list(dict.fromkeys(s))` with the keys in `seen` already present: keeps the
      first occurrence of every element not yet seen, in order. */
  function DedupFrom<T(==,!new)>(s: seq<T>, seen: set<T>): (r: seq<T>)
    ensures NoDups(r)
    ensures forall x :: x in r <==> x in s && x !in seen
    ensures |r| <= |s|
  {
    if |s| == 0 then []
    else if s[0] in seen then DedupFrom(s[1..], seen)
    else [s[0]] + DedupFrom(s[1..], seen + {s[0]})
  }

  /** `list(dict.fromkeys(s))`: order-preserving de-duplication. */
  function Dedup<T(==,!new)>(s: seq<T>): (r: seq<T>)
    ensures NoDups(r)
    ensures forall x :: x in r <==> x in s
    ensures |r| <= |s|
  {
    DedupFrom(s, {})
  }

  /** First-occurrence order: appending an element already present changes
      nothing, appending a new one puts it last. */
  lemma DedupSnoc<T(!new)>(s: seq<T>, x: T)
    ensures Dedup(s + [x]) == if x in s then Dedup(s) else Dedup(s) + [x]
  {
    DedupFromSnoc(s, {}, x);
  }

  lemma {:induction false} DedupFromSnoc<T(!new)>(s: seq<T>, seen: set<T>, x: T)
    ensures DedupFrom(s + [x], seen) ==
            if x in s || x in seen then DedupFrom(s, seen) else DedupFrom(s, seen) + [x]
    decreases |s|
  {
    if |s| == 0 {
      assert s + [x] == [x];
      assert [x][1..] == [];
    } else {
      assert (s + [x])[0] == s[0];
      assert (s + [x])[1..] == s[1..] + [x];
      if s[0] in seen {
        DedupFromSnoc(s[1..], seen, x);
      } else {
        DedupFromSnoc(s[1..], seen + {s[0]}, x);
      }
    }
  }

  /** De-duplicating a list that has no duplicates leaves it unchanged. */
  lemma {:induction false} DedupOfDistinct<T(!new)>(s: seq<T>)
    requires NoDups(s)
    ensures Dedup(s) == s
    decreases |s|
  {
    if |s| > 0 {
      var init := s[..|s| - 1];
      assert s == init + [s[|s| - 1]];
      assert forall k :: 0 <= k < |init| ==> init[k] == s[k] && s[k] != s[|s| - 1];
      assert s[|s| - 1] !in init;
      DedupOfDistinct(init);
      DedupSnoc(init, s[|s| - 1]);
    }
  }

  /** The dict left behind by `for k, v in zip(keys, vals): d[k] = v`:
      a later duplicate key overwrites the value of an earlier one. */
  function BuildMap<K, V>(keys: seq<K>, vals: seq<V>): (m: map<K, V>)
    requires |keys| == |vals|
    ensures m.Keys == set k | k in keys
    decreases |keys|
  {
    if |keys| == 0 then map[]
    else BuildMap(keys[..|keys| - 1], vals[..|vals| - 1])[keys[|keys| - 1] := vals[|vals| - 1]]
  }

  /** Every entry of the dict holds the value written by the last occurrence of its key. */
  lemma {:induction false} BuildMapSource<K, V>(keys: seq<K>, vals: seq<V>, k: K)
    requires |keys| == |vals| && k in keys
    ensures exists i :: 0 <= i < |keys| && keys[i] == k && BuildMap(keys, vals)[k] == vals[i]
                        && forall j :: i < j < |keys| ==> keys[j] != k
    decreases |keys|
  {
    var n := |keys| - 1;
    if keys[n] != k {
      var ks, vs := keys[..n], vals[..n];
      assert k in ks by {
        var t :| 0 <= t < |keys| && keys[t] == k;
        assert t < n && ks[t] == k;
      }
      BuildMapSource(ks, vs, k);
      var i :| 0 <= i < |ks| && ks[i] == k && BuildMap(ks, vs)[k] == vs[i]
               && forall j :: i < j < |ks| ==> ks[j] != k;
      assert keys[i] == k && BuildMap(keys, vals)[k] == vals[i];
      assert forall j :: i < j < |keys| ==> keys[j] != k by {
        forall j | i < j < |keys| ensures keys[j] != k {
          if j < n { assert keys[j] == ks[j]; }
        }
      }
    }
  }

  /** The value written by the last occurrence of a key is the one the dict keeps. */
  lemma BuildMapLast<K, V>(keys: seq<K>, vals: seq<V>, i: int)
    requires |keys| == |vals| && 0 <= i < |keys|
    requires forall j :: i < j < |keys| ==> keys[j] != keys[i]
    ensures BuildMap(keys, vals)[keys[i]] == vals[i]
  {
    BuildMapSource(keys, vals, keys[i]);
    var t :| 0 <= t < |keys| && keys[t] == keys[i] && BuildMap(keys, vals)[keys[i]] == vals[t]
             && forall j :: t < j < |keys| ==> keys[j] != keys[i];
    assert t == i;
  }

  /** A slice that lies inside a sequence's middle part is a slice of that part. */
  lemma SliceOfMiddle<T>(a: seq<T>, m: seq<T>, b: seq<T>, x: int, y: int)
    requires 0 <= x <= y <= |m|
    ensures (a + m + b)[|a| + x..|a| + y] == m[x..y]
  {
    var s := a + m + b;
    assert s[|a|..|a| + |m|] == m;
    assert s[|a| + x..|a| + y] == s[|a|..|a| + |m|][x..y];
  }

  /** `[x for part in parts for x in part]`. */
  function Flatten<T>(parts: seq<seq<T>>): seq<T>
    decreases |parts|
  {
    if |parts| == 0 then [] else Flatten(parts[..|parts| - 1]) + parts[|parts| - 1]
  }

  /** What holds of every element of every part holds of the flattened sequence. */
  lemma {:induction false} FlattenAll<T>(parts: seq<seq<T>>, p: T -> bool)
    requires forall i, j :: 0 <= i < |parts| && 0 <= j < |parts[i]| ==> p(parts[i][j])
    ensures forall k :: 0 <= k < |Flatten(parts)| ==> p(Flatten(parts)[k])
    decreases |parts|
  {
    if |parts| > 0 {
      var n := |parts| - 1;
      FlattenAll(parts[..n], p);
      var init := Flatten(parts[..n]);
      assert forall k :: |init| <= k < |Flatten(parts)| ==> Flatten(parts)[k] == parts[n][k - |init|];
    }
  }

  /** Part `i` sits in the flattened sequence right after the parts before it. */
  lemma {:induction false} FlattenAt<T>(parts: seq<seq<T>>, i: nat)
    requires i < |parts|
    ensures var at := |Flatten(parts[..i])|;
            at + |parts[i]| <= |Flatten(parts)| && Flatten(parts)[at..at + |parts[i]|] == parts[i]
    decreases |parts|
  {
    var n := |parts| - 1;
    var init := Flatten(parts[..n]);
    var at := |Flatten(parts[..i])|;
    if i < n {
      assert parts[..n][..i] == parts[..i] && parts[..n][i] == parts[i];
      FlattenAt(parts[..n], i);
      assert Flatten(parts)[at..at + |parts[i]|] == init[at..at + |parts[i]|];
    } else {
      assert parts[..i] == parts[..n];
    }
  }

  /** The same, with a prefix and a suffix around the flattened parts. */
  lemma FlattenFramedAt<T>(head: seq<T>, parts: seq<seq<T>>, tail: seq<T>, i: nat)
    requires i < |parts|
    ensures var at := |head| + |Flatten(parts[..i])|;
            var all := head + Flatten(parts) + tail;
            at + |parts[i]| <= |all| && all[at..at + |parts[i]|] == parts[i]
  {
    FlattenAt(parts, i);
    SliceOfMiddle(head, Flatten(parts), tail, |Flatten(parts[..i])|, |Flatten(parts[..i])| + |parts[i]|);
  }

  /** Part `i` of a framed, flattened sequence, found at its offset. */
  lemma FramedPart<T>(all: seq<T>, head: seq<T>, parts: seq<seq<T>>, tail: seq<T>, i: nat, at: int, part: seq<T>)
    requires i < |parts| && all == head + Flatten(parts) + tail
    requires at == |head| + |Flatten(parts[..i])| && part == parts[i]
    ensures at + |part| <= |all| && all[at..at + |part|] == part
  {
    FlattenFramedAt(head, parts, tail, i);
  }

  /** `[f(x) for x in s if p(x)]`. */
  function MapFilter<A, B>(s: seq<A>, p: A -> bool, f: A -> B): (r: seq<B>)
    ensures |r| <= |s|
    decreases |s|
  {
    if |s| == 0 then [] else (if p(s[0]) then [f(s[0])] else []) + MapFilter(s[1..], p, f)
  }

  /** The result holds exactly the images of the elements that pass. */
  lemma {:induction false} MapFilterMembers<A, B>(s: seq<A>, p: A -> bool, f: A -> B, x: B)
    ensures x in MapFilter(s, p, f) <==> exists i :: 0 <= i < |s| && p(s[i]) && x == f(s[i])
    decreases |s|
  {
    if |s| > 0 {
      MapFilterMembers(s[1..], p, f, x);
      if exists i :: 0 <= i < |s| && p(s[i]) && x == f(s[i]) {
        var i :| 0 <= i < |s| && p(s[i]) && x == f(s[i]);
        if i > 0 { assert s[1..][i - 1] == s[i]; }
      }
      if exists i :: 0 <= i < |s[1..]| && p(s[1..][i]) && x == f(s[1..][i]) {
        var i :| 0 <= i < |s[1..]| && p(s[1..][i]) && x == f(s[1..][i]);
        assert s[i + 1] == s[1..][i];
      }
    }
  }

  /** Appending an element appends its image exactly when it passes, so the
      result keeps the order and the multiplicity of the passing elements. */
  lemma {:induction false} MapFilterSnoc<A, B>(s: seq<A>, a: A, p: A -> bool, f: A -> B)
    ensures MapFilter(s + [a], p, f) == MapFilter(s, p, f) + (if p(a) then [f(a)] else [])
    decreases |s|
  {
    if |s| == 0 {
      assert s + [a] == [a];
    } else {
      var head := if p(s[0]) then [f(s[0])] else [];
      var tail := if p(a) then [f(a)] else [];
      assert (s + [a])[0] == s[0];
      assert (s + [a])[1..] == s[1..] + [a];
      MapFilterSnoc(s[1..], a, p, f);
      assert MapFilter(s + [a], p, f) == head + (MapFilter(s[1..], p, f) + tail);
      assert head + (MapFilter(s[1..], p, f) + tail) == (head + MapFilter(s[1..], p, f)) + tail;
    }
  }

  /** Every element passing `p` maps to one satisfying `q`, so all of the
      result satisfies `q`. */
  lemma {:induction false} MapFilterAll<A, B>(s: seq<A>, p: A -> bool, f: A -> B, q: B -> bool)
    requires forall i :: 0 <= i < |s| && p(s[i]) ==> q(f(s[i]))
    ensures forall y :: y in MapFilter(s, p, f) ==> q(y)
    decreases |s|
  {
    if |s| > 0 {
      assert forall i :: 0 <= i < |s| - 1 ==> s[1..][i] == s[i + 1];
      MapFilterAll(s[1..], p, f, q);
    }
  }
}

=== FILE: gemini.dfy ===
/** `GeminiWrapper.generate_content` (modules/utils.py): try the requested model,
    then every other available model; on each, retry a temporarily overloaded
    service with a linear back-off; stop at once on a quota error or an error of
    unknown kind; give up when every candidate has been tried.

    The client is an oracle: the `n`-th call of the run, made with a given model,
    returns generated text or an error message (the `str()` of the exception).
    Waiting is recorded in the trace instead of being performed. */
module Gemini {
  import opened Common
  import opened Text

  /** How an error message is understood, in the order the source tests it. */
  datatype ErrorKind = ModelUnavailable | QuotaExhausted | Overloaded | Unknown

  const UnavailableMarkers: seq<string> := ["404", "not_found", "not found", "403", "permission"]
  const QuotaMarkers: seq<string> := ["429", "resource_exhausted", "quota"]
  const OverloadMarkers: seq<string> := ["503", "unavailable", "overloaded", "temporarily"]

  /** Classification of the lowercased message by substring, first matching
      group wins. */
  function Classify(message: string): ErrorKind {
    var m := Lower(message);
    if ContainsAny(m, UnavailableMarkers) then ModelUnavailable
    else if ContainsAny(m, QuotaMarkers) then QuotaExhausted
    else if ContainsAny(m, OverloadMarkers) then Overloaded
    else Unknown
  }

  /** The groups are checked in a fixed priority order: a message is a quota error
      only if it names no unavailable model, and an overload only if it is neither. */
  lemma ClassifyPriority(message: string)
    ensures var m := Lower(message);
            && (Classify(message) == ModelUnavailable <==> ContainsAny(m, UnavailableMarkers))
            && (Classify(message) == QuotaExhausted <==>
                  !ContainsAny(m, UnavailableMarkers) && ContainsAny(m, QuotaMarkers))
            && (Classify(message) == Overloaded <==>
                  !ContainsAny(m, UnavailableMarkers) && !ContainsAny(m, QuotaMarkers) && ContainsAny(m, OverloadMarkers))
            && (Classify(message) == Unknown <==>
                  !ContainsAny(m, UnavailableMarkers) && !ContainsAny(m, QuotaMarkers) && !ContainsAny(m, OverloadMarkers))
  {
  }

  /** The client: reply to the `n`-th call of a run, made with `model`. */
  type Client = (nat, string) -> Reply

  /** How the wrapper reads an error message; `Classify` in the wrapper itself.
      The retry and candidate loops are stated for any reading, so that their
      proofs do not depend on the marker lists. */
  type Classifier = string -> ErrorKind

  /** What the wrapper does, in order: a client call (with the attempt number
      on that model) and the back-off waits between retries. */
  datatype Event = Call(model: string, attempt: nat, reply: Reply) | Wait(seconds: nat)

  /** How a run ends. */
  datatype Outcome =
    | Answered(text: string, model: string)
      // RuntimeError raised at once on a quota error; `detail` is the client's message
    | QuotaExceeded(detail: string)
      // the client's own exception, re-raised
    | Reraised(message: string)
      // RuntimeError after every candidate; `lastError` is the message of the last
      // error that moved on to the next model
    | Exhausted(tried: seq<string>, lastError: Option<string>)

  datatype Run = Run(outcome: Outcome, trace: seq<Event>)

  /** How trying one model ends. */
  datatype ModelEnd = Returned(text: string) | QuotaHit(detail: string) | Raised(message: string) | NextModel(error: string)

  datatype ModelRun = ModelRun(end: ModelEnd, events: seq<Event>)

  /** The requested model first, then every available model other than it, in
      order: the others keep the order of `available`, and each occurrence of
      another model is kept. */
  function Candidates(requested: string, available: seq<string>): (c: seq<string>)
    ensures |c| >= 1 && c[0] == requested
    ensures forall m :: m in c[1..] <==> m in available && m != requested
    ensures IsSubsequence(c[1..], available)
    ensures |c| == 1 + |available| - Count(available, requested)
    ensures NoDups(available) ==> NoDups(c)
  {
    var other := m => m != requested;
    var rest := Filter(available, other);
    assert NoDups(available) ==> NoDups(rest) by {
      if NoDups(available) { FilterNoDups(available, other); }
    }
    FilterIsSubsequence(available, other);
    FilterOthersCount(available, requested, other);
    assert ([requested] + rest)[1..] == rest;
    [requested] + rest
  }

  /** Filtering out one value drops exactly its occurrences. */
  lemma {:induction false} FilterOthersCount(s: seq<string>, x: string, other: string -> bool)
    requires forall m :: other(m) <==> m != x
    ensures |Filter(s, other)| == |s| - Count(s, x)
    decreases |s|
  {
    if |s| > 0 { FilterOthersCount(s[1..], x, other); }
  }

  /** Number of client calls in a trace. */
  function CallCount(trace: seq<Event>): nat {
    if |trace| == 0 then 0 else (if trace[0].Call? then 1 else 0) + CallCount(trace[1..])
  }

  lemma {:induction false} CallCountAppend(a: seq<Event>, b: seq<Event>)
    ensures CallCount(a + b) == CallCount(a) + CallCount(b)
    decreases |a|
  {
    if |a| == 0 {
      assert a + b == b;
    } else {
      assert (a + b)[1..] == a[1..] + b;
      CallCountAppend(a[1..], b);
    }
  }

  /** Back-off before retry `attempt + 1`: 5 s, 10 s, 15 s, ... */
  function Backoff(attempt: nat): nat { 5 * (attempt + 1) }

  /** The retry loop on one model, from `attempt` on; `n` counts the calls
      already made in the run. */
  function TryModel(client: Client, classify: Classifier, model: string, attempt: nat, retries: nat, n: nat): (r: ModelRun)
    requires attempt <= retries
    ensures |r.events| >= 1 && r.events[0] == Call(model, attempt, client(n, model))
    decreases retries - attempt
  {
    var reply := client(n, model);
    var call := Call(model, attempt, reply);
    match reply
    case Response(text) => ModelRun(Returned(text), [call])
    case Failure(msg) =>
      match classify(msg)
      case ModelUnavailable => ModelRun(NextModel(msg), [call])
      case QuotaExhausted => ModelRun(QuotaHit(msg), [call])
      case Overloaded =>
        if attempt < retries then
          var rest := TryModel(client, classify, model, attempt + 1, retries, n + 1);
          ModelRun(rest.end, [call, Wait(Backoff(attempt))] + rest.events)
        else ModelRun(NextModel(msg), [call])
      case Unknown => ModelRun(Raised(msg), [call])
  }

  /** The candidate loop from candidate `i` on. A negative retry count makes the
      retry loop empty, so every candidate is skipped without a call. */
  function RunFrom(client: Client, classify: Classifier, cands: seq<string>, i: nat, retries: int, n: nat,
                   lastError: Option<string>): (r: Run)
    requires i <= |cands|
    decreases |cands| - i
  {
    if i == |cands| then Run(Exhausted(cands, lastError), [])
    else if retries < 0 then RunFrom(client, classify, cands, i + 1, retries, n, lastError)
    else
      var m := TryModel(client, classify, cands[i], 0, retries, n);
      if m.end.NextModel? then
        var rest := RunFrom(client, classify, cands, i + 1, retries, n + CallCount(m.events), Some(m.end.error));
        Run(rest.outcome, m.events + rest.trace)
      else Run(Finish(m.end, cands[i]), m.events)
  }

  /** The outcome of a run whose model `model` ended it. */
  function Finish(end: ModelEnd, model: string): Outcome
    requires !end.NextModel?
  {
    match end
    case Returned(text) => Answered(text, model)
    case QuotaHit(d) => QuotaExceeded(d)
    case Raised(msg) => Reraised(msg)
  }

  /** `generate_content(prompt, _retries)` for a wrapper built with the requested
      model and the available list. */
  function Generate(client: Client, requested: string, available: seq<string>, retries: int): Run {
    RunFrom(client, Classify, Candidates(requested, available), 0, retries, 0, None)
  }

  const QuotaHeader: string :=
    "\U{26A0}\U{FE0F} Quota Gemini \U{E9}puis\U{E9} (erreur 429).\n\n"
    + "Solution : active la facturation sur ton projet Google Cloud.\n"
    + "\U{2192} console.cloud.google.com/billing\n\n"
    + "D\U{E9}tail : "

  const ExhaustedHeader: string := "Aucun mod\U{E8}le Gemini n'a pu r\U{E9}pondre.\nMod\U{E8}les test\U{E9}s : "

  /** Python's `repr` of a list of strings, for strings without quotes or
      backslashes. */
  function ListRepr(xs: seq<string>): string {
    "[" + Join(", ", seq(|xs|, i requires 0 <= i < |xs| => "'" + xs[i] + "'")) + "]"
  }

  /** What the caller of `generate_content` sees: the response text, or the
      message of the exception that escapes. */
  function AsReply(o: Outcome): (r: Reply)
    ensures r.Response? <==> o.Answered?
    ensures o.Answered? ==> r.text == o.text
    ensures o.QuotaExceeded? ==> StartsWith(r.message, QuotaHeader)
                                 && EndsWith(r.message, Take(o.detail, 200))
                                 && |r.message| <= |QuotaHeader| + 200
    ensures o.Reraised? ==> r.message == o.message
    ensures o.Exhausted? ==> StartsWith(r.message, ExhaustedHeader + ListRepr(o.tried))
  {
    match o
    case Answered(text, _) => Response(text)
    case QuotaExceeded(d) =>
      var msg := QuotaHeader + Take(d, 200);
      assert msg[..|QuotaHeader|] == QuotaHeader;
      Failure(msg)
    case Reraised(msg) => Failure(msg)
    case Exhausted(tried, lastError) =>
      var head := ExhaustedHeader + ListRepr(tried);
      var msg := head + "\nDerni\U{E8}re erreur : " + lastError.GetOr("None");
      assert msg[..|head|] == head;
      Failure(msg)
  }

  /** Finishing the retry loop from `attempt` on, after `events` and `calls` calls
      in the run, gives what the loop gives from its first attempt. */
  predicate Resumes(client: Client, classify: Classifier, model: string, retries: nat, n: nat,
                    attempt: nat, calls: nat, events: seq<Event>)
    requires attempt <= retries
  {
    var r := TryModel(client, classify, model, attempt, retries, calls);
    ModelRun(r.end, events + r.events) == TryModel(client, classify, model, 0, retries, n)
  }

  /** The retry loop on one model as the source writes it (`for attempt in
      range(_retries + 1)`); `n` counts the calls already made in the run. */
  method RetryModel(client: Client, classify: Classifier, model: string, retries: nat, n: nat)
    returns (end: ModelEnd, events: seq<Event>)
    ensures ModelRun(end, events) == TryModel(client, classify, model, 0, retries, n)
    ensures CallCount(events) >= 1
  {
    var attempt: nat := 0;
    var calls: nat := n;
    events := [];
    assert events + TryModel(client, classify, model, 0, retries, n).events == TryModel(client, classify, model, 0, retries, n).events;
    while true
      invariant attempt <= retries
      invariant calls == n + CallCount(events)
      invariant Resumes(client, classify, model, retries, n, attempt, calls, events)
      decreases retries - attempt
    {
      var reply := client(calls, model);
      var call := Call(model, attempt, reply);
      match reply {
        case Response(text) =>
          RetryStops(client, classify, model, retries, n, attempt, calls, events);
          return Returned(text), events + [call];
        case Failure(msg) =>
          var kind := classify(msg);
          if kind == Overloaded && attempt < retries {
            RetryContinues(client, classify, model, retries, n, attempt, calls, events);
            events := events + [call, Wait(Backoff(attempt))];
            attempt := attempt + 1;
            calls := calls + 1;
          } else {
            RetryStops(client, classify, model, retries, n, attempt, calls, events);
            if kind == ModelUnavailable || kind == Overloaded {
              return NextModel(msg), events + [call];
            } else if kind == QuotaExhausted {
              return QuotaHit(msg), events + [call];
            } else {
              return Raised(msg), events + [call];
            }
          }
      }
    }
  }

  /** A call that is not retried is the last one on the model: what the loop
      ends with from here is what it ends with from its first attempt. */
  lemma RetryStops(client: Client, classify: Classifier, model: string, retries: nat, n: nat,
                   attempt: nat, calls: nat, events: seq<Event>)
    requires attempt <= retries && Resumes(client, classify, model, retries, n, attempt, calls, events)
    requires !(client(calls, model).Failure? && classify(client(calls, model).message) == Overloaded && attempt < retries)
    ensures var r := TryModel(client, classify, model, attempt, retries, calls);
            && r.events == [Call(model, attempt, client(calls, model))]
            && ModelRun(r.end, events + r.events) == TryModel(client, classify, model, 0, retries, n)
            && CallCount(events + r.events) >= 1
  {
    var call := Call(model, attempt, client(calls, model));
    CallCountAppend(events, [call]);
    assert [call][1..] == [];
  }

  /** A retried call and its wait keep the loop on track. */
  lemma RetryContinues(client: Client, classify: Classifier, model: string, retries: nat, n: nat,
                       attempt: nat, calls: nat, events: seq<Event>)
    requires attempt < retries && Resumes(client, classify, model, retries, n, attempt, calls, events)
    requires calls == n + CallCount(events)
    requires client(calls, model).Failure? && classify(client(calls, model).message) == Overloaded
    ensures var more := events + [Call(model, attempt, client(calls, model)), Wait(Backoff(attempt))];
            && Resumes(client, classify, model, retries, n, attempt + 1, calls + 1, more)
            && calls + 1 == n + CallCount(more)
  {
    var call := Call(model, attempt, client(calls, model));
    var wait := Backoff(attempt);
    RetryStep(client, classify, model, attempt, retries, calls);
    CallCountAppend(events, [call, Wait(wait)]);
    assert [call, Wait(wait)][1..] == [Wait(wait)] && [Wait(wait)][1..] == [];
    assert CallCount([Wait(wait)]) == 0;
    assert CallCount([call, Wait(wait)]) == 1;
    assert events + ([call, Wait(wait)] + TryModel(client, classify, model, attempt + 1, retries, calls + 1).events)
        == (events + [call, Wait(wait)]) + TryModel(client, classify, model, attempt + 1, retries, calls + 1).events;
  }

  /** An overloaded model below the retry bound is waited for and tried again. */
  lemma RetryStep(client: Client, classify: Classifier, model: string, attempt: nat, retries: nat, n: nat)
    requires attempt < retries
    requires client(n, model).Failure? && classify(client(n, model).message) == Overloaded
    ensures var rest := TryModel(client, classify, model, attempt + 1, retries, n + 1);
            TryModel(client, classify, model, attempt, retries, n)
              == ModelRun(rest.end, [Call(model, attempt, client(n, model)), Wait(Backoff(attempt))] + rest.events)
  {
  }

  /** One step of the candidate loop when the model gives way to the next one. */
  lemma RunFromNext(client: Client, classify: Classifier, cands: seq<string>, i: nat, retries: nat, n: nat, lastError: Option<string>)
    requires i < |cands| && TryModel(client, classify, cands[i], 0, retries, n).end.NextModel?
    ensures var m := TryModel(client, classify, cands[i], 0, retries, n);
            var rest := RunFrom(client, classify, cands, i + 1, retries, n + CallCount(m.events), Some(m.end.error));
            RunFrom(client, classify, cands, i, retries, n, lastError) == Run(rest.outcome, m.events + rest.trace)
  {
  }

  /** Finishing the candidate loop from candidate `i` on, after `trace` and
      `calls` calls, gives the run of the whole wrapper. */
  predicate ResumesRun(client: Client, classify: Classifier, cands: seq<string>, retries: int, i: nat, calls: nat,
                       lastError: Option<string>, trace: seq<Event>, whole: Run)
    requires i <= |cands|
  {
    var r := RunFrom(client, classify, cands, i, retries, calls, lastError);
    Run(r.outcome, trace + r.trace) == whole
  }

  /** One step of the candidate loop when the model ends the run. */
  lemma RunFromStop(client: Client, classify: Classifier, cands: seq<string>, i: nat, retries: nat, n: nat, lastError: Option<string>)
    requires i < |cands| && !TryModel(client, classify, cands[i], 0, retries, n).end.NextModel?
    ensures var m := TryModel(client, classify, cands[i], 0, retries, n);
            RunFrom(client, classify, cands, i, retries, n, lastError) == Run(Finish(m.end, cands[i]), m.events)
  {
  }

  /** The wrapper as the source writes it. It makes exactly the calls, waits and
      final decision of `Generate`, and numbers its calls from 0. */
  method GenerateContent(client: Client, requested: string, available: seq<string>, retries: int)
    returns (outcome: Outcome, trace: seq<Event>)
    ensures Run(outcome, trace) == Generate(client, requested, available, retries)
  {
    outcome, trace := RunCandidates(client, Classify, Candidates(requested, available), retries);
  }

  /** The loop over the candidates around the retry loop, for any reading of
      the error messages. */
  method RunCandidates(client: Client, classify: Classifier, cands: seq<string>, retries: int)
    returns (outcome: Outcome, trace: seq<Event>)
    ensures Run(outcome, trace) == RunFrom(client, classify, cands, 0, retries, 0, None)
  {
    ghost var whole := RunFrom(client, classify, cands, 0, retries, 0, None);
    var lastError: Option<string> := None;
    var calls: nat := 0;
    trace := [];
    assert trace + whole.trace == whole.trace;
    var i := 0;
    while i < |cands|
      invariant 0 <= i <= |cands|
      invariant ResumesRun(client, classify, cands, retries, i, calls, lastError, trace, whole)
      decreases |cands| - i
    {
      var finished, events, nextCalls, nextError := CandidateStep(client, classify, cands, retries, i, calls, lastError, trace, whole);
      if finished.Some? {
        return finished.value, trace + events;
      }
      trace, calls, lastError := trace + events, nextCalls, nextError;
      i := i + 1;
    }
    CandidatesDone(client, classify, cands, retries, calls, lastError, trace, whole);
    outcome := Exhausted(cands, lastError);
  }

  /** One pass of the candidate loop: the run either finishes with this
      candidate or resumes at the next one. A negative retry count skips it. */
  method CandidateStep(client: Client, classify: Classifier, cands: seq<string>, retries: int, i: nat, calls: nat,
                       lastError: Option<string>, ghost trace: seq<Event>, ghost whole: Run)
    returns (finished: Option<Outcome>, events: seq<Event>, nextCalls: nat, nextError: Option<string>)
    requires i < |cands| && ResumesRun(client, classify, cands, retries, i, calls, lastError, trace, whole)
    ensures finished.Some? ==> Run(finished.value, trace + events) == whole
    ensures finished.None? ==> ResumesRun(client, classify, cands, retries, i + 1, nextCalls, nextError, trace + events, whole)
  {
    if retries >= 0 {
      var end;
      end, events := TryCandidate(client, classify, cands, retries, i, calls, lastError, trace, whole);
      if !end.NextModel? {
        return Some(Finish(end, cands[i])), events, calls, lastError;
      }
      finished, nextCalls, nextError := None, calls + CallCount(events), Some(end.error);
    } else {
      CandidateSkipped(client, classify, cands, retries, i, calls, lastError, trace, whole);
      assert trace + [] == trace;
      finished, events, nextCalls, nextError := None, [], calls, lastError;
    }
  }

  /** Tries one candidate model and relates what happened to the rest of the run. */
  method TryCandidate(client: Client, classify: Classifier, cands: seq<string>, retries: nat, i: nat, calls: nat,
                      lastError: Option<string>, ghost trace: seq<Event>, ghost whole: Run)
    returns (end: ModelEnd, events: seq<Event>)
    requires i < |cands| && ResumesRun(client, classify, cands, retries, i, calls, lastError, trace, whole)
    ensures !end.NextModel? ==> Run(Finish(end, cands[i]), trace + events) == whole
    ensures end.NextModel? ==> ResumesRun(client, classify, cands, retries, i + 1, calls + CallCount(events),
                                          Some(end.error), trace + events, whole)
  {
    end, events := RetryModel(client, classify, cands[i], retries, calls);
    if !end.NextModel? {
      CandidateStops(client, classify, cands, retries, i, calls, lastError, trace, whole, end, events);
    } else {
      CandidateMovesOn(client, classify, cands, retries, i, calls, lastError, trace, whole, end, events);
    }
  }

  /** A model that ends the run ends the candidate loop. */
  lemma CandidateStops(client: Client, classify: Classifier, cands: seq<string>, retries: nat, i: nat, calls: nat,
                       lastError: Option<string>, trace: seq<Event>, whole: Run, end: ModelEnd, events: seq<Event>)
    requires i < |cands| && ResumesRun(client, classify, cands, retries, i, calls, lastError, trace, whole)
    requires ModelRun(end, events) == TryModel(client, classify, cands[i], 0, retries, calls) && !end.NextModel?
    ensures Run(Finish(end, cands[i]), trace + events) == whole
  {
    RunFromStop(client, classify, cands, i, retries, calls, lastError);
  }

  /** A model that gives way to the next one keeps the candidate loop on track. */
  lemma CandidateMovesOn(client: Client, classify: Classifier, cands: seq<string>, retries: nat, i: nat, calls: nat,
                         lastError: Option<string>, trace: seq<Event>, whole: Run, end: ModelEnd, events: seq<Event>)
    requires i < |cands| && ResumesRun(client, classify, cands, retries, i, calls, lastError, trace, whole)
    requires ModelRun(end, events) == TryModel(client, classify, cands[i], 0, retries, calls) && end.NextModel?
    ensures ResumesRun(client, classify, cands, retries, i + 1, calls + CallCount(events), Some(end.error),
                       trace + events, whole)
  {
    RunFromNext(client, classify, cands, i, retries, calls, lastError);
    var rest := RunFrom(client, classify, cands, i + 1, retries, calls + CallCount(events), Some(end.error));
    assert trace + (events + rest.trace) == (trace + events) + rest.trace;
  }

  /** With a negative retry count a candidate is skipped. */
  lemma CandidateSkipped(client: Client, classify: Classifier, cands: seq<string>, retries: int, i: nat, calls: nat,
                         lastError: Option<string>, trace: seq<Event>, whole: Run)
    requires i < |cands| && retries < 0 && ResumesRun(client, classify, cands, retries, i, calls, lastError, trace, whole)
    ensures ResumesRun(client, classify, cands, retries, i + 1, calls, lastError, trace, whole)
  {
  }

  /** After the last candidate the run is exhausted. */
  lemma CandidatesDone(client: Client, classify: Classifier, cands: seq<string>, retries: int, calls: nat,
                       lastError: Option<string>, trace: seq<Event>, whole: Run)
    requires ResumesRun(client, classify, cands, retries, |cands|, calls, lastError, trace, whole)
    ensures Run(Exhausted(cands, lastError), trace) == whole
  {
    assert trace + [] == trace;
  }
}

module GeminiFacts {
  import opened Common
  import opened Gemini

  /** A wait at position `k` sits between a call that failed as overloaded below
      the retry bound and the retry of the same model, and lasts `Backoff` of
      that call's attempt. */
  predicate WaitOk(classify: Classifier, trace: seq<Event>, k: int, retries: int)
    requires 0 <= k < |trace|
  {
    trace[k].Wait? ==>
      && 0 < k < |trace| - 1
      && trace[k - 1].Call? && trace[k - 1].reply.Failure?
      && classify(trace[k - 1].reply.message) == Overloaded
      && trace[k - 1].attempt < retries
      && trace[k].seconds == Backoff(trace[k - 1].attempt)
      && trace[k + 1].Call? && trace[k + 1].model == trace[k - 1].model
      && trace[k + 1].attempt == trace[k - 1].attempt + 1
  }

  /** Every wait is a justified back-off. */
  predicate WaitsJustified(classify: Classifier, trace: seq<Event>, retries: int) {
    forall k :: 0 <= k < |trace| ==> WaitOk(classify, trace, k, retries)
  }

  /** Every call before position `upto` failed. */
  predicate FailedBefore(trace: seq<Event>, upto: int) {
    forall k :: 0 <= k < |trace| && k < upto && trace[k].Call? ==> trace[k].reply.Failure?
  }

  /** Every call in the trace is made with `model`, at an attempt in `[lo, hi]`. */
  predicate CallsOn(trace: seq<Event>, model: string, lo: int, hi: int) {
    forall k :: 0 <= k < |trace| && trace[k].Call? ==>
      trace[k].model == model && lo <= trace[k].attempt <= hi
  }

  /** How the last call of a model's retry loop decided how it ends. */
  predicate EndMatches(classify: Classifier, end: ModelEnd, last: Event, retries: nat) {
    last.Call? &&
    match end
    case Returned(text) => last.reply == Response(text)
    case QuotaHit(d) => last.reply == Failure(d) && classify(d) == QuotaExhausted
    case Raised(msg) => last.reply == Failure(msg) && classify(msg) == Unknown
    case NextModel(e) =>
      last.reply == Failure(e)
      && (classify(e) == ModelUnavailable || (classify(e) == Overloaded && last.attempt == retries))
  }

  /** Number of calls in a trace made with `model`. */
  function CallsTo(trace: seq<Event>, model: string): nat {
    if |trace| == 0 then 0
    else (if trace[0].Call? && trace[0].model == model then 1 else 0) + CallsTo(trace[1..], model)
  }

  /** The models tried, in order: the models of the first attempts. */
  function Tried(trace: seq<Event>): seq<string> {
    if |trace| == 0 then []
    else (if trace[0].Call? && trace[0].attempt == 0 then [trace[0].model] else []) + Tried(trace[1..])
  }

  lemma {:induction false} WaitsJustifiedAppend(classify: Classifier, a: seq<Event>, b: seq<Event>, retries: int)
    requires WaitsJustified(classify, a, retries) && WaitsJustified(classify, b, retries)
    ensures WaitsJustified(classify, a + b, retries)
  {
    var t := a + b;
    forall k | 0 <= k < |t| ensures WaitOk(classify, t, k, retries) {
      if k < |a| {
        assert WaitOk(classify, a, k, retries);
        assert t[k] == a[k];
        if a[k].Wait? { assert t[k - 1] == a[k - 1] && t[k + 1] == a[k + 1]; }
      } else {
        assert WaitOk(classify, b, k - |a|, retries);
        assert t[k] == b[k - |a|];
        if b[k - |a|].Wait? { assert t[k - 1] == b[k - |a| - 1] && t[k + 1] == b[k - |a| + 1]; }
      }
    }
  }

  lemma {:induction false} CallsToAppend(a: seq<Event>, b: seq<Event>, model: string)
    ensures CallsTo(a + b, model) == CallsTo(a, model) + CallsTo(b, model)
    decreases |a|
  {
    if |a| == 0 {
      assert a + b == b;
    } else {
      assert (a + b)[1..] == a[1..] + b;
      CallsToAppend(a[1..], b, model);
    }
  }

  lemma {:induction false} TriedAppend(a: seq<Event>, b: seq<Event>)
    ensures Tried(a + b) == Tried(a) + Tried(b)
    decreases |a|
  {
    if |a| == 0 {
      assert a + b == b;
    } else {
      assert (a + b)[1..] == a[1..] + b;
      TriedAppend(a[1..], b);
    }
  }

  /** Calls on one model only: the calls to that model are all the calls, and
      there are none to any other model. */
  lemma {:induction false} CallsToOn(trace: seq<Event>, model: string, lo: int, hi: int, other: string)
    requires CallsOn(trace, model, lo, hi)
    ensures CallsTo(trace, model) == CallCount(trace)
    ensures other != model ==> CallsTo(trace, other) == 0
    decreases |trace|
  {
    if |trace| > 0 {
      assert CallsOn(trace[1..], model, lo, hi) by {
        forall k | 0 <= k < |trace[1..]| && trace[1..][k].Call?
          ensures trace[1..][k].model == model && lo <= trace[1..][k].attempt <= hi
        {
          assert trace[1..][k] == trace[k + 1];
        }
      }
      CallsToOn(trace[1..], model, lo, hi, other);
    }
  }

  /** Calls at attempts from 1 on start no new model. */
  lemma {:induction false} TriedOfRetries(trace: seq<Event>, model: string, hi: int)
    requires CallsOn(trace, model, 1, hi)
    ensures Tried(trace) == []
    decreases |trace|
  {
    if |trace| > 0 {
      assert CallsOn(trace[1..], model, 1, hi) by {
        forall k | 0 <= k < |trace[1..]| && trace[1..][k].Call?
          ensures trace[1..][k].model == model && 1 <= trace[1..][k].attempt <= hi
        {
          assert trace[1..][k] == trace[k + 1];
        }
      }
      TriedOfRetries(trace[1..], model, hi);
    }
  }

  /** A back-off wait put in front of the retry it precedes. */
  lemma WaitsPrepend(classify: Classifier, call: Event, rest: seq<Event>, retries: int)
    requires call.Call? && call.reply.Failure? && classify(call.reply.message) == Overloaded
    requires call.attempt < retries
    requires |rest| > 0 && rest[0].Call? && rest[0].model == call.model && rest[0].attempt == call.attempt + 1
    requires WaitsJustified(classify, rest, retries)
    ensures WaitsJustified(classify, [call, Wait(Backoff(call.attempt))] + rest, retries)
  {
    var t := [call, Wait(Backoff(call.attempt))] + rest;
    assert t[0] == call && t[1] == Wait(Backoff(call.attempt)) && t[2] == rest[0];
    forall k | 0 <= k < |t| ensures WaitOk(classify, t, k, retries) {
      if k >= 2 {
        assert WaitOk(classify, rest, k - 2, retries);
        assert t[k] == rest[k - 2];
        if rest[k - 2].Wait? { assert t[k - 1] == rest[k - 3] && t[k + 1] == rest[k - 1]; }
      }
    }
  }

  /** The calls of the retry loop on one model: only that model, at attempts
      between `attempt` and `retries`, at least once and at most
      `retries - attempt + 1` times. */
  lemma {:induction false} TryModelCalls(client: Client, classify: Classifier, model: string, attempt: nat, retries: nat, n: nat)
    requires attempt <= retries
    ensures var r := TryModel(client, classify, model, attempt, retries, n);
            CallsOn(r.events, model, attempt, retries) && 1 <= CallCount(r.events) <= retries - attempt + 1
    decreases retries - attempt
  {
    var r := TryModel(client, classify, model, attempt, retries, n);
    var reply := client(n, model);
    var call := Call(model, attempt, reply);
    if reply.Failure? && classify(reply.message) == Overloaded && attempt < retries {
      TryModelCalls(client, classify, model, attempt + 1, retries, n + 1);
      var rest := TryModel(client, classify, model, attempt + 1, retries, n + 1);
      var head := [call, Wait(Backoff(attempt))];
      assert r.events == head + rest.events;
      CallCountAppend(head, rest.events);
      assert head[1..] == [Wait(Backoff(attempt))] && head[1..][1..] == [];
      forall k | 0 <= k < |r.events| && r.events[k].Call?
        ensures r.events[k].model == model && attempt <= r.events[k].attempt <= retries
      {
        if k >= 2 { assert r.events[k] == rest.events[k - 2]; }
      }
    } else {
      assert r.events == [call];
      assert [call][1..] == [];
    }
  }

  /** The retry loop on one model: every call but the last failed, every wait
      is a justified back-off, and the last call decides how the loop ends. */
  lemma {:induction false} TryModelDecision(client: Client, classify: Classifier, model: string, attempt: nat, retries: nat, n: nat)
    requires attempt <= retries
    ensures var r := TryModel(client, classify, model, attempt, retries, n);
            && FailedBefore(r.events, |r.events| - 1)
            && WaitsJustified(classify, r.events, retries)
            && EndMatches(classify, r.end, r.events[|r.events| - 1], retries)
    decreases retries - attempt
  {
    var r := TryModel(client, classify, model, attempt, retries, n);
    var reply := client(n, model);
    var call := Call(model, attempt, reply);
    if reply.Failure? && classify(reply.message) == Overloaded && attempt < retries {
      TryModelDecision(client, classify, model, attempt + 1, retries, n + 1);
      var rest := TryModel(client, classify, model, attempt + 1, retries, n + 1);
      var head := [call, Wait(Backoff(attempt))];
      assert r.events == head + rest.events;
      WaitsPrepend(classify, call, rest.events, retries);
      assert r.events[|r.events| - 1] == rest.events[|rest.events| - 1];
      forall k | 0 <= k < |r.events| - 1 && r.events[k].Call? ensures r.events[k].reply.Failure? {
        if k >= 2 { assert r.events[k] == rest.events[k - 2]; }
      }
    } else {
      assert r.events == [call];
    }
  }

  /** How the run's end is read off its trace. */
  predicate OutcomeMatches(classify: Classifier, o: Outcome, trace: seq<Event>, cands: seq<string>, lastError: Option<string>) {
    var last := |trace| - 1;
    match o
    case Answered(text, m) =>
      last >= 0 && trace[last].Call? && trace[last].model == m && trace[last].reply == Response(text)
      && FailedBefore(trace, last)
    case QuotaExceeded(d) =>
      last >= 0 && trace[last].Call? && trace[last].reply == Failure(d) && classify(d) == QuotaExhausted
      && FailedBefore(trace, last)
    case Reraised(msg) =>
      last >= 0 && trace[last].Call? && trace[last].reply == Failure(msg) && classify(msg) == Unknown
      && FailedBefore(trace, last)
    case Exhausted(tried, le) =>
      tried == cands && FailedBefore(trace, |trace|)
      && (if last < 0 then le == lastError else trace[last].Call? && le == Some(trace[last].reply.message))
  }

  lemma FailedBeforeAppend(a: seq<Event>, b: seq<Event>, upto: int)
    requires FailedBefore(a, |a|) && FailedBefore(b, upto)
    ensures FailedBefore(a + b, |a| + upto)
  {
    forall k | 0 <= k < |a + b| && k < |a| + upto && (a + b)[k].Call? ensures (a + b)[k].reply.Failure? {
      if k >= |a| { assert (a + b)[k] == b[k - |a|]; }
    }
  }

  /** Failed calls in front of a run's trace do not change how its end is read,
      and make an empty exhausted tail report their last error. */
  lemma OutcomeAfterFailures(classify: Classifier, events: seq<Event>, rest: seq<Event>, o: Outcome, cands: seq<string>,
                             e: string, lastError: Option<string>)
    requires |events| > 0 && FailedBefore(events, |events|)
    requires events[|events| - 1].Call? && events[|events| - 1].reply == Failure(e)
    requires OutcomeMatches(classify, o, rest, cands, Some(e))
    ensures OutcomeMatches(classify, o, events + rest, cands, lastError)
  {
    var t := events + rest;
    if |rest| > 0 {
      assert t[|t| - 1] == rest[|rest| - 1];
    } else {
      assert t == events;
    }
    if o.Exhausted? {
      FailedBeforeAppend(events, rest, |rest|);
    } else {
      FailedBeforeAppend(events, rest, |rest| - 1);
    }
  }

  /** A model that gives way to the next one leaves the run's end to the rest. */
  lemma OutcomeAfterNext(classify: Classifier, m: ModelRun, rest: Run, whole: Run, retries: nat, cands: seq<string>,
                         lastError: Option<string>)
    requires m.end.NextModel? && |m.events| > 0
    requires FailedBefore(m.events, |m.events| - 1) && EndMatches(classify, m.end, m.events[|m.events| - 1], retries)
    requires OutcomeMatches(classify, rest.outcome, rest.trace, cands, Some(m.end.error))
    requires whole == Run(rest.outcome, m.events + rest.trace)
    ensures OutcomeMatches(classify, whole.outcome, whole.trace, cands, lastError)
  {
    var last := m.events[|m.events| - 1];
    assert last.Call? && last.reply == Failure(m.end.error);
    assert FailedBefore(m.events, |m.events|);
    OutcomeAfterFailures(classify, m.events, rest.trace, rest.outcome, cands, m.end.error, lastError);
  }

  /** A model that ends the run ends it as its last call says. */
  lemma OutcomeOfEnd(classify: Classifier, end: ModelEnd, events: seq<Event>, model: string, retries: nat,
                     cands: seq<string>, lastError: Option<string>)
    requires !end.NextModel? && |events| > 0
    requires FailedBefore(events, |events| - 1) && EndMatches(classify, end, events[|events| - 1], retries)
    requires events[|events| - 1].model == model
    ensures OutcomeMatches(classify, Finish(end, model), events, cands, lastError)
  {
  }

  /** `OutcomeAfterNext` for the retry loop on `model`. */
  lemma OutcomeAfterModel(client: Client, classify: Classifier, model: string, retries: nat, n: nat, rest: Run, whole: Run,
                          cands: seq<string>, lastError: Option<string>)
    requires TryModel(client, classify, model, 0, retries, n).end.NextModel?
    requires OutcomeMatches(classify, rest.outcome, rest.trace, cands, Some(TryModel(client, classify, model, 0, retries, n).end.error))
    requires whole == Run(rest.outcome, TryModel(client, classify, model, 0, retries, n).events + rest.trace)
    ensures OutcomeMatches(classify, whole.outcome, whole.trace, cands, lastError)
  {
    var m := TryModel(client, classify, model, 0, retries, n);
    TryModelDecision(client, classify, model, 0, retries, n);
    OutcomeAfterNext(classify, m, rest, whole, retries, cands, lastError);
  }

  /** `OutcomeOfEnd` for the retry loop on `model`. */
  lemma OutcomeOfModel(client: Client, classify: Classifier, model: string, retries: nat, n: nat,
                       cands: seq<string>, lastError: Option<string>)
    requires !TryModel(client, classify, model, 0, retries, n).end.NextModel?
    ensures var m := TryModel(client, classify, model, 0, retries, n);
            OutcomeMatches(classify, Finish(m.end, model), m.events, cands, lastError)
  {
    var m := TryModel(client, classify, model, 0, retries, n);
    TryModelDecision(client, classify, model, 0, retries, n);
    TryModelCalls(client, classify, model, 0, retries, n);
    OutcomeOfEnd(classify, m.end, m.events, model, retries, cands, lastError);
  }

  /** The run ends as its trace says. */
  predicate EndsAsTraced(classify: Classifier, r: Run, cands: seq<string>, lastError: Option<string>) {
    OutcomeMatches(classify, r.outcome, r.trace, cands, lastError)
  }

  /** A run that moves past candidate `i` ends as the rest of it does. */
  lemma OutcomeNext(client: Client, classify: Classifier, cands: seq<string>, i: nat, retries: nat, n: nat, lastError: Option<string>)
    requires i < |cands| && TryModel(client, classify, cands[i], 0, retries, n).end.NextModel?
    requires var m := TryModel(client, classify, cands[i], 0, retries, n);
             var rest := RunFrom(client, classify, cands, i + 1, retries, n + CallCount(m.events), Some(m.end.error));
             EndsAsTraced(classify, rest, cands, Some(m.end.error))
    ensures EndsAsTraced(classify, RunFrom(client, classify, cands, i, retries, n, lastError), cands, lastError)
  {
    var m := TryModel(client, classify, cands[i], 0, retries, n);
    var rest := RunFrom(client, classify, cands, i + 1, retries, n + CallCount(m.events), Some(m.end.error));
    RunFromNext(client, classify, cands, i, retries, n, lastError);
    OutcomeAfterModel(client, classify, cands[i], retries, n, rest, RunFrom(client, classify, cands, i, retries, n, lastError),
                      cands, lastError);
  }

  /** A run that ends at candidate `i` ends as its last call says. */
  lemma OutcomeStop(client: Client, classify: Classifier, cands: seq<string>, i: nat, retries: nat, n: nat, lastError: Option<string>)
    requires i < |cands| && !TryModel(client, classify, cands[i], 0, retries, n).end.NextModel?
    ensures EndsAsTraced(classify, RunFrom(client, classify, cands, i, retries, n, lastError), cands, lastError)
  {
    RunFromStop(client, classify, cands, i, retries, n, lastError);
    OutcomeOfModel(client, classify, cands[i], retries, n, cands, lastError);
  }

  /** The candidate loop: its end is decided by its last call. */
  lemma {:induction false} RunFromOutcome(client: Client, classify: Classifier, cands: seq<string>, i: nat, retries: int, n: nat,
                                          lastError: Option<string>)
    requires i <= |cands|
    ensures EndsAsTraced(classify, RunFrom(client, classify, cands, i, retries, n, lastError), cands, lastError)
    decreases |cands| - i
  {
    if i < |cands| {
      if retries < 0 {
        RunFromOutcome(client, classify, cands, i + 1, retries, n, lastError);
      } else {
        var m := TryModel(client, classify, cands[i], 0, retries, n);
        if m.end.NextModel? {
          RunFromOutcome(client, classify, cands, i + 1, retries, n + CallCount(m.events), Some(m.end.error));
          OutcomeNext(client, classify, cands, i, retries, n, lastError);
        } else {
          OutcomeStop(client, classify, cands, i, retries, n, lastError);
        }
      }
    }
  }

  /** The waits of the retry loop on one model are justified back-offs. */
  lemma TryModelWaits(client: Client, classify: Classifier, model: string, retries: nat, n: nat)
    ensures WaitsJustified(classify, TryModel(client, classify, model, 0, retries, n).events, retries)
  {
    TryModelDecision(client, classify, model, 0, retries, n);
  }

  /** The waits of a run that moves past candidate `i`: those of its retry loop
      and those of the rest. */
  lemma WaitsNext(client: Client, classify: Classifier, cands: seq<string>, i: nat, retries: nat, n: nat, lastError: Option<string>)
    requires i < |cands| && TryModel(client, classify, cands[i], 0, retries, n).end.NextModel?
    requires var m := TryModel(client, classify, cands[i], 0, retries, n);
             var rest := RunFrom(client, classify, cands, i + 1, retries, n + CallCount(m.events), Some(m.end.error));
             WaitsJustified(classify, rest.trace, retries)
    ensures WaitsJustified(classify, RunFrom(client, classify, cands, i, retries, n, lastError).trace, retries)
  {
    var m := TryModel(client, classify, cands[i], 0, retries, n);
    var rest := RunFrom(client, classify, cands, i + 1, retries, n + CallCount(m.events), Some(m.end.error));
    RunFromNext(client, classify, cands, i, retries, n, lastError);
    TryModelWaits(client, classify, cands[i], retries, n);
    WaitsJustifiedAppend(classify, m.events, rest.trace, retries);
  }

  /** The waits of a run that ends at candidate `i`: those of its retry loop. */
  lemma WaitsStop(client: Client, classify: Classifier, cands: seq<string>, i: nat, retries: nat, n: nat, lastError: Option<string>)
    requires i < |cands| && !TryModel(client, classify, cands[i], 0, retries, n).end.NextModel?
    ensures WaitsJustified(classify, RunFrom(client, classify, cands, i, retries, n, lastError).trace, retries)
  {
    RunFromStop(client, classify, cands, i, retries, n, lastError);
    TryModelWaits(client, classify, cands[i], retries, n);
  }

  /** Every wait of a run is a justified back-off. */
  lemma {:induction false} RunFromWaits(client: Client, classify: Classifier, cands: seq<string>, i: nat, retries: int, n: nat,
                                        lastError: Option<string>)
    requires i <= |cands|
    ensures WaitsJustified(classify, RunFrom(client, classify, cands, i, retries, n, lastError).trace, retries)
    decreases |cands| - i
  {
    if i < |cands| {
      if retries < 0 {
        RunFromWaits(client, classify, cands, i + 1, retries, n, lastError);
      } else {
        var m := TryModel(client, classify, cands[i], 0, retries, n);
        if m.end.NextModel? {
          RunFromWaits(client, classify, cands, i + 1, retries, n + CallCount(m.events), Some(m.end.error));
          WaitsNext(client, classify, cands, i, retries, n, lastError);
        } else {
          WaitsStop(client, classify, cands, i, retries, n, lastError);
        }
      }
    }
  }

  /** The retry loop on a model starts exactly one new model: itself. */
  lemma TryModelTried(client: Client, classify: Classifier, model: string, retries: nat, n: nat)
    ensures Tried(TryModel(client, classify, model, 0, retries, n).events) == [model]
  {
    var r := TryModel(client, classify, model, 0, retries, n);
    var reply := client(n, model);
    var call := Call(model, 0, reply);
    if reply.Failure? && classify(reply.message) == Overloaded && 0 < retries {
      var rest := TryModel(client, classify, model, 1, retries, n + 1);
      TryModelCalls(client, classify, model, 1, retries, n + 1);
      TriedOfRetries(rest.events, model, retries);
      var head := [call, Wait(Backoff(0))];
      assert r.events == head + rest.events;
      TriedAppend(head, rest.events);
      assert head[1..] == [Wait(Backoff(0))] && head[1..][1..] == [];
    } else {
      assert r.events == [call];
      assert [call][1..] == [];
    }
  }

  /** The models tried are the candidates from `i` on, in order: all of them
      (`complete`) or a prefix. */
  predicate TriedFrom(trace: seq<Event>, cands: seq<string>, i: nat, complete: bool)
    requires i <= |cands|
  {
    var t := Tried(trace);
    |t| <= |cands| - i && t == cands[i..i + |t|] && (complete ==> |t| == |cands| - i)
  }

  lemma TriedFromStep(events: seq<Event>, rest: seq<Event>, cands: seq<string>, i: nat, complete: bool)
    requires i < |cands| && Tried(events) == [cands[i]] && TriedFrom(rest, cands, i + 1, complete)
    ensures TriedFrom(events + rest, cands, i, complete)
  {
    TriedAppend(events, rest);
    var tr := Tried(rest);
    assert cands[i..i + 1 + |tr|] == [cands[i]] + cands[i + 1..i + 1 + |tr|];
  }

  /** The models are tried in candidate order, each candidate at most once, and
      all of them when the run is exhausted; with a negative retry count no call
      is made at all. */
  lemma {:induction false} RunFromTried(client: Client, classify: Classifier, cands: seq<string>, i: nat, retries: int, n: nat,
                                        lastError: Option<string>)
    requires i <= |cands|
    ensures var r := RunFrom(client, classify, cands, i, retries, n, lastError);
            && TriedFrom(r.trace, cands, i, retries >= 0 && r.outcome.Exhausted?)
            && (retries < 0 ==> r.trace == [])
    decreases |cands| - i
  {
    if i < |cands| {
      if retries < 0 {
        RunFromTried(client, classify, cands, i + 1, retries, n, lastError);
      } else {
        var m := TryModel(client, classify, cands[i], 0, retries, n);
        if m.end.NextModel? {
          RunFromTried(client, classify, cands, i + 1, retries, n + CallCount(m.events), Some(m.end.error));
          TriedNext(client, classify, cands, i, retries, n, lastError);
        } else {
          TriedStop(client, classify, cands, i, retries, n, lastError);
        }
      }
    }
  }

  /** The retry loop on `tried` calls `model` at most `retries + 1` times, and
      not at all when it is another model. */
  lemma TryModelCallsTo(client: Client, classify: Classifier, tried: string, retries: nat, n: nat, model: string)
    ensures CallsTo(TryModel(client, classify, tried, 0, retries, n).events, model) <= if model == tried then retries + 1 else 0
  {
    var m := TryModel(client, classify, tried, 0, retries, n);
    TryModelCalls(client, classify, tried, 0, retries, n);
    CallsToOn(m.events, tried, 0, retries, model);
  }

  /** With distinct candidates, a model is among those from `i` on exactly when
      it is candidate `i` or among the later ones, and candidate `i` is not. */
  lemma InTail(cands: seq<string>, i: nat, model: string)
    requires i < |cands| && NoDups(cands)
    ensures model in cands[i..] <==> model == cands[i] || model in cands[i + 1..]
    ensures model == cands[i] ==> model !in cands[i + 1..]
  {
    assert cands[i..] == [cands[i]] + cands[i + 1..];
    if model == cands[i] {
      forall k | i + 1 <= k < |cands| ensures cands[k] != cands[i] { }
    }
  }

  /** A model that gives way to the next one is tried before the later candidates. */
  lemma TriedNext(client: Client, classify: Classifier, cands: seq<string>, i: nat, retries: nat, n: nat, lastError: Option<string>)
    requires i < |cands| && TryModel(client, classify, cands[i], 0, retries, n).end.NextModel?
    requires var m := TryModel(client, classify, cands[i], 0, retries, n);
             var rest := RunFrom(client, classify, cands, i + 1, retries, n + CallCount(m.events), Some(m.end.error));
             TriedFrom(rest.trace, cands, i + 1, rest.outcome.Exhausted?)
    ensures var r := RunFrom(client, classify, cands, i, retries, n, lastError);
            TriedFrom(r.trace, cands, i, r.outcome.Exhausted?)
  {
    var m := TryModel(client, classify, cands[i], 0, retries, n);
    var rest := RunFrom(client, classify, cands, i + 1, retries, n + CallCount(m.events), Some(m.end.error));
    RunFromNext(client, classify, cands, i, retries, n, lastError);
    TryModelTried(client, classify, cands[i], retries, n);
    TriedFromStep(m.events, rest.trace, cands, i, rest.outcome.Exhausted?);
  }

  /** A model that ends the run is the last one tried. */
  lemma TriedStop(client: Client, classify: Classifier, cands: seq<string>, i: nat, retries: nat, n: nat, lastError: Option<string>)
    requires i < |cands| && !TryModel(client, classify, cands[i], 0, retries, n).end.NextModel?
    ensures var r := RunFrom(client, classify, cands, i, retries, n, lastError);
            TriedFrom(r.trace, cands, i, r.outcome.Exhausted?)
  {
    RunFromStop(client, classify, cands, i, retries, n, lastError);
    TryModelTried(client, classify, cands[i], retries, n);
    assert cands[i..i + 1] == [cands[i]];
  }

  /** The calls of a run that moves past candidate `i`: those of its retry loop
      and those of the rest. */
  lemma CallsToNext(client: Client, classify: Classifier, cands: seq<string>, i: nat, retries: nat, n: nat, lastError: Option<string>,
                    model: string)
    requires i < |cands| && NoDups(cands) && TryModel(client, classify, cands[i], 0, retries, n).end.NextModel?
    requires var m := TryModel(client, classify, cands[i], 0, retries, n);
             var rest := RunFrom(client, classify, cands, i + 1, retries, n + CallCount(m.events), Some(m.end.error));
             CallsTo(rest.trace, model) <= if model in cands[i + 1..] then retries + 1 else 0
    ensures CallsTo(RunFrom(client, classify, cands, i, retries, n, lastError).trace, model)
              <= if model in cands[i..] then retries + 1 else 0
  {
    var m := TryModel(client, classify, cands[i], 0, retries, n);
    var rest := RunFrom(client, classify, cands, i + 1, retries, n + CallCount(m.events), Some(m.end.error));
    RunFromNext(client, classify, cands, i, retries, n, lastError);
    TryModelCallsTo(client, classify, cands[i], retries, n, model);
    InTail(cands, i, model);
    CallsToAppend(m.events, rest.trace, model);
  }

  /** The calls of a run that ends at candidate `i`: those of its retry loop. */
  lemma CallsToStop(client: Client, classify: Classifier, cands: seq<string>, i: nat, retries: nat, n: nat, lastError: Option<string>,
                    model: string)
    requires i < |cands| && NoDups(cands) && !TryModel(client, classify, cands[i], 0, retries, n).end.NextModel?
    ensures CallsTo(RunFrom(client, classify, cands, i, retries, n, lastError).trace, model)
              <= if model in cands[i..] then retries + 1 else 0
  {
    RunFromStop(client, classify, cands, i, retries, n, lastError);
    TryModelCallsTo(client, classify, cands[i], retries, n, model);
    InTail(cands, i, model);
  }

  /** With distinct candidates, no model is called more than `retries + 1`
      times, and a model that is not a remaining candidate is never called. */
  lemma {:induction false} RunFromCallsTo(client: Client, classify: Classifier, cands: seq<string>, i: nat, retries: nat, n: nat,
                                          lastError: Option<string>, model: string)
    requires i <= |cands| && NoDups(cands)
    ensures CallsTo(RunFrom(client, classify, cands, i, retries, n, lastError).trace, model)
              <= if model in cands[i..] then retries + 1 else 0
    decreases |cands| - i
  {
    if i < |cands| {
      var m := TryModel(client, classify, cands[i], 0, retries, n);
      if m.end.NextModel? {
        RunFromCallsTo(client, classify, cands, i + 1, retries, n + CallCount(m.events), Some(m.end.error), model);
        CallsToNext(client, classify, cands, i, retries, n, lastError, model);
      } else {
        CallsToStop(client, classify, cands, i, retries, n, lastError, model);
      }
    }
  }

  /** `generate_content`: the requested model is called first; the run ends as
      its last call says; every wait is a justified back-off; models are tried in
      candidate order, all of them before giving up; with distinct available
      models none is called more than `retries + 1` times; and a negative retry
      count gives up at once. */
  lemma GenerateFacts(client: Client, requested: string, available: seq<string>, retries: int)
    ensures var g := Generate(client, requested, available, retries);
            var cands := Candidates(requested, available);
            && OutcomeMatches(Classify, g.outcome, g.trace, cands, None)
            && WaitsJustified(Classify, g.trace, retries)
            && TriedFrom(g.trace, cands, 0, retries >= 0 && g.outcome.Exhausted?)
            && (retries >= 0 ==> |g.trace| > 0 && g.trace[0] == Call(requested, 0, client(0, requested)))
            && (retries < 0 ==> g == Run(Exhausted(cands, None), []))
            && (retries >= 0 && NoDups(available) ==> forall m :: CallsTo(g.trace, m) <= retries + 1)
  {
    var cands := Candidates(requested, available);
    RunFromOutcome(client, Classify, cands, 0, retries, 0, None);
    RunFromWaits(client, Classify, cands, 0, retries, 0, None);
    RunFromTried(client, Classify, cands, 0, retries, 0, None);
    if retries >= 0 {
      var m := TryModel(client, Classify, cands[0], 0, retries, 0);
      if m.end.NextModel? {
        RunFromNext(client, Classify, cands, 0, retries, 0, None);
      } else {
        RunFromStop(client, Classify, cands, 0, retries, 0, None);
      }
      if NoDups(available) {
        forall model ensures CallsTo(Generate(client, requested, available, retries).trace, model) <= retries + 1 {
          RunFromCallsTo(client, Classify, cands, 0, retries, 0, None, model);
        }
      }
    }
  }

  /** The first successful call ends the run with its text: no call follows it. */
  lemma SuccessEndsRun(client: Client, requested: string, available: seq<string>, retries: int, k: nat)
    requires var g := Generate(client, requested, available, retries);
             k < |g.trace| && g.trace[k].Call? && g.trace[k].reply.Response?
    ensures var g := Generate(client, requested, available, retries);
            k == |g.trace| - 1 && g.outcome == Answered(g.trace[k].reply.text, g.trace[k].model)
  {
    GenerateFacts(client, requested, available, retries);
  }
}

=== FILE: gemini_models.dfy ===
/** `list_available_gemini_models` (modules/utils.py): the models a key can use,
    in the order the wrapper should fall back through them. */
module GeminiModels {
  import opened Common
  import opened Text

  /** The static preference order, also the answer when listing fails. */
  const PreferredOrder: seq<string> := [
    "gemini-2.5-flash", "gemini-2.5-pro", "gemini-2.0-flash",
    "gemini-2.0-flash-lite", "gemini-1.5-flash", "gemini-1.5-pro"
  ]

  /** What listing the models gave: an exception, or the model names in the
      order listed (`""` for a model without a name). */
  datatype Listing = ListFailed | Listed(names: seq<string>)

  /** `s.removeprefix(p)`. */
  function RemovePrefix(s: string, p: string): (r: string)
    ensures StartsWith(s, p) ==> s == p + r
    ensures !StartsWith(s, p) ==> r == s
  {
    if StartsWith(s, p) then
      assert s == s[..|p|] + s[|p|..];
      s[|p|..]
    else s
  }

  /** A usable model name: the listed name without `models/`, if it contains `gemini`. */
  predicate IsGemini(name: string) { Contains(name, "gemini") }

  /** The listed names without their `models/` prefix. */
  function Stripped(names: seq<string>): (s: seq<string>)
    ensures forall m :: m in s <==> exists i :: 0 <= i < |names| && RemovePrefix(names[i], "models/") == m
  {
    var s := seq(|names|, i requires 0 <= i < |names| => RemovePrefix(names[i], "models/"));
    assert forall i :: 0 <= i < |names| ==> s[i] == RemovePrefix(names[i], "models/");
    s
  }

  /** The distinct Gemini models listed, in the order first listed. */
  function Discovered(names: seq<string>): (d: seq<string>)
    ensures NoDups(d)
    ensures forall m :: m in d <==> IsGemini(m) && m in Stripped(names)
  {
    Dedup(Filter(Stripped(names), IsGemini))
  }

  /** Python's `<` on strings: code-point lexicographic order. */
  predicate LexLess(a: string, b: string)
    decreases |a|
  {
    |b| > 0 && (|a| == 0 || a[0] < b[0] || (a[0] == b[0] && LexLess(a[1..], b[1..])))
  }

  lemma {:induction false} LexLessIrreflexive(a: string)
    ensures !LexLess(a, a)
    decreases |a|
  {
    if |a| > 0 { LexLessIrreflexive(a[1..]); }
  }

  lemma {:induction false} LexLessTotal(a: string, b: string)
    requires a != b
    ensures LexLess(a, b) || LexLess(b, a)
    decreases |a|
  {
    if |a| > 0 && |b| > 0 && a[0] == b[0] {
      assert a == [a[0]] + a[1..] && b == [b[0]] + b[1..];
      LexLessTotal(a[1..], b[1..]);
    }
  }

  lemma {:induction false} LexLessTransitive(a: string, b: string, c: string)
    requires LexLess(a, b) && LexLess(b, c)
    ensures LexLess(a, c)
    decreases |a|
  {
    if |a| > 0 && a[0] == b[0] && b[0] == c[0] {
      LexLessTransitive(a[1..], b[1..], c[1..]);
    }
  }

  /** Strictly increasing in Python's string order. */
  predicate Sorted(s: seq<string>) {
    forall i, j :: 0 <= i < j < |s| ==> LexLess(s[i], s[j])
  }

  /** Inserts `x` into a sorted list at its place. */
  function Insert(x: string, s: seq<string>): (r: seq<string>)
    ensures multiset(r) == multiset(s) + multiset{x}
  {
    if |s| == 0 then [x]
    else if LexLess(x, s[0]) then [x] + s
    else
      assert s == [s[0]] + s[1..];
      [s[0]] + Insert(x, s[1..])
  }

  lemma {:induction false} InsertSorted(x: string, s: seq<string>)
    requires Sorted(s) && x !in s
    ensures Sorted(Insert(x, s))
    decreases |s|
  {
    if |s| > 0 && !LexLess(x, s[0]) {
      assert x != s[0];
      LexLessTotal(x, s[0]);
      SortedTail(s);
      InsertSorted(x, s[1..]);
      InsertAbove(x, s);
      SortedCons(s[0], Insert(x, s[1..]));
    } else if |s| > 0 {
      forall j | 1 <= j < |s| + 1 ensures LexLess(x, ([x] + s)[j]) {
        if j > 1 { LexLessTransitive(x, s[0], s[j - 1]); }
      }
    }
  }

  lemma SortedTail(s: seq<string>)
    requires |s| > 0 && Sorted(s)
    ensures Sorted(s[1..])
  {
    forall i, j | 0 <= i < j < |s[1..]| ensures LexLess(s[1..][i], s[1..][j]) {
      assert s[1..][i] == s[i + 1] && s[1..][j] == s[j + 1];
    }
  }

  /** Everything inserted after the head of a sorted list lies above that head. */
  lemma InsertAbove(x: string, s: seq<string>)
    requires |s| > 0 && Sorted(s) && LexLess(s[0], x)
    ensures forall y :: y in Insert(x, s[1..]) ==> LexLess(s[0], y)
  {
    forall y | y in Insert(x, s[1..]) ensures LexLess(s[0], y) {
      assert y in multiset(Insert(x, s[1..]));
      if y != x {
        assert y in multiset(s[1..]);
        var k :| 0 <= k < |s[1..]| && s[1..][k] == y;
        assert s[k + 1] == y;
      }
    }
  }

  lemma SortedCons(h: string, t: seq<string>)
    requires Sorted(t) && forall y :: y in t ==> LexLess(h, y)
    ensures Sorted([h] + t)
  {
    forall i, j | 0 <= i < j < |[h] + t| ensures LexLess(([h] + t)[i], ([h] + t)[j]) {
      assert ([h] + t)[j] == t[j - 1];
      if i > 0 { assert ([h] + t)[i] == t[i - 1]; } else { assert t[j - 1] in t; }
    }
  }

  /** `sorted(s)`. */
  function Sort(s: seq<string>): (r: seq<string>)
    ensures multiset(r) == multiset(s)
  {
    if |s| == 0 then []
    else
      assert s == [s[0]] + s[1..];
      Insert(s[0], Sort(s[1..]))
  }

  lemma {:induction false} SortSorted(s: seq<string>)
    requires NoDups(s)
    ensures Sorted(Sort(s))
    decreases |s|
  {
    if |s| > 0 {
      assert NoDups(s[1..]);
      SortSorted(s[1..]);
      assert s[0] !in multiset(s[1..]);
      InsertSorted(s[0], Sort(s[1..]));
    }
  }

  /** The models of `d` in fallback order for the preference list `pref`: the
      preferred models present, in preference order, then the other models in
      sorted order; when no preferred model is present, `d` as it is. */
  function Arrange(pref: seq<string>, d: seq<string>): seq<string> {
    var ordered := Filter(pref, m => m in d);
    var extras := Sort(Filter(d, m => m !in pref));
    if |ordered| > 0 then ordered + extras else d
  }

  /** The available models in fallback order; the static list when listing fails. */
  function ListModels(listing: Listing): seq<string> {
    match listing
    case ListFailed => PreferredOrder
    case Listed(names) => Arrange(PreferredOrder, Discovered(names))
  }

  /** The extras: the models outside the preference list, sorted. */
  lemma ExtrasFacts(pref: seq<string>, d: seq<string>)
    requires NoDups(d)
    ensures var e := Sort(Filter(d, m => m !in pref));
            Sorted(e) && NoDups(e) && forall m :: m in e <==> m in d && m !in pref
  {
    var rest := Filter(d, m => m !in pref);
    var extras := Sort(rest);
    FilterNoDups(d, m => m !in pref);
    SortSorted(rest);
    SortedNoDups(extras);
    forall m ensures m in extras <==> m in rest {
      assert m in extras <==> m in multiset(extras);
      assert m in rest <==> m in multiset(rest);
    }
  }

  /** Arranging keeps every model, each once. */
  lemma ArrangeMembers(pref: seq<string>, d: seq<string>)
    requires NoDups(pref) && NoDups(d)
    ensures NoDups(Arrange(pref, d)) && forall m :: m in Arrange(pref, d) <==> m in d
  {
    var ordered := Filter(pref, m => m in d);
    ExtrasFacts(pref, d);
    if |ordered| > 0 {
      FilterNoDups(pref, m => m in d);
      NoDupsConcat(ordered, Sort(Filter(d, m => m !in pref)));
    }
  }

  lemma PreferredDistinct()
    ensures NoDups(PreferredOrder)
  {
  }

  /** The list holds exactly the listed Gemini models (or the static list when
      listing failed), each once. */
  lemma ListModelsMembers(listing: Listing)
    ensures var r := ListModels(listing);
            && NoDups(r)
            && (listing.ListFailed? ==> r == PreferredOrder)
            && (listing.Listed? ==> forall m :: m in r <==> m in Discovered(listing.names))
  {
    PreferredDistinct();
    if listing.Listed? {
      ArrangeMembers(PreferredOrder, Discovered(listing.names));
    }
  }

  /** A part drawn from `pref` in its order followed by sorted extras, as
      `Arrange` lays them out. */
  ghost predicate PreferredThenSorted(pref: seq<string>, r: seq<string>, d: seq<string>) {
    exists k :: 0 < k <= |r|
      && IsSubsequence(r[..k], pref)
      && (forall m :: m in r[..k] <==> m in pref && m in d)
      && Sorted(r[k..])
      && (forall m :: m in r[k..] ==> m !in pref)
  }

  lemma PreferredThenSortedConcat(pref: seq<string>, ordered: seq<string>, extras: seq<string>, d: seq<string>)
    requires |ordered| > 0 && IsSubsequence(ordered, pref)
    requires forall m :: m in ordered <==> m in pref && m in d
    requires Sorted(extras) && forall m :: m in extras ==> m !in pref
    ensures PreferredThenSorted(pref, ordered + extras, d)
  {
    var r := ordered + extras;
    assert r[..|ordered|] == ordered && r[|ordered|..] == extras;
  }

  /** When a preferred model is present, the preferred models present come first,
      in preference order, and the other models follow in sorted order. */
  lemma ArrangeOrder(pref: seq<string>, d: seq<string>)
    requires NoDups(d) && exists m :: m in pref && m in d
    ensures PreferredThenSorted(pref, Arrange(pref, d), d)
  {
    var ordered := Filter(pref, m => m in d);
    var extras := Sort(Filter(d, m => m !in pref));
    var w :| w in pref && w in d;
    assert w in ordered;
    ExtrasFacts(pref, d);
    FilterIsSubsequence(pref, m => m in d);
    PreferredThenSortedConcat(pref, ordered, extras, d);
  }

  lemma ListModelsOrder(names: seq<string>)
    requires exists m :: m in PreferredOrder && m in Discovered(names)
    ensures PreferredThenSorted(PreferredOrder, ListModels(Listed(names)), Discovered(names))
  {
    ArrangeOrder(PreferredOrder, Discovered(names));
  }

  /** When no preferred model is present, every discovered model is returned. */
  lemma ListModelsNoPreferred(names: seq<string>)
    requires forall m :: m in PreferredOrder ==> m !in Discovered(names)
    ensures ListModels(Listed(names)) == Discovered(names)
  {
  }

  lemma SortedNoDups(s: seq<string>)
    requires Sorted(s)
    ensures NoDups(s)
  {
    forall i, j | 0 <= i < j < |s| ensures s[i] != s[j] {
      if s[i] == s[j] { LexLessIrreflexive(s[i]); }
    }
  }

  lemma NoDupsConcat(a: seq<string>, b: seq<string>)
    requires NoDups(a) && NoDups(b) && forall x :: x in a ==> x !in b
    ensures NoDups(a + b)
  {
    forall i, j | 0 <= i < j < |a + b| ensures (a + b)[i] != (a + b)[j] {
      if i < |a| && j >= |a| {
        assert (a + b)[i] in a && (a + b)[j] == b[j - |a|];
      }
    }
  }
}

=== FILE: json_extract.dfy ===
/** `extract_json_from_text` (modules/utils.py): the two-stage scanner every
    model-calling stage uses to pull one JSON-looking span out of generated text.

    Stage 1 is the fenced pattern ```` ```(?:json)?\s*(\{.*?\}|\[.*?\])\s*``` ````,
    stage 2 the raw pattern `(\{[\s\S]*\}|\[[\s\S]*\])`, both under `re.search`.
    The definitions below spell out what a backtracking matcher returns for them:
    `re.search` takes the leftmost start position at which the pattern matches;
    a greedy `\s*` in front of a bracket or a fence can only succeed by consuming the
    whole whitespace run (neither `{`, `[` nor a backtick is whitespace); the lazy
    `.*?` stops at the first closer followed by whitespace and a fence; the greedy
    `[\s\S]*` runs to the last closer of the text. */
module JsonExtract {
  import opened Common
  import opened Text

  predicate IsOpener(c: char) { c == '{' || c == '[' }

  function CloserOf(c: char): char { if c == '{' then '}' else ']' }

  predicate IsBracket(c: char) { c == '{' || c == '}' || c == '[' || c == ']' }

  const Fence: string := "```"

  /** Three backticks start at `i`. */
  predicate FenceAt(t: string, i: int) {
    0 <= i && i + 3 <= |t| && t[i] == '`' && t[i + 1] == '`' && t[i + 2] == '`'
  }

  /** The optional `json` tag starts at `i`. */
  predicate TagAt(t: string, i: int) {
    0 <= i && i + 4 <= |t| && t[i] == 'j' && t[i + 1] == 's' && t[i + 2] == 'o' && t[i + 3] == 'n'
  }

  /** Index of the first non-whitespace character at or after `i` (or `|t|`). */
  function SkipSpace(t: string, i: nat): (j: nat)
    requires i <= |t|
    ensures i <= j <= |t|
    ensures forall k :: i <= k < j ==> IsSpace(t[k])
    ensures j < |t| ==> !IsSpace(t[j])
    decreases |t| - i
  {
    if i < |t| && IsSpace(t[i]) then SkipSpace(t, i + 1) else i
  }

  /** `t[x]` is `closer` and, after a whitespace run, a fence follows: a place
      where the lazy `.*?` of the fenced pattern may stop. */
  predicate ClosesFence(t: string, x: int, closer: char) {
    0 <= x < |t| && t[x] == closer && FenceAt(t, SkipSpace(t, x + 1))
  }

  /** The first `e >= k` closing a fenced block: where the lazy `.*?` stops. */
  function FenceClose(t: string, k: nat, closer: char): (r: Option<nat>)
    requires k <= |t|
    ensures r.Some? ==> k <= r.value && ClosesFence(t, r.value, closer)
    ensures forall x :: k <= x < (if r.Some? then r.value else |t|) ==> !ClosesFence(t, x, closer)
    decreases |t| - k
  {
    if k == |t| then None
    else if ClosesFence(t, k, closer) then Some(k)
    else FenceClose(t, k + 1, closer)
  }

  /** `j` opens with a bracket and ends with its closer. */
  predicate Bracketed(j: string) {
    |j| >= 2 && IsOpener(j[0]) && j[|j| - 1] == CloserOf(j[0])
  }

  /** Where the bracket of a fenced block opened at `p` would sit: after the
      fence, an optional `json` tag and the whitespace run. */
  function FenceBody(t: string, p: nat): (s: nat)
    requires FenceAt(t, p)
    ensures p + 3 <= s <= |t|
  {
    var q := if TagAt(t, p + 3) then p + 7 else p + 3;
    SkipSpace(t, q)
  }

  /** The span `[s, e)` captured by the fenced pattern when the match starts at `p`. */
  function FencedSpanAt(t: string, p: nat): Option<(nat, nat)>
    requires p <= |t|
  {
    if !FenceAt(t, p) then None
    else
      var s := FenceBody(t, p);
      if s < |t| && IsOpener(t[s]) then
        match FenceClose(t, s + 1, CloserOf(t[s]))
        case Some(e) => Some((s, e + 1))
        case None => None
      else None
  }

  /** The fenced pattern, read declaratively: the match starting at fence `p`
      captures `[s, e)` when `s` is the first non-whitespace position after the
      fence and its optional tag, `t[s]` opens a bracket, and `e - 1` is the
      FIRST later position holding the matching closer that whitespace and a
      fence follow. */
  predicate FencedMatch(t: string, p: nat, s: nat, e: nat) {
    && FenceAt(t, p) && s == FenceBody(t, p) && s + 2 <= e <= |t| && IsOpener(t[s])
    && ClosesFence(t, e - 1, CloserOf(t[s]))
    && forall x :: s + 1 <= x < e - 1 ==> !ClosesFence(t, x, CloserOf(t[s]))
  }

  /** The scanner agrees with the declarative reading of the fenced pattern,
      in both directions. */
  lemma FencedSpanAtSpec(t: string, p: nat)
    requires p <= |t|
    ensures FencedSpanAt(t, p).Some? ==> FencedMatch(t, p, FencedSpanAt(t, p).value.0, FencedSpanAt(t, p).value.1)
    ensures forall s: nat, e: nat :: FencedMatch(t, p, s, e) ==> FencedSpanAt(t, p) == Some((s, e))
  {
    forall s: nat, e: nat | FencedMatch(t, p, s, e) ensures FencedSpanAt(t, p) == Some((s, e)) {
      FencedSpanAtComplete(t, p, s, e);
    }
  }

  /** A span the scanner finds is bracketed by an opener and its closer. */
  lemma FencedSpanShape(t: string, p: nat)
    requires p <= |t| && FencedSpanAt(t, p).Some?
    ensures var sp := FencedSpanAt(t, p).value;
            sp.0 + 2 <= sp.1 <= |t| && IsOpener(t[sp.0]) && t[sp.1 - 1] == CloserOf(t[sp.0])
  {
    var s := FenceBody(t, p);
    var e := FenceClose(t, s + 1, CloserOf(t[s])).value;
    assert FencedSpanAt(t, p).value == (s, e + 1);
  }

  /** A declarative match is the one the scanner finds. */
  lemma FencedSpanAtComplete(t: string, p: nat, s: nat, e: nat)
    requires p <= |t| && FencedMatch(t, p, s, e)
    ensures FencedSpanAt(t, p).Some? && FencedSpanAt(t, p).value.0 == s && FencedSpanAt(t, p).value.1 == e
  {
    var r := FenceClose(t, s + 1, CloserOf(t[s]));
    assert r.Some? && r.value <= e - 1;
  }

  /** `re.search` with the fenced pattern: the leftmost start position, at or
      after `p`, at which the fenced pattern matches. */
  function FencedFrom(t: string, p: nat): (r: Option<nat>)
    requires p <= |t|
    ensures r.Some? ==> p <= r.value <= |t| && FencedSpanAt(t, r.value).Some?
    ensures forall q :: p <= q < (if r.Some? then r.value else |t| + 1) ==> FencedSpanAt(t, q).None?
    decreases |t| - p
  {
    if FencedSpanAt(t, p).Some? then Some(p)
    else if p == |t| then None
    else FencedFrom(t, p + 1)
  }

  /** `t[i]` opens a bracket whose closer occurs later in `t`: a start position
      of the raw pattern. */
  predicate RawOpensAt(t: string, i: int) {
    0 <= i < |t| && IsOpener(t[i]) && CloserOf(t[i]) in t[i + 1..]
  }

  /** Index of the last occurrence of `c` in `t`. */
  function LastIndexOf(t: string, c: char): (r: Option<nat>)
    ensures r.None? <==> c !in t
    ensures r.Some? ==> r.value < |t| && t[r.value] == c && c !in t[r.value + 1..]
  {
    if |t| == 0 then None
    else if t[|t| - 1] == c then Some(|t| - 1)
    else
      var r := LastIndexOf(t[..|t| - 1], c);
      assert r.Some? ==> t[r.value + 1..] == t[..|t| - 1][r.value + 1..] + [t[|t| - 1]];
      r
  }

  /** The leftmost raw start position at or after `i`. */
  function RawStartFrom(t: string, i: nat): (r: Option<nat>)
    requires i <= |t|
    ensures r.Some? ==> i <= r.value && RawOpensAt(t, r.value)
                        && forall k :: i <= k < r.value ==> !RawOpensAt(t, k)
    ensures r.None? ==> forall k :: i <= k < |t| ==> !RawOpensAt(t, k)
    decreases |t| - i
  {
    if i == |t| then None
    else if RawOpensAt(t, i) then Some(i)
    else RawStartFrom(t, i + 1)
  }

  /** The last occurrence of the closer lies after the opener it closes. */
  lemma LastCloserAfter(t: string, i: nat)
    requires RawOpensAt(t, i)
    ensures LastIndexOf(t, CloserOf(t[i])).Some?
    ensures i < LastIndexOf(t, CloserOf(t[i])).value
  {
    var c := CloserOf(t[i]);
    var j :| i + 1 <= j < |t| && t[j] == c by {
      var k :| 0 <= k < |t[i + 1..]| && t[i + 1..][k] == c;
      assert t[i + 1 + k] == c;
    }
    assert c in t;
  }

  /** The span `[s, e)` captured by the raw pattern: from the leftmost opener that
      has a later closer of its kind to the LAST such closer of the text. */
  function RawSpan(t: string): (r: Option<(nat, nat)>)
    ensures r.None? <==> forall k :: 0 <= k < |t| ==> !RawOpensAt(t, k)
    ensures r.Some? ==> RawOpensAt(t, r.value.0) && r.value.0 + 2 <= r.value.1 <= |t|
                        && (forall k :: 0 <= k < r.value.0 ==> !RawOpensAt(t, k))
                        && t[r.value.1 - 1] == CloserOf(t[r.value.0])
                        && CloserOf(t[r.value.0]) !in t[r.value.1..]
  {
    match RawStartFrom(t, 0)
    case None => None
    case Some(i) =>
      LastCloserAfter(t, i);
      Some((i, LastIndexOf(t, CloserOf(t[i])).value + 1))
  }


  /** The text of a bracketed span `[s, e)`. */
  function Capture(t: string, sp: (nat, nat)): (r: string)
    requires sp.0 + 2 <= sp.1 <= |t| && IsOpener(t[sp.0]) && t[sp.1 - 1] == CloserOf(t[sp.0])
    ensures Bracketed(r)
  {
    t[sp.0..sp.1]
  }

  /** `extract_json_from_text`: the fenced capture when the fenced pattern
      matches anywhere, otherwise the raw capture, otherwise nothing. */
  function ExtractJson(t: string): (r: Option<string>)
    ensures r.Some? ==> Bracketed(r.value)
  {
    match FencedFrom(t, 0)
    case Some(p) =>
      FencedSpanShape(t, p);
      Some(Capture(t, FencedSpanAt(t, p).value))
    case None =>
      match RawSpan(t)
      case Some(sp) => Some(Capture(t, sp))
      case None => None
  }

  /** A fenced block, wherever it is, beats any raw span: the result is the
      capture of the leftmost fence at which the fenced pattern matches, the
      bracketed text between the fence (with its optional `json` tag and
      whitespace) and the closing fence. */
  lemma FencedTakesPriority(t: string, p: nat)
    requires p <= |t| && FencedSpanAt(t, p).Some?
    ensures exists q: nat, s: nat, e: nat :: q <= p && FencedMatch(t, q, s, e)
                                            && ExtractJson(t) == Some(t[s..e])
  {
    var q := FencedFrom(t, 0).value;
    FencedSpanAtSpec(t, q);
    var sp := FencedSpanAt(t, q).value;
    assert FencedMatch(t, q, sp.0, sp.1);
  }

  /** Without a fenced block, the result is the greedy raw span: it starts at the
      leftmost opener that has a later closer of its kind and ends at the last
      occurrence of that closer. It is a contiguous piece of the text and need
      not be balanced. */
  lemma RawIsLeftmostToLast(t: string)
    requires FencedFrom(t, 0).None? && ExtractJson(t).Some?
    ensures exists i, j :: 0 <= i < j < |t| && ExtractJson(t) == Some(t[i..j + 1])
                           && RawOpensAt(t, i) && (forall k :: 0 <= k < i ==> !RawOpensAt(t, k))
                           && t[j] == CloserOf(t[i]) && CloserOf(t[i]) !in t[j + 1..]
  {
    var sp := RawSpan(t).value;
    assert ExtractJson(t) == Some(t[sp.0..sp.1]);
    assert t[sp.0..sp.1] == t[sp.0..(sp.1 - 1) + 1];
  }

  /** A fenced capture is bracketed, so whenever the fenced pattern matches the
      raw one matches too. */
  lemma FencedImpliesRaw(t: string, p: nat)
    requires p <= |t| && FencedSpanAt(t, p).Some?
    ensures RawOpensAt(t, FencedSpanAt(t, p).value.0)
  {
    FencedSpanAtSpec(t, p);
    var sp := FencedSpanAt(t, p).value;
    var c := CloserOf(t[sp.0]);
    assert t[sp.0 + 1..][sp.1 - 1 - (sp.0 + 1)] == c;
  }

  /** The extractor gives up exactly when no opener in the text has a later
      closer of its kind. */
  lemma ExtractNoneIff(t: string)
    ensures ExtractJson(t).None? <==> forall i :: 0 <= i < |t| ==> !RawOpensAt(t, i)
  {
    match FencedFrom(t, 0)
    case None =>
    case Some(q) =>
      FencedImpliesRaw(t, q);
  }

  /** Text without a backtick holds no fence, so only the raw pattern can match. */
  lemma NoBacktickNoFenced(t: string)
    requires '`' !in t
    ensures FencedFrom(t, 0).None?
  {
  }

  /** JSON wrapped in prose: when the surrounding text has no brackets and the
      whole text has no backtick, the extractor returns exactly the bracketed
      value. */
  lemma ProseAroundValue(pre: string, j: string, post: string)
    requires Bracketed(j)
    requires forall k :: 0 <= k < |pre| ==> !IsBracket(pre[k])
    requires forall k :: 0 <= k < |post| ==> !IsBracket(post[k])
    requires '`' !in pre + j + post
    ensures ExtractJson(pre + j + post) == Some(j)
  {
    var t := pre + j + post;
    NoBacktickNoFenced(t);
    var i := |pre|;
    assert t[i] == j[0];
    assert t[i + 1..][|j| - 2] == j[|j| - 1];
    assert RawOpensAt(t, i);
    forall k | 0 <= k < i ensures !RawOpensAt(t, k) {
      assert t[k] == pre[k];
    }
    var sp := RawSpan(t).value;
    assert sp.0 == i;
    var c := CloserOf(j[0]);
    var e := i + |j| - 1;
    assert t[e] == c;
    assert t[e + 1..] == post;
    assert t[sp.0..sp.1] == j;
  }

  /** The raw span is greedy, not balanced: in `{a} x {b}` it covers both objects. */
  lemma GreedyNotBalanced()
    ensures ExtractJson("{a} x {b}") == Some("{a} x {b}")
  {
    var t := "{a} x {b}";
    assert "" + t + "" == t;
    ProseAroundValue("", t, "");
  }

  lemma {:induction false} SkipSpaceOver(t: string, i: nat, j: nat)
    requires i <= j < |t| && !IsSpace(t[j])
    requires forall k :: i <= k < j ==> IsSpace(t[k])
    ensures SkipSpace(t, i) == j
    decreases j - i
  {
    if i < j {
      SkipSpaceOver(t, i + 1, j);
    }
  }

  /** A fence whose body `[s, e)` is bracketed, holds no backtick and is followed
      by whitespace and a closing fence is captured whole. */
  lemma FencedBlockCaptured(t: string, p: nat, e: nat)
    requires FenceAt(t, p)
    requires FenceBody(t, p) + 2 <= e <= |t|
    requires IsOpener(t[FenceBody(t, p)]) && t[e - 1] == CloserOf(t[FenceBody(t, p)])
    requires forall k :: FenceBody(t, p) <= k < e ==> t[k] != '`'
    requires FenceAt(t, SkipSpace(t, e))
    ensures FencedSpanAt(t, p) == Some((FenceBody(t, p), e))
  {
    var s := FenceBody(t, p);
    var c := CloserOf(t[s]);
    assert !IsSpace(t[e - 1]);
    forall x | s + 1 <= x < e - 1 ensures !ClosesFence(t, x, c) {
      var y := SkipSpace(t, x + 1);
      assert y <= e - 1;
      assert t[y] != '`';
    }
    assert FencedMatch(t, p, s, e);
    FencedSpanAtSpec(t, p);
  }

  /** The fenced form round-trips: a bracketed value without backticks, put in a
      fence (with or without the `json` tag, with any whitespace around it) after
      prose that has no backtick, comes back exactly. */
  lemma FencedRoundTrip(pre: string, tagged: bool, ws1: string, j: string, ws2: string, post: string)
    requires Bracketed(j)
    requires '`' !in pre && '`' !in j
    requires forall k :: 0 <= k < |ws1| ==> IsSpace(ws1[k])
    requires forall k :: 0 <= k < |ws2| ==> IsSpace(ws2[k])
    ensures ExtractJson(pre + Fence + (if tagged then "json" else "") + ws1 + j + ws2 + Fence + post) == Some(j)
  {
    var tag := if tagged then "json" else "";
    var head := pre + Fence + tag + ws1;
    var tail := ws2 + Fence + post;
    var t := head + j + tail;
    assert t == pre + Fence + tag + ws1 + j + ws2 + Fence + post;
    var p, s, e := |pre|, |head|, |head| + |j|;
    FencedBlockAt(t, head, j, tail, pre, tag, ws1, ws2);
    forall q | 0 <= q < p ensures FencedSpanAt(t, q).None? {
      assert t[q] == pre[q];
    }
    LeftmostFence(t, p);
    assert t[s..e] == j;
  }

  /** In the round-trip text, the fence after the prose captures exactly the value. */
  lemma FencedBlockAt(t: string, head: string, j: string, tail: string,
                      pre: string, tag: string, ws1: string, ws2: string)
    requires t == head + j + tail
    requires head == pre + Fence + tag + ws1 && StartsWith(tail, ws2 + Fence)
    requires Bracketed(j)
    requires '`' !in j && (tag == "json" || tag == "")
    requires forall k :: 0 <= k < |ws1| ==> IsSpace(ws1[k])
    requires forall k :: 0 <= k < |ws2| ==> IsSpace(ws2[k])
    ensures FencedSpanAt(t, |pre|) == Some((|head|, |head| + |j|))
  {
    var p, s, e := |pre|, |head|, |head| + |j|;
    assert t[s..e] == j;
    OpeningFence(t, head, j, tail, pre, tag, ws1);
    ClosingFence(t, head + j, tail, ws2);
    FencedBlockCaptured(t, p, e);
  }

  /** The round-trip text opens a fence at the end of the prose, and its body
      starts right after the tag and the whitespace. */
  lemma OpeningFence(t: string, head: string, j: string, tail: string, pre: string, tag: string, ws1: string)
    requires t == head + j + tail && head == pre + Fence + tag + ws1
    requires |j| >= 2 && IsOpener(j[0]) && (tag == "json" || tag == "")
    requires forall k :: 0 <= k < |ws1| ==> IsSpace(ws1[k])
    ensures FenceAt(t, |pre|) && FenceBody(t, |pre|) == |head|
  {
    var p, s := |pre|, |head|;
    assert t[..s] == head;
    assert t[s] == j[0];
    assert FenceAt(t, p) by { assert head[p..p + 3] == Fence; }
    assert t[p + 3..s] == tag + ws1 by { assert head[p + 3..] == tag + ws1; }
    FenceBodyAfterTag(t, p, tag, ws1, s);
  }

  /** After the value, the whitespace is skipped and a fence closes. */
  lemma ClosingFence(t: string, body: string, tail: string, ws2: string)
    requires t == body + tail && StartsWith(tail, ws2 + Fence)
    requires forall k :: 0 <= k < |ws2| ==> IsSpace(ws2[k])
    ensures FenceAt(t, SkipSpace(t, |body|))
  {
    var e := |body|;
    assert t[e..e + |ws2| + 3] == ws2 + Fence by { assert t[e..] == tail; }
    forall k | e <= k < e + |ws2| ensures IsSpace(t[k]) {
      assert t[k] == (ws2 + Fence)[k - e];
    }
    assert t[e + |ws2|] == '`';
    SkipSpaceOver(t, e, e + |ws2|);
    assert FenceAt(t, e + |ws2|) by {
      assert t[e + |ws2|..e + |ws2| + 3] == (ws2 + Fence)[|ws2|..];
    }
  }

  /** The fenced search stops at the first fence where the pattern matches. */
  lemma LeftmostFence(t: string, p: nat)
    requires p <= |t| && FencedSpanAt(t, p).Some?
    requires forall q :: 0 <= q < p ==> FencedSpanAt(t, q).None?
    ensures FencedFrom(t, 0) == Some(p)
  {
  }

  /** After a fence at `p`, the tag `json` (or nothing) and a whitespace run, the
      body starts at the first non-whitespace character `s`, provided that
      character is a bracket. */
  lemma FenceBodyAfterTag(t: string, p: nat, tag: string, ws: string, s: nat)
    requires FenceAt(t, p) && (tag == "json" || tag == "")
    requires s == p + 3 + |tag| + |ws| < |t| && IsOpener(t[s])
    requires t[p + 3..s] == tag + ws
    requires forall k :: 0 <= k < |ws| ==> IsSpace(ws[k])
    ensures FenceBody(t, p) == s
  {
    var q := p + 3 + |tag|;
    assert TagAt(t, p + 3) <==> tag == "json" by {
      if tag == "json" {
        assert t[p + 3..p + 7] == (tag + ws)[..4];
      } else if |ws| > 0 {
        assert t[p + 3] == ws[0];
      }
    }
    WhitespaceBeforeBody(t, p + 3, tag, ws, s);
    SkipSpaceOver(t, q, s);
  }

  lemma WhitespaceBeforeBody(t: string, a: nat, tag: string, ws: string, s: nat)
    requires s == a + |tag| + |ws| <= |t| && t[a..s] == tag + ws
    requires forall k :: 0 <= k < |ws| ==> IsSpace(ws[k])
    ensures forall k :: a + |tag| <= k < s ==> IsSpace(t[k])
  {
    forall k | a + |tag| <= k < s ensures IsSpace(t[k]) {
      assert t[k] == (tag + ws)[k - a];
    }
  }
}

=== FILE: pepite_finder.dfy ===
/** The keyword stage (modules/pepite_finder.py): the columns of a keyword
    export renamed to canonical names, the rows kept and their numbers read,
    and the data the keyword-choosing prompt is built from. The CSV reader
    and `pd.to_numeric` are not modelled: the table arrives already read,
    with each column's text-or-not type, and number parsing is a parameter. */
module PepiteFinder {
  import opened Common
  import opened Text
  import opened JsonExtract

  // ---- Column names ----

  /** The four canonical columns, in the priority order names are tried in. */
  datatype Canonical = KeywordCol | VolumeCol | DifficultyCol | CpcCol

  function Rank(c: Canonical): nat {
    match c
    case KeywordCol => 0
    case VolumeCol => 1
    case DifficultyCol => 2
    case CpcCol => 3
  }

  function CanonicalName(c: Canonical): string {
    match c
    case KeywordCol => "keyword"
    case VolumeCol => "volume"
    case DifficultyCol => "difficulty"
    case CpcCol => "cpc"
  }

  const KeywordAliases: seq<string> :=
    ["keyword", "mot-cl\U{E9}", "mot cl\U{E9}", "mots-cl\U{E9}s", "query", "term", "phrase", "requ\U{EA}te"]
  const VolumeAliases: seq<string> :=
    ["volume", "search volume", "monthly searches", "avg. monthly searches", "searches"]
  const DifficultyAliases: seq<string> :=
    ["difficulty", "kd", "keyword difficulty", "concurrence", "competition", "score"]
  const CpcAliases: seq<string> := ["cpc", "cost per click", "co\U{FB}t par clic"]

  function Aliases(c: Canonical): seq<string> {
    match c
    case KeywordCol => KeywordAliases
    case VolumeCol => VolumeAliases
    case DifficultyCol => DifficultyAliases
    case CpcCol => CpcAliases
  }

  /** The form of a column name the aliases are searched in: `col.lower().strip()`. */
  function Key(name: string): string { Strip(Lower(name)) }

  /** One of `c`'s aliases occurs in the column name. */
  predicate HasAlias(name: string, c: Canonical) { ContainsAny(Key(name), Aliases(c)) }

  // The renaming is stated for any alias test `matches`; the one the source
  // uses is `HasAlias`.

  /** Column `name` may take canonical name `c`: it matches `c` and no earlier
      column has taken `c`. */
  predicate Claims(matches: (string, Canonical) -> bool, name: string, c: Canonical, taken: set<Canonical>) {
    matches(name, c) && c !in taken
  }

  /** The canonical name a column gets, given those already taken: the
      highest-priority one it may take, or none. */
  function Assign(matches: (string, Canonical) -> bool, name: string, taken: set<Canonical>): (r: Option<Canonical>)
    ensures r.Some? ==> Claims(matches, name, r.value, taken)
                        && forall c :: Rank(c) < Rank(r.value) ==> !Claims(matches, name, c, taken)
  {
    if Claims(matches, name, KeywordCol, taken) then Some(KeywordCol)
    else if Claims(matches, name, VolumeCol, taken) then Some(VolumeCol)
    else if Claims(matches, name, DifficultyCol, taken) then Some(DifficultyCol)
    else if Claims(matches, name, CpcCol, taken) then Some(CpcCol)
    else None
  }

  /** A column gets no canonical name only when it may take none. */
  lemma AssignNone(matches: (string, Canonical) -> bool, name: string, taken: set<Canonical>, c: Canonical)
    requires Assign(matches, name, taken).None?
    ensures !Claims(matches, name, c, taken)
  {
    match c
    case KeywordCol =>
    case VolumeCol =>
    case DifficultyCol =>
    case CpcCol =>
  }

  /** The canonical names given so far: `rename_map.values()`. */
  function Taken(a: seq<Option<Canonical>>): set<Canonical> {
    set i | 0 <= i < |a| && a[i].Some? :: a[i].value
  }

  /** The canonical name each column gets, columns taken in order. */
  function Assignments(matches: (string, Canonical) -> bool, names: seq<string>): (a: seq<Option<Canonical>>)
    ensures |a| == |names|
    decreases |names|
  {
    if |names| == 0 then []
    else
      var init := Assignments(matches, names[..|names| - 1]);
      init + [Assign(matches, names[|names| - 1], Taken(init))]
  }

  lemma {:induction false} AssignmentsPrefix(matches: (string, Canonical) -> bool, names: seq<string>, k: nat)
    requires k <= |names|
    ensures Assignments(matches, names)[..k] == Assignments(matches, names[..k])
    decreases |names|
  {
    if k < |names| {
      var n := |names| - 1;
      assert names[..n][..k] == names[..k];
      AssignmentsPrefix(matches, names[..n], k);
    } else {
      assert names[..k] == names;
    }
  }

  /** Column `i` is tried with what the columns before it took. */
  lemma AssignmentAt(matches: (string, Canonical) -> bool, names: seq<string>, i: nat)
    requires i < |names|
    ensures Assignments(matches, names)[i] == Assign(matches, names[i], Taken(Assignments(matches, names)[..i]))
  {
    AssignmentsPrefix(matches, names, i + 1);
    AssignmentsPrefix(matches, names[..i + 1], i);
    assert names[..i + 1][..i] == names[..i];
    assert names[..i + 1][i] == names[i];
    assert Assignments(matches, names)[..i] == Assignments(matches, names[..i + 1])[..i];
  }

  /** No canonical name is given to two columns. */
  lemma AssignedOnce(matches: (string, Canonical) -> bool, names: seq<string>, i: nat, j: nat)
    requires i < j < |names|
    requires Assignments(matches, names)[i].Some?
    ensures Assignments(matches, names)[j] != Assignments(matches, names)[i]
  {
    var a := Assignments(matches, names);
    AssignmentAt(matches, names, j);
    assert a[..j][i] == a[i];
  }

  /** A column matching `c`, when no earlier column took `c`, takes `c` or a
      name of higher priority: matching falls through to the next group only
      when a group is taken. */
  lemma MatchIsAssigned(matches: (string, Canonical) -> bool, names: seq<string>, i: nat, c: Canonical)
    requires i < |names| && matches(names[i], c)
    requires forall j :: 0 <= j < i ==> Assignments(matches, names)[j] != Some(c)
    ensures Assignments(matches, names)[i].Some? && Rank(Assignments(matches, names)[i].value) <= Rank(c)
  {
    var a := Assignments(matches, names);
    AssignmentAt(matches, names, i);
    assert c !in Taken(a[..i]);
  }

  /** The first column matching the keyword group is the keyword column. */
  lemma KeywordToFirstMatch(matches: (string, Canonical) -> bool, names: seq<string>, i: nat)
    requires i < |names| && matches(names[i], KeywordCol)
    requires forall j :: 0 <= j < i ==> !matches(names[j], KeywordCol)
    ensures Assignments(matches, names)[i] == Some(KeywordCol)
  {
    var a := Assignments(matches, names);
    forall j | 0 <= j < i ensures a[j] != Some(KeywordCol) {
      AssignmentAt(matches, names, j);
    }
    MatchIsAssigned(matches, names, i, KeywordCol);
  }

  /** The first name matching the keyword group. */
  function FirstMatch(matches: (string, Canonical) -> bool, names: seq<string>): (i: nat)
    requires exists i :: 0 <= i < |names| && matches(names[i], KeywordCol)
    ensures i < |names| && matches(names[i], KeywordCol)
    ensures forall j :: 0 <= j < i ==> !matches(names[j], KeywordCol)
  {
    if matches(names[0], KeywordCol) then 0
    else
      var w :| 0 <= w < |names| && matches(names[w], KeywordCol);
      assert names[1..][w - 1] == names[w];
      var k := FirstMatch(matches, names[1..]);
      assert forall j :: 1 <= j <= k ==> names[j] == names[1..][j - 1];
      k + 1
  }

  /** A column is text-typed (`dtype == object`) or not. */
  datatype Column = Column(name: string, isText: bool)

  function Names(cols: seq<Column>): (names: seq<string>)
    ensures |names| == |cols| && forall i :: 0 <= i < |cols| ==> names[i] == cols[i].name
  {
    seq(|cols|, i requires 0 <= i < |cols| => cols[i].name)
  }

  /** The names after renaming by alias; unmatched columns keep theirs. */
  function Renamed(matches: (string, Canonical) -> bool, cols: seq<Column>): (r: seq<string>)
    ensures |r| == |cols|
  {
    var a := Assignments(matches, Names(cols));
    seq(|cols|, i requires 0 <= i < |cols| => if a[i].Some? then CanonicalName(a[i].value) else cols[i].name)
  }

  function FirstText(cols: seq<Column>): (r: Option<nat>)
    ensures r.Some? ==> r.value < |cols| && cols[r.value].isText && forall j :: 0 <= j < r.value ==> !cols[j].isText
    ensures r.None? ==> forall j :: 0 <= j < |cols| ==> !cols[j].isText
  {
    if |cols| == 0 then None
    else if cols[0].isText then Some(0)
    else match FirstText(cols[1..])
      case None => None
      case Some(k) => Some(k + 1)
  }

  /** Renamed by `matches`, then, with still no keyword column, the first text
      column (every column of that name) renamed `keyword`. */
  function NormalizeWith(matches: (string, Canonical) -> bool, cols: seq<Column>): (r: seq<string>)
    ensures |r| == |cols|
  {
    var renamed := Renamed(matches, cols);
    if "keyword" in renamed then renamed
    else match FirstText(cols)
      case None => renamed
      case Some(k) => seq(|cols|, i requires 0 <= i < |cols| => if renamed[i] == renamed[k] then "keyword" else renamed[i])
  }

  /** `_normalize_columns(df)`. */
  function NormalizeColumns(cols: seq<Column>): (r: seq<string>)
    ensures |r| == |cols|
  {
    NormalizeWith(HasAlias, cols)
  }

  /** A column matching no group keeps its name through the alias step. */
  lemma UnmatchedKeepsName(matches: (string, Canonical) -> bool, cols: seq<Column>, i: nat)
    requires i < |cols| && forall c :: !matches(cols[i].name, c)
    ensures Renamed(matches, cols)[i] == cols[i].name
  {
    AssignmentAt(matches, Names(cols), i);
  }

  /** A `keyword` after the alias step comes from a column matching the
      keyword group (a column already named `keyword` matching it too). */
  lemma RenamedKeyword(matches: (string, Canonical) -> bool, cols: seq<Column>)
    requires matches("keyword", KeywordCol)
    ensures "keyword" in Renamed(matches, cols) ==>
              exists i :: 0 <= i < |cols| && matches(cols[i].name, KeywordCol)
  {
    var renamed := Renamed(matches, cols);
    if "keyword" in renamed {
      var i :| 0 <= i < |cols| && renamed[i] == "keyword";
      AssignmentAt(matches, Names(cols), i);
    }
  }

  /** There is a keyword column exactly when some column matches the keyword
      group or some column is text-typed. */
  lemma KeywordColumnWith(matches: (string, Canonical) -> bool, cols: seq<Column>)
    requires matches("keyword", KeywordCol)
    ensures "keyword" in NormalizeWith(matches, cols) <==>
              (exists i :: 0 <= i < |cols| && matches(cols[i].name, KeywordCol))
              || (exists i :: 0 <= i < |cols| && cols[i].isText)
  {
    var names := Names(cols);
    var renamed := Renamed(matches, cols);
    if exists i :: 0 <= i < |cols| && matches(cols[i].name, KeywordCol) {
      var i := FirstMatch(matches, names);
      KeywordToFirstMatch(matches, names, i);
      assert renamed[i] == "keyword";
    } else {
      RenamedKeyword(matches, cols);
      if exists i :: 0 <= i < |cols| && cols[i].isText {
        var k := FirstText(cols).value;
        assert NormalizeWith(matches, cols)[k] == "keyword";
      }
    }
  }

  lemma KeyOfKeyword(name: string)
    requires name == "keyword"
    ensures Key(name) == name
  {
    assert Lower(name) == name;
    TrimStartStop(name);
    TrimEndStop(name);
  }

  /** `keyword` is itself an alias of the keyword group. */
  lemma KeywordHasAlias(name: string, aliases: seq<string>)
    requires name == "keyword" && |aliases| > 0 && aliases[0] == name
    ensures ContainsAny(Key(name), aliases)
  {
    KeyOfKeyword(name);
    assert OccursAt(name, aliases[0], 0);
  }

  /** `_normalize_columns` finds a keyword column exactly when some column name
      holds a keyword alias or some column is text-typed. */
  lemma KeywordColumnExists(cols: seq<Column>)
    ensures "keyword" in NormalizeColumns(cols) <==>
              (exists i :: 0 <= i < |cols| && HasAlias(cols[i].name, KeywordCol))
              || (exists i :: 0 <= i < |cols| && cols[i].isText)
  {
    KeywordHasAlias("keyword", Aliases(KeywordCol));
    KeywordColumnWith(HasAlias, cols);
  }

  // ---- Rows ----

  /** A float of a numeric column once NaN has been filled with 0: a finite
      value, or an infinity, which `to_numeric` gives for `inf` or `1e400`. */
  datatype Number = Finite(value: real) | Infinite(negative: bool)

  /** A row of the table: one cell per column, `None` for a missing value. */
  type Row = seq<Option<string>>

  /** One row kept by `parse_keyword_csv`: the stripped keyword and, for each
      numeric column the table has, its number. */
  datatype KeywordRow = KeywordRow(keyword: string, volume: Option<Number>, difficulty: Option<Number>, cpc: Option<Number>)

  /** The first column of a name: `df[name]`. */
  function ColumnIndex(names: seq<string>, name: string): (r: Option<nat>)
    ensures r.None? <==> name !in names
    ensures r.Some? ==> r.value < |names| && names[r.value] == name && name !in names[..r.value]
  {
    if |names| == 0 then None
    else if names[0] == name then Some(0)
    else match ColumnIndex(names[1..], name)
      case None => None
      case Some(k) =>
        assert names[..k + 1] == [names[0]] + names[1..][..k];
        Some(k + 1)
  }

  /** The cell of column `k` (a row as wide as the table always has one). */
  function Cell(row: Row, k: nat): Option<string> {
    if k < |row| then row[k] else None
  }

  /** `astype(str)`: a missing value prints as `nan`. */
  function CellText(cell: Option<string>): string {
    match cell
    case None => "nan"
    case Some(s) => s
  }

  /** `pd.to_numeric(str(cell).replace(",", ""), errors="coerce").fillna(0)`,
      `parse` giving `None` for text that is not a number or reads as NaN. */
  function Coerce(cell: Option<string>, parse: string -> Option<Number>): Number {
    parse(RemoveChar(CellText(cell), ',')).GetOr(Finite(0.0))
  }

  lemma RemoveCharTwice(s: string, c: char)
    ensures RemoveChar(RemoveChar(s, c), c) == RemoveChar(s, c)
  {
    FilterAll(RemoveChar(s, c), (x: char) => x != c);
  }

  /** Thousands separators do not change a number: a cell reads the same with
      its commas removed. */
  lemma CoerceIgnoresCommas(s: string, parse: string -> Option<Number>)
    ensures Coerce(Some(s), parse) == Coerce(Some(RemoveChar(s, ',')), parse)
  {
    RemoveCharTwice(s, ',');
  }

  /** Text that does not parse reads as 0. */
  lemma CoerceUnparsed(cell: Option<string>, parse: string -> Option<Number>)
    requires parse(RemoveChar(CellText(cell), ',')).None?
    ensures Coerce(cell, parse) == Finite(0.0)
  {
  }

  /** The number in the first column named `name`, when there is one. */
  function NumberOf(names: seq<string>, row: Row, name: string, parse: string -> Option<Number>): (r: Option<Number>)
    ensures r.Some? <==> name in names
  {
    match ColumnIndex(names, name)
    case None => None
    case Some(k) => Some(Coerce(Cell(row, k), parse))
  }

  /** A row survives when its keyword is present and longer than two
      characters once stripped. */
  predicate Keeps(cell: Option<string>) { cell.Some? && |Strip(cell.value)| > 2 }

  function ConvertRow(names: seq<string>, k: nat, row: Row, parse: string -> Option<Number>): KeywordRow {
    KeywordRow(Strip(CellText(Cell(row, k))),
               NumberOf(names, row, "volume", parse),
               NumberOf(names, row, "difficulty", parse),
               NumberOf(names, row, "cpc", parse))
  }

  function KeepTest(k: nat): Row -> bool {
    row => Keeps(Cell(row, k))
  }

  function Converter(names: seq<string>, k: nat, parse: string -> Option<Number>): Row -> KeywordRow {
    row => ConvertRow(names, k, row, parse)
  }

  /** The rows whose keyword survives, converted, in table order. */
  function KeptRows(names: seq<string>, k: nat, rows: seq<Row>, parse: string -> Option<Number>): (r: seq<KeywordRow>)
    ensures |r| <= |rows|
  {
    MapFilter(rows, KeepTest(k), Converter(names, k, parse))
  }

  /** The rows kept are exactly the converted rows whose keyword survives. */
  lemma KeptRowsMembers(names: seq<string>, k: nat, rows: seq<Row>, parse: string -> Option<Number>, x: KeywordRow)
    ensures x in KeptRows(names, k, rows, parse) <==>
              exists i :: 0 <= i < |rows| && Keeps(Cell(rows[i], k)) && x == ConvertRow(names, k, rows[i], parse)
  {
    MapFilterMembers(rows, KeepTest(k), Converter(names, k, parse), x);
  }

  /** Every kept keyword is stripped and longer than two characters; every kept
      row has a number for exactly the numeric columns the table has. */
  lemma KeptRowsShape(names: seq<string>, k: nat, rows: seq<Row>, parse: string -> Option<Number>)
    ensures forall r :: r in KeptRows(names, k, rows, parse) ==>
              && |r.keyword| > 2 && Strip(r.keyword) == r.keyword
              && (r.volume.Some? <==> "volume" in names)
              && (r.difficulty.Some? <==> "difficulty" in names)
              && (r.cpc.Some? <==> "cpc" in names)
  {
    forall r | r in KeptRows(names, k, rows, parse)
      ensures |r.keyword| > 2 && Strip(r.keyword) == r.keyword
    {
      KeptRowsMembers(names, k, rows, parse, r);
      var i :| 0 <= i < |rows| && Keeps(Cell(rows[i], k)) && r == ConvertRow(names, k, rows[i], parse);
      StripIdempotent(Cell(rows[i], k).value);
    }
    forall r | r in KeptRows(names, k, rows, parse)
      ensures (r.volume.Some? <==> "volume" in names)
              && (r.difficulty.Some? <==> "difficulty" in names)
              && (r.cpc.Some? <==> "cpc" in names)
    {
      KeptRowsMembers(names, k, rows, parse, r);
    }
  }

  /** A keyword export as read: its columns and its rows. */
  datatype Table = Table(columns: seq<Column>, rows: seq<Row>)

  /** `parse_keyword_csv` after reading: normalised names, then the rows whose
      keyword survives, in order. Without a keyword column, selecting it
      raises KeyError. */
  function ParseKeywordCsv(t: Table, parse: string -> Option<Number>): (r: Result<seq<KeywordRow>>)
    ensures r.Err? <==> "keyword" !in NormalizeColumns(t.columns)
    ensures r.Err? ==> r == Err(KeyError("['keyword']"))
    ensures r.Ok? ==> |r.value| <= |t.rows|
  {
    var names := NormalizeColumns(t.columns);
    match ColumnIndex(names, "keyword")
    case None => Err(KeyError("['keyword']"))
    case Some(k) => Ok(KeptRows(names, k, t.rows, parse))
  }

  /** The rows `parse_keyword_csv` returns are those of the table whose cell
      in the first `keyword` column survives, converted. */
  lemma ParsedRows(t: Table, parse: string -> Option<Number>, x: KeywordRow)
    requires "keyword" in NormalizeColumns(t.columns)
    ensures var names := NormalizeColumns(t.columns);
            var k := ColumnIndex(names, "keyword").value;
            && ParseKeywordCsv(t, parse).Ok?
            && (x in ParseKeywordCsv(t, parse).value <==>
                  exists i :: 0 <= i < |t.rows| && Keeps(Cell(t.rows[i], k)) && x == ConvertRow(names, k, t.rows[i], parse))
  {
    var names := NormalizeColumns(t.columns);
    KeptRowsMembers(names, ColumnIndex(names, "keyword").value, t.rows, parse, x);
  }

  /** A row appended to the table adds its conversion at the end exactly when
      its keyword survives: the rows come back in table order, each once. */
  lemma ParsedRowsSnoc(t: Table, row: Row, parse: string -> Option<Number>)
    requires "keyword" in NormalizeColumns(t.columns)
    ensures var names := NormalizeColumns(t.columns);
            var k := ColumnIndex(names, "keyword").value;
            && ParseKeywordCsv(t.(rows := t.rows + [row]), parse).Ok?
            && ParseKeywordCsv(t.(rows := t.rows + [row]), parse).value ==
                 ParseKeywordCsv(t, parse).value + (if Keeps(Cell(row, k)) then [ConvertRow(names, k, row, parse)] else [])
  {
    var names := NormalizeColumns(t.columns);
    var k := ColumnIndex(names, "keyword").value;
    MapFilterSnoc(t.rows, row, KeepTest(k), Converter(names, k, parse));
  }

  // ---- The prompt data ----

  const RecordCap := 100
  const TopicSource := 60

  /** One keyword as serialised for the prompt: `volume` and `difficulty`
      truncated to integers. */
  datatype KeywordRecord = KeywordRecord(keyword: string, volume: Option<int>, difficulty: Option<int>, cpc: Option<Number>)

  const InfinityMessage := "cannot convert float infinity to integer"

  /** Python's `int(x)` on a finite float: truncation toward zero. */
  function TruncReal(x: real): (n: int)
    ensures x >= 0.0 ==> n as real <= x < n as real + 1.0
    ensures x < 0.0 ==> n as real - 1.0 < x <= n as real
  {
    if x >= 0.0 then x.Floor else -((-x).Floor)
  }

  predicate IsInfinite(x: Option<Number>) { x.Some? && x.value.Infinite? }

  /** `int(x)` on a numeric field the table may lack: an infinity raises
      OverflowError. */
  function FieldToInt(x: Option<Number>): (r: Result<Option<int>>)
    ensures r.Err? <==> IsInfinite(x)
    ensures r.Err? ==> r.error == OverflowError(InfinityMessage)
    ensures r.Ok? ==> (r.value.Some? <==> x.Some?)
    ensures r.Ok? && x.Some? ==> r.value.value == TruncReal(x.value.value)
  {
    match x
    case None => Ok(None)
    case Some(Finite(v)) => Ok(Some(TruncReal(v)))
    case Some(Infinite(_)) => Err(OverflowError(InfinityMessage))
  }

  /** An integer field of the row is infinite, so serialising it raises. */
  predicate Overflows(r: KeywordRow) { IsInfinite(r.volume) || IsInfinite(r.difficulty) }

  /** The record of one row: `volume`, then `difficulty`, converted with `int()`;
      `cpc` is kept as a float, infinite or not. */
  function ToRecord(r: KeywordRow): (res: Result<KeywordRecord>)
    ensures res.Err? <==> Overflows(r)
    ensures res.Err? ==> res.error == OverflowError(InfinityMessage)
    ensures res.Ok? ==> && res.value.keyword == r.keyword && res.value.cpc == r.cpc
                        && (res.value.volume.Some? <==> r.volume.Some?)
                        && (res.value.difficulty.Some? <==> r.difficulty.Some?)
  {
    match FieldToInt(r.volume)
    case Err(e) => Err(e)
    case Ok(v) =>
      match FieldToInt(r.difficulty)
      case Err(e) => Err(e)
      case Ok(d) => Ok(KeywordRecord(r.keyword, v, d, r.cpc))
  }

  /** The loop serialising `rows` in order; the first row that overflows
      ends it with the exception. */
  function RecordsOf(rows: seq<KeywordRow>): (r: Result<seq<KeywordRecord>>)
    ensures r.Err? <==> exists i :: 0 <= i < |rows| && Overflows(rows[i])
    ensures r.Err? ==> r.error == OverflowError(InfinityMessage)
    ensures r.Ok? ==> |r.value| == |rows| && forall i :: 0 <= i < |rows| ==> ToRecord(rows[i]) == Ok(r.value[i])
    decreases |rows|
  {
    if |rows| == 0 then Ok([])
    else
      match ToRecord(rows[0])
      case Err(e) => Err(e)
      case Ok(rec) =>
        match RecordsOf(rows[1..])
        case Err(e) =>
          assert exists i :: 0 <= i < |rows[1..]| && Overflows(rows[1..][i]);
          var i :| 0 <= i < |rows[1..]| && Overflows(rows[1..][i]);
          assert Overflows(rows[i + 1]);
          Err(e)
        case Ok(recs) =>
          assert forall i :: 0 < i < |rows| ==> rows[i] == rows[1..][i - 1];
          Ok([rec] + recs)
  }

  /** The first 100 rows, serialised; an infinite volume or difficulty among
      them raises OverflowError. */
  function Records(rows: seq<KeywordRow>): (r: Result<seq<KeywordRecord>>)
    ensures r.Err? <==> exists i :: 0 <= i < Min(RecordCap, |rows|) && Overflows(rows[i])
    ensures r.Err? ==> r.error == OverflowError(InfinityMessage)
    ensures r.Ok? ==> |r.value| == Min(RecordCap, |rows|)
    ensures r.Ok? ==> forall i :: 0 <= i < |r.value| ==>
              && r.value[i].keyword == rows[i].keyword
              && (r.value[i].volume.Some? <==> rows[i].volume.Some?)
              && (r.value[i].difficulty.Some? <==> rows[i].difficulty.Some?)
              && r.value[i].cpc == rows[i].cpc
  {
    var head := Take(rows, RecordCap);
    assert forall i :: 0 <= i < |head| ==> head[i] == rows[i];
    RecordsOf(head)
  }

  /** The topic a URL covers: its last path segment with `-` and `_` as spaces. */
  function Topic(url: string): (t: string)
    ensures '/' !in t && '-' !in t && '_' !in t
  {
    var parts := Split(TrimEnd(url, IsSlash), '/');
    ReplaceChar(ReplaceChar(parts[|parts| - 1], '-', ' '), '_', ' ')
  }

  predicate NonEmpty(s: string) { |s| > 0 }

  /** The covered topics: those of the last 60 sitemap URLs, empty ones left out. */
  function CoveredTopics(urls: seq<string>): (topics: seq<string>)
    ensures |topics| <= TopicSource
    ensures forall t :: t in topics ==> |t| > 0 && '/' !in t && '-' !in t && '_' !in t
  {
    Filter(Topics(TakeLast(urls, TopicSource)), NonEmpty)
  }

  /** The topic of each URL, in order. */
  function Topics(urls: seq<string>): (ts: seq<string>)
    ensures |ts| == |urls| && forall i :: 0 <= i < |urls| ==> ts[i] == Topic(urls[i])
  {
    seq(|urls|, i requires 0 <= i < |urls| => Topic(urls[i]))
  }

  /** Each topic is that of one of the last 60 URLs. */
  lemma TopicsFromRecentUrls(urls: seq<string>, t: string)
    requires t in CoveredTopics(urls)
    ensures exists i :: Max(|urls| - TopicSource, 0) <= i < |urls| && Topic(urls[i]) == t
  {
    var recent := TakeLast(urls, TopicSource);
    var all := Topics(recent);
    assert t in all;
    var j :| 0 <= j < |all| && all[j] == t;
    var off := |urls| - |recent|;
    assert recent[j] == urls[off + j];
    assert Max(|urls| - TopicSource, 0) <= off + j < |urls| && Topic(urls[off + j]) == t;
  }

  const NoKeywordJsonPrefix := "Gemini n'a pas retourn\U{E9} un JSON valide pour la s\U{E9}lection du mot-cl\U{E9}.\nR\U{E9}ponse : "

  /** What `find_best_keyword` makes of the model's answer: the JSON it holds,
      parsed. Without JSON a ValueError quotes the first 500 characters; a
      decode error escapes as `json.loads` raises it (a ValueError too); an
      exception from the model escapes. */
  function AnswerKeyword<T>(reply: Reply, decode: string -> Decoded<T>): (r: Result<T>)
    ensures reply.Failure? ==> r == Err(Propagated(reply.message))
    ensures reply.Response? && ExtractJson(Strip(reply.text)).None? ==>
              r == Err(ValueError(NoKeywordJsonPrefix + Take(Strip(reply.text), 500)))
    ensures r.Ok? <==> reply.Response? && ExtractJson(Strip(reply.text)).Some?
                       && decode(ExtractJson(Strip(reply.text)).value).Decoded?
    ensures r.Ok? ==> r.value == decode(ExtractJson(Strip(reply.text)).value).value
    ensures reply.Response? && r.Err? ==> r.error.ValueError?
  {
    match reply
    case Failure(m) => Err(Propagated(m))
    case Response(text) =>
      var raw := Strip(text);
      match ExtractJson(raw)
      case None => Err(ValueError(NoKeywordJsonPrefix + Take(raw, 500)))
      case Some(js) =>
        match decode(js)
        case Malformed(e) => Err(ValueError(e))
        case Decoded(v) => Ok(v)
  }

  /** `find_best_keyword(df, sitemap_urls, ...)`: the model, seen through the
      records and the covered topics its prompt lists, answers; an infinite
      count among the records raises before the model is asked. */
  function FindBestKeyword<T>(rows: seq<KeywordRow>, urls: seq<string>,
                              ask: (seq<KeywordRecord>, seq<string>) -> Reply,
                              decode: string -> Decoded<T>): (r: Result<T>)
  {
    match Records(rows)
    case Err(e) => Err(e)
    case Ok(recs) => AnswerKeyword(ask(recs, CoveredTopics(urls)), decode)
  }

  /** An infinite volume or difficulty in one of the first 100 rows makes
      `find_best_keyword` raise OverflowError, whatever the model would answer. */
  lemma InfiniteCountRaises<T>(rows: seq<KeywordRow>, urls: seq<string>, i: int,
                               ask: (seq<KeywordRecord>, seq<string>) -> Reply, decode: string -> Decoded<T>)
    requires 0 <= i < |rows| && i < RecordCap && Overflows(rows[i])
    ensures FindBestKeyword(rows, urls, ask, decode) == Err(OverflowError(InfinityMessage))
  {
  }

  /** With every serialised count finite, the model is asked and its answer decides. */
  lemma FiniteCountsReachModel<T>(rows: seq<KeywordRow>, urls: seq<string>,
                                  ask: (seq<KeywordRecord>, seq<string>) -> Reply, decode: string -> Decoded<T>)
    requires forall i :: 0 <= i < |rows| ==> !Overflows(rows[i])
    ensures Records(rows).Ok?
    ensures FindBestKeyword(rows, urls, ask, decode) == AnswerKeyword(ask(Records(rows).value, CoveredTopics(urls)), decode)
  {
  }

  /** Rows beyond the hundredth are not serialised. */
  lemma RecordsIgnoreLaterRows(rows: seq<KeywordRow>, extra: seq<KeywordRow>)
    requires |rows| >= RecordCap
    ensures Records(rows + extra) == Records(rows)
  {
    assert Take(rows + extra, RecordCap) == Take(rows, RecordCap);
  }

  /** URLs before the last 60 give no topic. */
  lemma TopicsIgnoreOlderUrls(older: seq<string>, urls: seq<string>)
    requires |urls| >= TopicSource
    ensures CoveredTopics(older + urls) == CoveredTopics(urls)
  {
    assert TakeLast(older + urls, TopicSource) == TakeLast(urls, TopicSource);
  }

  /** The model sees only the first 100 rows and the last 60 URLs: rows beyond
      the hundredth and earlier URLs do not change the result. */
  lemma OnlyPromptDataMatters<T>(rows: seq<KeywordRow>, extra: seq<KeywordRow>, urls: seq<string>, older: seq<string>,
                                 ask: (seq<KeywordRecord>, seq<string>) -> Reply, decode: string -> Decoded<T>)
    requires |rows| >= RecordCap && |urls| >= TopicSource
    ensures FindBestKeyword(rows + extra, older + urls, ask, decode) == FindBestKeyword(rows, urls, ask, decode)
  {
    RecordsIgnoreLaterRows(rows, extra);
    TopicsIgnoreOlderUrls(older, urls);
  }
}

=== FILE: redacteur.dfy ===
/** The writer stage (modules/redacteur.py): reading the article out of the
    writer model's answer, the slug and keyword count of the prompt, and the
    blocks of the prompt built from the brief and the internal links. */
module Redacteur {
  import opened Common
  import opened Text
  import opened JsonExtract
  import opened ArticleBrief
  import opened WordBudget

  // ---- The marker-delimited blocks of the answer ----

  const MarkdownOpen := "===MARKDOWN==="
  const MarkdownClose := "===END MARKDOWN==="
  const HtmlOpen := "===HTML==="
  const HtmlClose := "===END HTML==="

  /** `t[a..b]` is all whitespace. */
  predicate Blank(t: string, a: int, b: int) {
    0 <= a <= b <= |t| && forall j :: a <= j < b ==> IsSpace(t[j])
  }

  /** A match of `open\s*(.*?)\s*close` (with DOTALL) starting at `i`, the
      group being `t[s..e]` and `close` found at `k`. */
  predicate MatchAt(t: string, open: string, close: string, i: int, s: int, e: int, k: int) {
    && OccursAt(t, open, i)
    && Blank(t, i + |open|, s)
    && s <= e
    && Blank(t, e, k)
    && OccursAt(t, close, k)
  }

  /** A closing marker that does not start with whitespace, as both of the
      source's do. */
  predicate Marker(close: string) { |close| > 0 && !IsSpace(close[0]) }

  /** Where `re.search(open + r"\s*(.*?)\s*" + close, t, re.DOTALL)` looks:
      the first opening marker at `i`, the next closing marker at `k`, the
      group `t[s..e]` between them without its surrounding whitespace. */
  function Found(t: string, open: string, close: string): (r: Option<(nat, nat, nat, nat)>)
    requires Marker(close)
    ensures r.Some? ==> r.value.0 + |open| <= r.value.1 <= r.value.2 <= r.value.3 <= |t|
  {
    match FindFrom(t, open, 0)
    case None => None
    case Some(i) =>
      match FindFrom(t, close, i + |open|)
      case None => None
      case Some(k) =>
        var s := SkipSpace(t, i + |open|);
        assert t[k] == close[0];
        Some((i, s, GroupEnd(t, s, k), k))
  }

  /** The match found starts at `i`, has the group `t[s..e]` and the closing
      marker at `k`. */
  predicate FoundIs(t: string, open: string, close: string, i: nat, s: nat, e: nat, k: nat)
    requires Marker(close)
  {
    var f := Found(t, open, close);
    f.Some? && f.value.0 == i && f.value.1 == s && f.value.2 == e && f.value.3 == k
  }

  /** The regex's group, stripped: what lies between the first opening marker
      and the next closing marker, stripped; `None` when there is no such pair. */
  function Block(t: string, open: string, close: string): (r: Option<string>)
    requires Marker(close)
    ensures r.Some? <==> Found(t, open, close).Some?
  {
    match Found(t, open, close)
    case None => None
    case Some((_, g, e, _)) => Some(Strip(t[g..e]))
  }

  /** The end of the group the lazy `.*?` settles on: the closing marker at
      `k`, less the whitespace before it. */
  function GroupEnd(t: string, s: nat, k: nat): (e: nat)
    requires s <= k <= |t|
    ensures s <= e <= k && Blank(t, e, k)
    ensures e > s ==> !IsSpace(t[e - 1])
    decreases k
  {
    if k > s && IsSpace(t[k - 1]) then GroupEnd(t, s, k - 1) else k
  }

  lemma FoundIsMatch(t: string, open: string, close: string)
    requires Marker(close) && Found(t, open, close).Some?
    ensures var (i, s, e, k) := Found(t, open, close).value;
            MatchAt(t, open, close, i, s, e, k)
  {
  }

  /** No match starts before the first opening marker. */
  lemma FoundLeftmost(t: string, open: string, close: string)
    requires Marker(close) && Found(t, open, close).Some?
    ensures var i := Found(t, open, close).value.0;
            forall i', s', e', k' :: i' < i ==> !MatchAt(t, open, close, i', s', e', k')
  {
  }

  /** The leading `\s*` cannot take more. */
  lemma FoundGreedy(t: string, open: string, close: string)
    requires Marker(close) && Found(t, open, close).Some?
    ensures var (i, s, _, _) := Found(t, open, close).value;
            forall s', e', k' :: s < s' ==> !MatchAt(t, open, close, i, s', e', k')
  {
    var (i, s, e, k) := Found(t, open, close).value;
    assert t[k] == close[0];
    assert !IsSpace(t[s]);
  }

  /** The lazy `.*?` cannot stop earlier. */
  lemma FoundLazy(t: string, open: string, close: string)
    requires Marker(close) && Found(t, open, close).Some?
    ensures var (i, s, e, _) := Found(t, open, close).value;
            forall e', k' :: e' < e ==> !MatchAt(t, open, close, i, s, e', k')
  {
    var (i, s, e, k) := Found(t, open, close).value;
    forall e', k' | e' < e ensures !MatchAt(t, open, close, i, s, e', k') {
      if s <= e' {
        assert !IsSpace(t[e - 1]);
        assert forall j :: i + |open| <= j < k ==> !OccursAt(t, close, j);
      }
    }
  }

  /** A slice that neither starts nor ends with whitespace is its own `strip()`. */
  lemma StrippedSlice(t: string, s: int, e: int)
    requires 0 <= s <= e <= |t|
    requires e > s ==> !IsSpace(t[s]) && !IsSpace(t[e - 1])
    ensures Strip(t[s..e]) == t[s..e]
  {
    TrimStartFrom(t, s, s, e);
    TrimEndTo(t, s, e, e);
  }

  /** Leading whitespace `t[a..s]` before a character that is not whitespace
      (or before the end `k`) is dropped. */
  lemma {:induction false} TrimStartFrom(t: string, a: int, s: int, k: int)
    requires Blank(t, a, s) && s <= k <= |t| && (s < k ==> !IsSpace(t[s]))
    ensures TrimStart(t[a..k], IsSpace) == t[s..k]
    decreases s - a
  {
    if a < s {
      TrimStartDrop(t, a, k);
      TrimStartFrom(t, a + 1, s, k);
    } else {
      TrimStartKeep(t, s, k);
    }
  }

  lemma TrimStartDrop(t: string, a: int, k: int)
    requires 0 <= a < k <= |t| && IsSpace(t[a])
    ensures TrimStart(t[a..k], IsSpace) == TrimStart(t[a + 1..k], IsSpace)
  {
    assert t[a..k][0] == t[a] && t[a..k][1..] == t[a + 1..k];
    TrimStartStep(t[a..k]);
  }

  lemma TrimStartKeep(t: string, s: int, k: int)
    requires 0 <= s <= k <= |t| && (s < k ==> !IsSpace(t[s]))
    ensures TrimStart(t[s..k], IsSpace) == t[s..k]
  {
    assert s < k ==> t[s..k][0] == t[s];
    TrimStartStop(t[s..k]);
  }

  /** Trailing whitespace `t[e..k]` after a character that is not whitespace
      (or after the start `s`) is dropped. */
  lemma {:induction false} TrimEndTo(t: string, s: int, e: int, k: int)
    requires 0 <= s <= e && Blank(t, e, k) && (s < e ==> !IsSpace(t[e - 1]))
    ensures TrimEnd(t[s..k], IsSpace) == t[s..e]
    decreases k - e
  {
    if e < k {
      TrimEndDrop(t, s, k);
      TrimEndTo(t, s, e, k - 1);
    } else {
      TrimEndKeep(t, s, e);
    }
  }

  lemma TrimEndDrop(t: string, s: int, k: int)
    requires 0 <= s < k <= |t| && IsSpace(t[k - 1])
    ensures TrimEnd(t[s..k], IsSpace) == TrimEnd(t[s..k - 1], IsSpace)
  {
    assert t[s..k][k - 1 - s] == t[k - 1] && t[s..k][..k - 1 - s] == t[s..k - 1];
    TrimEndStep(t[s..k]);
  }

  lemma TrimEndKeep(t: string, s: int, e: int)
    requires 0 <= s <= e <= |t| && (s < e ==> !IsSpace(t[e - 1]))
    ensures TrimEnd(t[s..e], IsSpace) == t[s..e]
  {
    assert s < e ==> t[s..e][e - 1 - s] == t[e - 1];
    TrimEndStop(t[s..e]);
  }

  /** The block is the group, which stripping leaves as it is. */
  lemma BlockIsGroup(t: string, open: string, close: string)
    requires Marker(close) && Found(t, open, close).Some?
    ensures var (i, s, e, k) := Found(t, open, close).value;
            Block(t, open, close) == Some(t[s..e]) && Strip(t[s..e]) == t[s..e]
  {
    var f := Found(t, open, close).value;
    BlockGroupAt(t, open, close, f.0, f.1, f.2, f.3);
  }

  lemma BlockGroupAt(t: string, open: string, close: string, i: nat, s: nat, e: nat, k: nat)
    requires Marker(close) && FoundIs(t, open, close, i, s, e, k)
    ensures Block(t, open, close) == Some(t[s..e]) && Strip(t[s..e]) == t[s..e]
  {
    FoundEnds(t, open, close, i, s, e, k);
    StrippedSlice(t, s, e);
  }

  /** The group found neither starts nor ends with whitespace. */
  lemma FoundEnds(t: string, open: string, close: string, i: nat, s: nat, e: nat, k: nat)
    requires Marker(close) && FoundIs(t, open, close, i, s, e, k)
    ensures s <= e <= |t| && (e > s ==> !IsSpace(t[s]) && !IsSpace(t[e - 1]))
  {
    assert t[k] == close[0];
    assert !IsSpace(t[s]);
  }

  /** The regex finds nothing exactly when there is no match anywhere. */
  lemma BlockNoneIff(t: string, open: string, close: string)
    requires Marker(close)
    ensures Block(t, open, close).None? <==>
              forall i, s, e, k :: !MatchAt(t, open, close, i, s, e, k)
  {
    match FindFrom(t, open, 0)
    case None =>
    case Some(p) =>
      match FindFrom(t, close, p + |open|)
      case None =>
        forall i, s, e, k ensures !MatchAt(t, open, close, i, s, e, k) {
          if OccursAt(t, open, i) && i + |open| <= s <= e <= k {
            assert p + |open| <= k;
          }
        }
      case Some(_) =>
        FoundIsMatch(t, open, close);
  }

  /** When the regex matches, the block is its group as Python picks it: the
      leftmost start, the longest leading `\s*`, then the shortest `.*?`; and
      that group needs no stripping. */
  lemma BlockIsRegexGroup(t: string, open: string, close: string)
    requires Marker(close) && Block(t, open, close).Some?
    ensures exists i, s, e, k :: PythonMatch(t, open, close, i, s, e, k)
              && Block(t, open, close).value == t[s..e] == Strip(t[s..e])
  {
    var (i, s, e, k) := Found(t, open, close).value;
    FoundIsMatch(t, open, close);
    FoundLeftmost(t, open, close);
    FoundGreedy(t, open, close);
    FoundLazy(t, open, close);
    BlockIsGroup(t, open, close);
    assert PythonMatch(t, open, close, i, s, e, k);
  }

  /** The match `re.search` reports: the leftmost start, then the longest
      leading `\s*`, then the shortest `.*?`. */
  ghost predicate PythonMatch(t: string, open: string, close: string, i: int, s: int, e: int, k: int) {
    && MatchAt(t, open, close, i, s, e, k)
    && (forall i', s', e', k' :: i' < i ==> !MatchAt(t, open, close, i', s', e', k'))
    && (forall s', e', k' :: s < s' ==> !MatchAt(t, open, close, i, s', e', k'))
    && (forall e', k' :: e' < e ==> !MatchAt(t, open, close, i, s, e', k'))
  }

  /** The pattern matches somewhere in `t`. */
  ghost predicate HasMatch(t: string, open: string, close: string) {
    exists i, s, e, k :: MatchAt(t, open, close, i, s, e, k)
  }

  // ---- The article read out of the answer ----

  /** The Markdown: the block between the Markdown markers, or else the whole
      answer stripped. */
  function ExtractMarkdown(raw: string): (md: string)
    ensures Strip(md) == md
  {
    match Block(raw, MarkdownOpen, MarkdownClose)
    case Some(g) => BlockIsGroup(raw, MarkdownOpen, MarkdownClose); g
    case None => StripIdempotent(raw); Strip(raw)
  }

  /** The Markdown is the group of the match `re.search` reports; without a
      match anywhere, it is the whole answer stripped. */
  lemma ExtractMarkdownFromMatch(raw: string)
    ensures !HasMatch(raw, MarkdownOpen, MarkdownClose) ==> ExtractMarkdown(raw) == Strip(raw)
    ensures HasMatch(raw, MarkdownOpen, MarkdownClose) ==>
              exists i, s, e, k :: PythonMatch(raw, MarkdownOpen, MarkdownClose, i, s, e, k) && ExtractMarkdown(raw) == raw[s..e]
  {
    BlockNoneIff(raw, MarkdownOpen, MarkdownClose);
    if Block(raw, MarkdownOpen, MarkdownClose).Some? {
      BlockIsRegexGroup(raw, MarkdownOpen, MarkdownClose);
    }
  }

  /** The Markdown library, when it can be imported: `markdown.markdown(text,
      extensions=["extra", "toc"])`. */
  datatype MarkdownLib = Available(convert: string -> string) | Missing

  /** The HTML: the block between the HTML markers; or else the Markdown
      converted by the library, or wrapped in one paragraph when the library
      is missing. */
  function ExtractHtml(raw: string, md: string, lib: MarkdownLib): string {
    match Block(raw, HtmlOpen, HtmlClose)
    case Some(h) => h
    case None =>
      match lib
      case Available(convert) => convert(md)
      case Missing => "<p>" + md + "</p>"
  }

  /** The HTML is the group of the match `re.search` reports, already
      stripped; without a match anywhere, it is made from the Markdown alone. */
  lemma ExtractHtmlFromMatch(raw: string, md: string, lib: MarkdownLib)
    ensures !HasMatch(raw, HtmlOpen, HtmlClose) ==>
              ExtractHtml(raw, md, lib) == if lib.Available? then lib.convert(md) else "<p>" + md + "</p>"
    ensures HasMatch(raw, HtmlOpen, HtmlClose) ==>
              exists i, s, e, k :: PythonMatch(raw, HtmlOpen, HtmlClose, i, s, e, k)
                && ExtractHtml(raw, md, lib) == raw[s..e] == Strip(raw[s..e])
  {
    BlockNoneIff(raw, HtmlOpen, HtmlClose);
    if Block(raw, HtmlOpen, HtmlClose).Some? {
      BlockIsRegexGroup(raw, HtmlOpen, HtmlClose);
    }
  }

  /** No occurrence of `p` in `t` starts in `[from, to)`. */
  predicate NoneStarts(t: string, p: string, from: int, to: int) {
    forall j :: from <= j < to ==> !OccursAt(t, p, j)
  }

  /** The first occurrence at or after `from`. */
  lemma FirstOccurrence(t: string, p: string, from: nat, i: nat)
    requires from <= i && OccursAt(t, p, i) && NoneStarts(t, p, from, i)
    ensures FindFrom(t, p, from) == Some(i)
  {
  }

  /** With no whitespace at either end of the text between the markers, the
      group is all of it. */
  lemma FoundWhole(t: string, open: string, close: string, p: nat, k: nat)
    requires Marker(close)
    requires FindFrom(t, open, 0) == Some(p) && FindFrom(t, close, p + |open|) == Some(k)
    requires k > p + |open| ==> !IsSpace(t[p + |open|]) && !IsSpace(t[k - 1])
    ensures FoundIs(t, open, close, p, p + |open|, k, k)
  {
    var a := p + |open|;
    if k > a {
      NoSpaceToSkip(t, a);
      NothingToTrim(t, a, k);
    } else {
      MarkerAt(t, close, k);
      NoSpaceToSkip(t, k);
    }
  }

  lemma MarkerAt(t: string, close: string, k: nat)
    requires |close| > 0 && OccursAt(t, close, k)
    ensures t[k] == close[0]
  {
    assert t[k..k + |close|][0] == t[k];
  }

  lemma NoSpaceToSkip(t: string, i: nat)
    requires i < |t| && !IsSpace(t[i])
    ensures SkipSpace(t, i) == i
  {
  }

  lemma NothingToTrim(t: string, s: nat, k: nat)
    requires s <= k <= |t| && (k > s ==> !IsSpace(t[k - 1]))
    ensures GroupEnd(t, s, k) == k
  {
  }

  /** `x` occurs in `a + x + b` right after `a`. */
  lemma MiddleOccurs(t: string, a: string, x: string, b: string)
    requires t == a + x + b
    ensures OccursAt(t, x, |a|)
  {
    SliceOfMiddle(a, x, b, 0, |x|);
    assert x[0..|x|] == x;
  }

  /** Where the parts of `lead + open + m + close + tail` sit. */
  lemma Framed(t: string, lead: string, open: string, m: string, close: string, tail: string)
    requires t == lead + open + (m + close + tail)
    ensures OccursAt(t, open, |lead|)
    ensures OccursAt(t, m, |lead| + |open|)
    ensures OccursAt(t, close, |lead| + |open| + |m|)
  {
    MiddleOccurs(t, lead, open, m + close + tail);
    Regroup3(lead + open, m, close, tail);
    assert t == lead + open + m + close + tail;
    MiddleOccurs(t, lead + open, m, close + tail);
    MiddleOccurs(t, lead + open + m, close, tail);
  }

  /** A block at `p`, with no opening marker before it and no closing marker
      starting inside it, is found. */
  lemma BlockAt(t: string, open: string, close: string, p: nat, m: string)
    requires Marker(close) && Strip(m) == m
    requires OccursAt(t, open, p) && NoneStarts(t, open, 0, p)
    requires OccursAt(t, m, p + |open|)
    requires OccursAt(t, close, p + |open| + |m|) && NoneStarts(t, close, p + |open|, p + |open| + |m|)
    ensures Block(t, open, close) == Some(m)
  {
    StrippedEnds(t, m, p + |open|);
    FoundBetween(t, open, close, p, p + |open| + |m|);
    BlockOfFound(t, open, close, p, p + |open|, p + |open| + |m|, m);
  }

  /** The first opening marker at `p`, the next closing marker at `k` and no
      whitespace at either end of the text between them: the match is exactly that. */
  lemma FoundBetween(t: string, open: string, close: string, p: nat, k: nat)
    requires Marker(close) && p + |open| <= k
    requires OccursAt(t, open, p) && NoneStarts(t, open, 0, p)
    requires OccursAt(t, close, k) && NoneStarts(t, close, p + |open|, k)
    requires k > p + |open| ==> !IsSpace(t[p + |open|]) && !IsSpace(t[k - 1])
    ensures FoundIs(t, open, close, p, p + |open|, k, k)
  {
    FirstOccurrence(t, open, 0, p);
    FirstOccurrence(t, close, p + |open|, k);
    FoundWhole(t, open, close, p, k);
  }

  /** Text equal to its own `strip()` found at `a` has no whitespace at either end. */
  lemma StrippedEnds(t: string, m: string, a: nat)
    requires Strip(m) == m && OccursAt(t, m, a)
    ensures a + |m| > a ==> !IsSpace(t[a]) && !IsSpace(t[a + |m| - 1])
  {
    if |m| > 0 {
      assert t[a..a + |m|][0] == t[a];
      assert t[a..a + |m|][|m| - 1] == t[a + |m| - 1];
    }
  }

  /** The block of a match whose group, running from `s` to `e`, is already stripped. */
  lemma BlockOfFound(t: string, open: string, close: string, i: nat, s: nat, e: nat, m: string)
    requires Marker(close) && FoundIs(t, open, close, i, s, e, e)
    requires OccursAt(t, m, s) && s + |m| == e && Strip(m) == m
    ensures Block(t, open, close) == Some(m)
  {
    var f := Found(t, open, close).value;
    assert f.1 == s && f.2 == e;
    assert t[s..e] == m;
  }

  /** A block framed by its markers, with no opening marker before it and no
      closing marker starting inside it, is found. */
  lemma BlockAround(t: string, lead: string, open: string, m: string, close: string, tail: string)
    requires t == lead + open + (m + close + tail)
    requires Marker(close) && Strip(m) == m
    requires NoneStarts(t, open, 0, |lead|)
    requires NoneStarts(t, close, |lead| + |open|, |lead| + |open| + |m|)
    ensures Block(t, open, close) == Some(m)
  {
    Framed(t, lead, open, m, close, tail);
    BlockAt(t, open, close, |lead|, m);
  }

  /** Two framed blocks, one after the other, are both found. */
  lemma TwoBlocks(raw: string, lead: string, o1: string, m1: string, c1: string, mid: string,
                  o2: string, m2: string, c2: string, tail: string)
    requires raw == lead + o1 + m1 + c1 + mid + o2 + m2 + c2 + tail
    requires Marker(c1) && Marker(c2) && Strip(m1) == m1 && Strip(m2) == m2
    requires NoneStarts(raw, o1, 0, |lead|)
    requires NoneStarts(raw, c1, |lead| + |o1|, |lead| + |o1| + |m1|)
    requires var h := |lead| + |o1| + |m1| + |c1| + |mid|;
             NoneStarts(raw, o2, 0, h) && NoneStarts(raw, c2, h + |o2|, h + |o2| + |m2|)
    ensures Block(raw, o1, c1) == Some(m1) && Block(raw, o2, c2) == Some(m2)
  {
    var rest := mid + o2 + m2 + c2 + tail;
    var lo := lead + o1;
    Regroup(lo + m1 + c1, mid, o2, m2, c2, tail);
    Regroup(lo, m1, c1, [], [], rest);
    assert raw == lo + m1 + c1 + rest;
    assert raw == lead + o1 + (m1 + c1 + rest);
    BlockAround(raw, lead, o1, m1, c1, rest);
    var head := lead + o1 + m1 + c1 + mid;
    Regroup3(head + o2, m2, c2, tail);
    assert raw == head + o2 + (m2 + c2 + tail);
    BlockAround(raw, head, o2, m2, c2, tail);
  }

  lemma Regroup3(a: string, b: string, c: string, d: string)
    ensures a + b + c + d == a + (b + c + d)
  {
  }

  lemma Regroup(a: string, b: string, c: string, d: string, e: string, f: string)
    ensures a + b + c + d + e + f == a + (b + c + d + e + f)
  {
  }

  /** An answer laid out as the prompt asks gives back both blocks, whatever
      text surrounds them. */
  lemma MarkedAnswer(raw: string, lead: string, md: string, mid: string, html: string, tail: string, lib: MarkdownLib)
    requires raw == lead + MarkdownOpen + md + MarkdownClose + mid + HtmlOpen + html + HtmlClose + tail
    requires Strip(md) == md && Strip(html) == html
    requires NoneStarts(raw, MarkdownOpen, 0, |lead|)
    requires NoneStarts(raw, MarkdownClose, |lead| + |MarkdownOpen|, |lead| + |MarkdownOpen| + |md|)
    requires var h := |lead| + |MarkdownOpen| + |md| + |MarkdownClose| + |mid|;
             NoneStarts(raw, HtmlOpen, 0, h) && NoneStarts(raw, HtmlClose, h + |HtmlOpen|, h + |HtmlOpen| + |html|)
    ensures ExtractMarkdown(raw) == md && ExtractHtml(raw, md, lib) == html
  {
    TwoBlocks(raw, lead, MarkdownOpen, md, MarkdownClose, mid, HtmlOpen, html, HtmlClose, tail);
  }

  // ---- The slug and the keyword count ----

  /** The characters `re.sub(r"[^a-z0-9-]", "", ...)` keeps. */
  predicate SlugChar(c: char) { 'a' <= c <= 'z' || '0' <= c <= '9' || c == '-' }

  predicate IsBlank(c: char) { c == ' ' }

  /** `re.sub(r"[^a-z0-9-]", "", keyword.lower().replace(" ", "-"))`: every
      other character is deleted, accented letters included. */
  function ArticleSlug(keyword: string): (slug: string)
    ensures forall c :: c in slug ==> SlugChar(c)
  {
    Filter(ReplaceChar(Lower(keyword), ' ', '-'), SlugChar)
  }

  /** What one character becomes. */
  function SlugOfChar(c: char): (r: string)
    ensures |r| <= 1
  {
    if c == ' ' then "-"
    else if SlugChar(LowerChar(c)) then [LowerChar(c)]
    else []
  }

  /** The slug is made character by character: it is the concatenation of
      what each character of the keyword becomes. */
  lemma {:induction false} ArticleSlugByChar(keyword: string)
    ensures ArticleSlug(keyword) == Flatten(seq(|keyword|, i requires 0 <= i < |keyword| => SlugOfChar(keyword[i])))
    decreases |keyword|
  {
    if |keyword| > 0 {
      var n := |keyword| - 1;
      var init := keyword[..n];
      ArticleSlugByChar(init);
      MappedSnoc(keyword);
      FilterAppend(ReplaceChar(Lower(init), ' ', '-'), [MappedChar(keyword[n])], SlugChar);
      MappedCharFiltered(keyword[n]);
      PartsSnoc(keyword);
    }
  }

  /** What `lower()` then `replace(" ", "-")` make of one character. */
  function MappedChar(c: char): char {
    if LowerChar(c) == ' ' then '-' else LowerChar(c)
  }

  lemma MappedSnoc(keyword: string)
    requires |keyword| > 0
    ensures var n := |keyword| - 1;
            ReplaceChar(Lower(keyword), ' ', '-') == ReplaceChar(Lower(keyword[..n]), ' ', '-') + [MappedChar(keyword[n])]
  {
  }

  lemma MappedCharFiltered(c: char)
    ensures Filter([MappedChar(c)], SlugChar) == SlugOfChar(c)
  {
    assert [MappedChar(c)][1..] == [];
  }

  lemma PartsSnoc(keyword: string)
    requires |keyword| > 0
    ensures var n := |keyword| - 1;
            var parts := seq(|keyword|, i requires 0 <= i < |keyword| => SlugOfChar(keyword[i]));
            Flatten(parts) == Flatten(seq(n, i requires 0 <= i < n => SlugOfChar(keyword[..n][i]))) + SlugOfChar(keyword[n])
  {
    var n := |keyword| - 1;
    var parts := seq(|keyword|, i requires 0 <= i < |keyword| => SlugOfChar(keyword[i]));
    assert parts[..n] == seq(n, i requires 0 <= i < n => SlugOfChar(keyword[..n][i]));
  }

  /** Letters outside ASCII (`é`, `ç`, `ß`, ...) leave nothing in the slug,
      where the utilities' slug spells `é` as `e`. */
  lemma AccentsDropped(c: char)
    requires '\U{80}' <= c <= '\U{FF}'
    ensures SlugOfChar(c) == []
  {
  }

  /** `Été-2024` gives `t-2024` here, where the utilities' slug gives
      `ete-2024`. */
  lemma ArticleSlugExample(keyword: string)
    requires keyword == "\U{C9}t\U{E9}-2024"
    ensures ArticleSlug(keyword) == "t-2024"
  {
    var lowered := "\U{E9}t\U{E9}-2024";
    LoweredExample(keyword, lowered);
    FilteredExample(lowered);
  }

  lemma LoweredExample(keyword: string, lowered: string)
    requires keyword == "\U{C9}t\U{E9}-2024" && lowered == "\U{E9}t\U{E9}-2024"
    ensures ReplaceChar(Lower(keyword), ' ', '-') == lowered
  {
    assert Lower(keyword) == lowered;
  }

  lemma FilteredExample(lowered: string)
    requires lowered == "\U{E9}t\U{E9}-2024"
    ensures Filter(lowered, SlugChar) == "t-2024"
  {
    var accented, tail := ['\U{E9}', 't', '\U{E9}'], "-2024";
    assert lowered == accented + tail;
    FilteredParts(accented, tail);
  }

  lemma FilteredParts(accented: string, tail: string)
    requires accented == ['\U{E9}', 't', '\U{E9}'] && tail == "-2024"
    ensures Filter(accented + tail, SlugChar) == "t-2024"
  {
    FilterAppend(accented, tail, SlugChar);
    AccentedFiltered(accented);
    TailKept(tail);
    Joined(Filter(accented, SlugChar), Filter(tail, SlugChar), "t-2024");
  }

  lemma AccentedFiltered(accented: string)
    requires accented == ['\U{E9}', 't', '\U{E9}']
    ensures Filter(accented, SlugChar) == "t"
  {
    var rest := accented[1..];
    assert rest == ['t', '\U{E9}'];
    assert Filter(accented, SlugChar) == Filter(rest, SlugChar);
    assert rest[1..] == ['\U{E9}'];
    assert Filter(rest[1..], SlugChar) == [];
  }

  lemma TailKept(tail: string)
    requires tail == "-2024"
    ensures Filter(tail, SlugChar) == tail
  {
    FilterAll(tail, SlugChar);
  }

  lemma Joined(a: string, b: string, ab: string)
    requires a == "t" && b == "-2024" && ab == "t-2024"
    ensures a + b == ab
  {
  }

  /** A slug is its own slug. */
  lemma ArticleSlugIdempotent(keyword: string)
    ensures ArticleSlug(ArticleSlug(keyword)) == ArticleSlug(keyword)
  {
    var slug := ArticleSlug(keyword);
    assert Lower(slug) == slug;
    assert ReplaceChar(slug, ' ', '-') == slug;
    FilterAll(slug, SlugChar);
  }

  const DefaultTotal := 2000

  /** Python's `round(n / d)`: to the nearest integer, halves to the even one. */
  function RoundHalfEven(n: int, d: int): (r: int)
    requires d > 0
    ensures -d <= 2 * (r * d - n) <= d
    ensures 2 * (r * d - n) == d || 2 * (r * d - n) == -d ==> r % 2 == 0
  {
    var q := n / d;
    var rem := n % d;
    assert n == q * d + rem;
    assert (q + 1) * d == q * d + d;
    if 2 * rem < d then q
    else if 2 * rem > d then q + 1
    else if q % 2 == 0 then q
    else q + 1
  }

  /** Rounding a two-hundredth gives the only integer within one half of it,
      a tie going to the even neighbour. */
  lemma RoundUnique(n: int, r: int)
    requires -200 <= 2 * (r * 200 - n) <= 200
    requires 2 * (r * 200 - n) == 200 || 2 * (r * 200 - n) == -200 ==> r % 2 == 0
    ensures r == RoundHalfEven(n, 200)
  {
  }

  /** The words the article is asked for: `total_calculated`, or 2000. */
  function TotalWords(b: Budget): int { b.total.GetOr(DefaultTotal) }

  /** `keyword_count = max(4, round(total_words * 0.015))`, with 0.015 taken
      as exactly 3/200: at least four, four exactly up to 300 words, else the
      nearest integer to 1.5% of the words, a tie going to the even one. */
  function KeywordCount(b: Budget): (count: int)
    ensures count >= 4
    ensures count == 4 <==> TotalWords(b) <= 300
    ensures count > 4 ==> -200 <= 2 * (count * 200 - 3 * TotalWords(b)) <= 200
    ensures count > 4 && (count * 200 - 3 * TotalWords(b) == 100 || count * 200 - 3 * TotalWords(b) == -100)
            ==> count % 2 == 0
  {
    Max(4, RoundHalfEven(3 * TotalWords(b), 200))
  }

  /** Without a total the prompt asks for 30 occurrences. */
  lemma DefaultKeywordCount(b: Budget)
    requires b.total.None?
    ensures KeywordCount(b) == 30
  {
  }

  /** At 500 words, 1.5% is 7.5, and the tie goes to 8. */
  lemma KeywordCountTie(b: Budget)
    requires TotalWords(b) == 500
    ensures KeywordCount(b) == 8
  {
    RoundUnique(1500, 8);
  }

  /** More words never ask for fewer occurrences. */
  lemma KeywordCountMonotone(b1: Budget, b2: Budget)
    requires TotalWords(b1) <= TotalWords(b2)
    ensures KeywordCount(b1) <= KeywordCount(b2)
  {
    var r1 := RoundHalfEven(3 * TotalWords(b1), 200);
    var r2 := RoundHalfEven(3 * TotalWords(b2), 200);
  }

  // ---- The internal links block ----

  const NoLinks := "Aucun lien interne identifi\U{E9} pour cet article."
  const LinksHeader := "LIENS INTERNES \U{C0} PLACER (r\U{E8}gle : un lien par paragraphe, jamais group\U{E9}s) :"

  /** One link's entry (three lines); a missing target section shows as `?`. */
  function LinkEntry(lk: InternalLink): string {
    "  \U{2022} Ancre : \"" + lk.anchorText + "\" \U{2192} " + lk.url + "\n"
    + "    Section cible : " + lk.targetSection.GetOr("?") + "\n"
    + "    Comment int\U{E9}grer : " + lk.hint
  }

  function LinkEntries(links: seq<InternalLink>): (entries: seq<string>)
    ensures |entries| == |links|
  {
    seq(|links|, i requires 0 <= i < |links| => LinkEntry(links[i]))
  }

  /** `_build_internal_links_block(internal_links)`. */
  function LinksBlock(links: seq<InternalLink>): (block: string)
    ensures |links| == 0 ==> block == NoLinks
  {
    if |links| == 0 then NoLinks
    else Join("\n", [LinksHeader] + LinkEntries(links))
  }

  /** The block is built one link at a time: the header and the first entry,
      then each further link's entry on the next line, in input order. */
  lemma LinksBlockSnoc(links: seq<InternalLink>, lk: InternalLink)
    ensures LinksBlock(links + [lk]) ==
              (if |links| == 0 then LinksHeader else LinksBlock(links)) + "\n" + LinkEntry(lk)
  {
    assert LinkEntries(links + [lk]) == LinkEntries(links) + [LinkEntry(lk)];
    HeaderedSnoc(LinksHeader, LinkEntries(links), LinkEntry(lk));
  }

  /** A headed list of lines grows by one line per entry. */
  lemma HeaderedSnoc(header: string, entries: seq<string>, e: string)
    ensures Join("\n", [header] + (entries + [e])) == Join("\n", [header] + entries) + "\n" + e
  {
    assert [header] + (entries + [e]) == ([header] + entries) + [e];
    JoinSnoc("\n", [header] + entries, e);
  }

  /** Two links differing only in their target section give entries that
      differ only where the section is shown; no target reads as `?`. */
  lemma MissingTargetShownAsUnknown(lk: InternalLink)
    requires lk.targetSection.None?
    ensures LinkEntry(lk) == LinkEntry(lk.(targetSection := Some("?")))
  {
  }

  // ---- The sections block ----

  /** The lines of the sections block, before they are written out. */
  datatype PromptLine =
    | H2Title(title: string)
    | LsiList(terms: seq<string>)
    | PointsHeading
    | Point(text: string)
    | MediaNote(text: string)
    | H3Title(title: string)

  function Render(l: PromptLine): string {
    match l
    case H2Title(t) => "\n[H2] " + t
    case LsiList(ts) => "  LSI \U{E0} utiliser : " + Join(", ", ts)
    case PointsHeading => "  Points \U{E0} couvrir :"
    case Point(t) => "    - " + t
    case MediaNote(t) => "  \U{1F4F8} M\U{E9}dia \U{E0} ins\U{E9}rer : " + t
    case H3Title(t) => "\n  [H3] " + t
  }

  function Points(pts: seq<string>): (r: seq<PromptLine>)
    ensures |r| == |pts| && forall i :: 0 <= i < |pts| ==> r[i] == Point(pts[i])
  {
    seq(|pts|, i requires 0 <= i < |pts| => Point(pts[i]))
  }

  /** `if s.get("media_suggestion")`: present and not empty. */
  predicate Truthy(m: Option<string>) { m.Some? && |m.value| > 0 }

  function SubsectionLines(ss: Subsection): (lines: seq<PromptLine>)
    ensures |lines| == 1 + |ss.keyPoints|
  {
    [H3Title(ss.h3.GetOr(""))] + Points(ss.keyPoints)
  }

  function SubsectionParts(s: Section): (parts: seq<seq<PromptLine>>)
    ensures |parts| == |s.subsections|
  {
    seq(|s.subsections|, j requires 0 <= j < |s.subsections| => SubsectionLines(s.subsections[j]))
  }

  /** The lines up to the subsections: title, LSI terms, points, media. */
  function SectionHead(s: Section): (lines: seq<PromptLine>)
    ensures |lines| == 3 + |s.keyPoints| + (if Truthy(s.media) then 1 else 0)
  {
    [H2Title(s.h2.GetOr("")), LsiList(s.lsi), PointsHeading] + Points(s.keyPoints)
    + (if Truthy(s.media) then [MediaNote(s.media.value)] else [])
  }

  function SectionLines(s: Section): seq<PromptLine> {
    SectionHead(s) + Flatten(SubsectionParts(s))
  }

  function SectionParts(b: Brief): (parts: seq<seq<PromptLine>>)
    ensures |parts| == |b.sections|
  {
    seq(|b.sections|, i requires 0 <= i < |b.sections| => SectionLines(b.sections[i]))
  }

  /** `_build_sections_block(brief)`. */
  function SectionsBlock(b: Brief): string {
    var lines := Flatten(SectionParts(b));
    Join("\n", seq(|lines|, i requires 0 <= i < |lines| => Render(lines[i])))
  }

  /** A section's lines open with its title, its LSI terms and its points; the
      media note follows exactly when the suggestion is truthy. */
  lemma SectionHeadShape(s: Section)
    ensures var lines := SectionLines(s);
            var n := |s.keyPoints|;
            && |lines| >= 3 + n
            && lines[0] == H2Title(s.h2.GetOr(""))
            && lines[1] == LsiList(s.lsi)
            && lines[2] == PointsHeading
            && (forall j :: 0 <= j < n ==> lines[3 + j] == Point(s.keyPoints[j]))
            && (Truthy(s.media) <==> 3 + n < |lines| && lines[3 + n].MediaNote?)
            && (Truthy(s.media) ==> lines[3 + n] == MediaNote(s.media.value))
  {
    var head := SectionHead(s);
    var n := |s.keyPoints|;
    HeadShape(s);
    HeadFirst(s);
    if 3 + n < |SectionLines(s)| && !Truthy(s.media) {
      SubsectionsStartWithTitle(s);
    }
  }

  /** The section's lines start with its head. */
  lemma HeadFirst(s: Section)
    ensures forall j :: 0 <= j < |SectionHead(s)| ==> SectionLines(s)[j] == SectionHead(s)[j]
  {
  }

  lemma HeadShape(s: Section)
    ensures var head := SectionHead(s);
            var n := |s.keyPoints|;
            && head[0] == H2Title(s.h2.GetOr(""))
            && head[1] == LsiList(s.lsi)
            && head[2] == PointsHeading
            && (forall j :: 0 <= j < n ==> head[3 + j] == Point(s.keyPoints[j]))
            && (Truthy(s.media) ==> head[3 + n] == MediaNote(s.media.value))
  {
    var pre := [H2Title(s.h2.GetOr("")), LsiList(s.lsi), PointsHeading];
    var pts := Points(s.keyPoints);
    var media: seq<PromptLine> := if Truthy(s.media) then [MediaNote(s.media.value)] else [];
    var head := SectionHead(s);
    assert head == pre + pts + media;
    forall j | 0 <= j < |pts| ensures head[3 + j] == pts[j] {
      assert (pre + pts + media)[3 + j] == (pre + pts)[3 + j];
    }
  }

  /** The subsections' lines start with the first subsection's title. */
  lemma SubsectionsStartWithTitle(s: Section)
    requires |SectionHead(s)| < |SectionLines(s)|
    ensures SectionLines(s)[|SectionHead(s)|] == H3Title(s.subsections[0].h3.GetOr(""))
  {
    var parts := SubsectionParts(s);
    assert |parts| > 0;
    FlattenAt(parts, 0);
    assert parts[..0] == [];
  }

  /** No line after the first is a section title: each H3 and point belongs
      to the H2 above it. */
  lemma OneTitlePerSection(s: Section)
    ensures forall j :: 0 < j < |SectionLines(s)| ==> !SectionLines(s)[j].H2Title?
  {
    var head := SectionHead(s);
    var parts := SubsectionParts(s);
    FlattenAll(parts, NotTitle);
    assert forall j :: |head| <= j < |SectionLines(s)| ==> SectionLines(s)[j] == Flatten(parts)[j - |head|];
  }

  predicate NotTitle(l: PromptLine) { !l.H2Title? }

  /** Subsection `j`'s title and points come in its place among the
      subsections, after the head of the section. */
  lemma SubsectionLinesAt(s: Section, j: nat)
    requires j < |s.subsections|
    ensures var at := |SectionHead(s)| + |Flatten(SubsectionParts(s)[..j])|;
            var ss := s.subsections[j];
            && at + 1 + |ss.keyPoints| <= |SectionLines(s)|
            && SectionLines(s)[at] == H3Title(ss.h3.GetOr(""))
            && SectionLines(s)[at + 1..at + 1 + |ss.keyPoints|] == Points(ss.keyPoints)
  {
    var parts := SubsectionParts(s);
    var at := |SectionHead(s)| + |Flatten(parts[..j])|;
    var ss := s.subsections[j];
    var part := SubsectionLines(ss);
    assert parts[j] == part;
    FramedPart(SectionLines(s), SectionHead(s), parts, [], j, at, part);
    PieceOf(SectionLines(s), at, part, 1 + |ss.keyPoints|);
    assert part[1..] == Points(ss.keyPoints);
  }

  /** A piece found at `at` of a text gives its first element and its rest. */
  lemma PieceOf<T>(all: seq<T>, at: nat, part: seq<T>, n: nat)
    requires |part| == n > 0 && at + n <= |all| && all[at..at + n] == part
    ensures all[at] == part[0] && all[at + 1..at + n] == part[1..]
  {
    assert all[at] == all[at..at + n][0];
  }

  /** Section `i`'s lines come in order, in one piece, in the block's lines. */
  lemma SectionLinesInBlock(b: Brief, i: nat)
    requires i < |b.sections|
    ensures var parts := SectionParts(b);
            var at := |Flatten(parts[..i])|;
            at + |SectionLines(b.sections[i])| <= |Flatten(parts)|
            && Flatten(parts)[at..at + |SectionLines(b.sections[i])|] == SectionLines(b.sections[i])
  {
    FlattenAt(SectionParts(b), i);
  }

  // ---- The FAQ block ----

  const FaqHeader := "\n[FAQ \U{2014} utiliser le balisage Schema.org FAQPage]"

  function FaqEntry(item: FaqItem): string {
    "  Q: " + item.question + "\n     R\U{E9}ponse doit couvrir : " + item.answerHint
  }

  /** `_build_faq_block(brief)`: nothing without questions; otherwise the header
      and, per question, its line and its answer hint's line. */
  function FaqBlock(faq: seq<FaqItem>): (block: string)
    ensures |faq| == 0 <==> block == ""
  {
    if |faq| == 0 then ""
    else Join("\n", [FaqHeader] + FaqEntries(faq))
  }

  function FaqEntries(faq: seq<FaqItem>): (entries: seq<string>)
    ensures |entries| == |faq|
  {
    seq(|faq|, i requires 0 <= i < |faq| => FaqEntry(faq[i]))
  }

  /** The FAQ block grows by one question (and its hint) per item, in order. */
  lemma FaqBlockSnoc(faq: seq<FaqItem>, item: FaqItem)
    ensures FaqBlock(faq + [item]) ==
              (if |faq| == 0 then FaqHeader else FaqBlock(faq)) + "\n" + FaqEntry(item)
  {
    assert FaqEntries(faq + [item]) == FaqEntries(faq) + [FaqEntry(item)];
    HeaderedSnoc(FaqHeader, FaqEntries(faq), FaqEntry(item));
    if |faq| == 0 {
      assert [FaqHeader] + FaqEntries(faq) == [FaqHeader];
    }
  }

  // ---- write_article ----

  /** What `build_user_prompt` derives from its inputs and shows the writer:
      the keyword, the slug, the keyword count and the four blocks. */
  datatype Prompt = Prompt(
    keyword: string,
    slug: string,
    keywordCount: int,
    sections: string,
    faq: string,
    links: string,
    budget: string)

  /** The prompt's derived values; the budget block is rendered with sections
      looked up under their fallback ids. */
  function UserPrompt(keyword: string, brief: Brief, budget: Budget, links: seq<InternalLink>): (p: Prompt)
    ensures p.keyword == keyword && p.keywordCount >= 4
    ensures forall c :: c in p.slug ==> SlugChar(c)
    ensures |links| == 0 ==> p.links == NoLinks
    ensures p.faq == "" <==> |brief.faq| == 0
  {
    Prompt(keyword, ArticleSlug(keyword), KeywordCount(budget), SectionsBlock(brief),
           FaqBlock(brief.faq), LinksBlock(links), BudgetToReadableById(budget, brief))
  }

  /** The result of `write_article` (its timestamp left out). */
  datatype Article = Article(
    markdown: string,
    html: string,
    raw: string,
    keyword: string,
    slug: string,
    brief: Brief,
    budget: Budget,
    links: seq<InternalLink>)

  /** `write_article(keyword_data, brief, word_budget, internal_links, ...)`:
      `keyword` is `keyword_data.get("keyword", "")`, `ask` the writer model
      answering the prompt, `lib` the Markdown library if installed. An
      exception from the model escapes; otherwise the article is read out of
      the answer and the inputs are passed through. */
  function WriteArticle(keyword: string, brief: Brief, budget: Budget, links: seq<InternalLink>,
                        ask: Prompt -> Reply, lib: MarkdownLib): (r: Result<Article>)
    ensures var reply := ask(UserPrompt(keyword, brief, budget, links));
            && (reply.Failure? ==> r == Err(Propagated(reply.message)))
            && (reply.Response? ==> r.Ok? && r.value.raw == reply.text)
    ensures r.Ok? ==> && r.value.keyword == keyword && r.value.brief == brief
                      && r.value.budget == budget && r.value.links == links
                      && forall c :: c in r.value.slug ==> SlugChar(c)
    ensures r.Ok? ==> && r.value.markdown == ExtractMarkdown(r.value.raw)
                      && r.value.html == ExtractHtml(r.value.raw, r.value.markdown, lib)
                      && r.value.slug == ArticleSlug(keyword)
  {
    match ask(UserPrompt(keyword, brief, budget, links))
    case Failure(m) => Err(Propagated(m))
    case Response(raw) =>
      var md := ExtractMarkdown(raw);
      Ok(Article(md, ExtractHtml(raw, md, lib), raw, keyword, ArticleSlug(keyword), brief, budget, links))
  }

  /** The slug the prompt announces is the slug the article is returned with. */
  lemma PromptSlugIsArticleSlug(keyword: string, brief: Brief, budget: Budget, links: seq<InternalLink>,
                                ask: Prompt -> Reply, lib: MarkdownLib)
    requires WriteArticle(keyword, brief, budget, links, ask, lib).Ok?
    ensures WriteArticle(keyword, brief, budget, links, ask, lib).value.slug == UserPrompt(keyword, brief, budget, links).slug
  {
  }

  /** An answer without markers is the article: its Markdown is the stripped
      answer, and the HTML comes from the Markdown. */
  lemma UnmarkedAnswer(keyword: string, brief: Brief, budget: Budget, links: seq<InternalLink>,
                       ask: Prompt -> Reply, lib: MarkdownLib)
    requires var reply := ask(UserPrompt(keyword, brief, budget, links));
             reply.Response? && NoneStarts(reply.text, MarkdownOpen, 0, |reply.text|)
             && NoneStarts(reply.text, HtmlOpen, 0, |reply.text|)
    ensures var raw := ask(UserPrompt(keyword, brief, budget, links)).text;
            var a := WriteArticle(keyword, brief, budget, links, ask, lib).value;
            && a.markdown == Strip(raw)
            && a.html == (if lib.Available? then lib.convert(Strip(raw)) else "<p>" + Strip(raw) + "</p>")
  {
    var raw := ask(UserPrompt(keyword, brief, budget, links)).text;
    NoMarkerNoBlock(raw, MarkdownOpen, MarkdownClose);
    NoMarkerNoBlock(raw, HtmlOpen, HtmlClose);
  }

  lemma NoMarkerNoBlock(t: string, open: string, close: string)
    requires Marker(close) && |open| > 0 && NoneStarts(t, open, 0, |t|)
    ensures Block(t, open, close).None?
  {
    assert FindFrom(t, open, 0).None?;
  }
}

=== FILE: serp.dfy ===
/** Competitor-data acquisition (modules/serp_analyzer.py): scraping Google,
    falling back to DuckDuckGo and then to a language-model analysis, and the
    text summary of the scraped results handed to the brief.

    HTTP, HTML parsing and the model are inputs: a search page is given as its
    status, its text and the candidate entries each CSS selector finds; a
    page's cleaned text is an oracle; the model is one reply. */
module Serp {
  import opened Common
  import opened Text
  import JsonExtract

  /** Phrases of a page that refuses automated queries. */
  const BlockPhrases: seq<string> := [
    "captcha", "unusual traffic", "avant d'acc\U{E9}der",
    "trafic inhabituel", "verify you are human", "not a robot"
  ]

  /** `_is_blocked(html)`. */
  predicate IsBlocked(html: string) {
    ContainsAny(Lower(html), BlockPhrases)
  }

  /** Lower-casing twice is lower-casing once. */
  lemma LowerIdempotent(s: string)
    ensures Lower(Lower(s)) == Lower(s)
  {
  }

  /** Blocking does not depend on case. */
  lemma IsBlockedIgnoresCase(html: string)
    ensures IsBlocked(Lower(html)) <==> IsBlocked(html)
  {
    LowerIdempotent(html);
  }

  /** A page that contains a blocked page's text is blocked too. */
  lemma IsBlockedInExtension(a: string, html: string, b: string)
    requires IsBlocked(html)
    ensures IsBlocked(a + html + b)
  {
    var k :| 0 <= k < |BlockPhrases| && Contains(Lower(html), BlockPhrases[k]);
    assert Lower(a + html + b) == Lower(a) + Lower(html) + Lower(b);
    ContainsInExtension(Lower(a), Lower(html), Lower(b), BlockPhrases[k]);
  }

  /** The domains whose results are never competitors. */
  const SkipDomains: set<string> := {
    "google.com", "google.fr", "youtube.com", "facebook.com",
    "twitter.com", "x.com", "instagram.com", "linkedin.com",
    "amazon.com", "amazon.fr", "wikipedia.org", "reddit.com",
    "pinterest.com", "duckduckgo.com", "bing.com"
  }

  /** The domain is one of the skipped ones. */
  predicate Skipped(d: string) { d in SkipDomains }

  predicate IsSchemeChar(c: char) {
    ('a' <= c <= 'z') || ('A' <= c <= 'Z') || ('0' <= c <= '9') || c == '+' || c == '-' || c == '.'
  }

  predicate IsNetLocEnd(c: char) { c == '/' || c == '?' || c == '#' }

  /** Index of the first character of `s` ending a network location, or `|s|`. */
  function NetLocEnd(s: string, i: nat): (j: nat)
    requires i <= |s|
    ensures i <= j <= |s| && (j < |s| ==> IsNetLocEnd(s[j]))
    ensures forall k :: i <= k < j ==> !IsNetLocEnd(s[k])
    decreases |s| - i
  {
    if i == |s| || IsNetLocEnd(s[i]) then i else NetLocEnd(s, i + 1)
  }

  /** The characters `urlsplit` deletes wherever they occur in a URL. */
  predicate IsUnsafeUrlChar(c: char) { c == '\t' || c == '\r' || c == '\n' }

  predicate IsSafeUrlChar(c: char) { !IsUnsafeUrlChar(c) }

  /** The C0 control characters and the space, which `urlsplit` strips from
      the start of a URL. */
  predicate IsC0OrSpace(c: char) { c <= ' ' }

  /** `s` with every tab, carriage return and line feed deleted. */
  function SafeChars(s: string): string
    decreases |s|
  {
    if |s| == 0 then []
    else if IsUnsafeUrlChar(s[0]) then SafeChars(s[1..])
    else [s[0]] + SafeChars(s[1..])
  }

  /** `s.lstrip(...)` of the C0 controls and the space. */
  function DropC0(s: string): string
    decreases |s|
  {
    if |s| > 0 && IsC0OrSpace(s[0]) then DropC0(s[1..]) else s
  }

  /** The text `urlsplit` reads: leading C0 controls and spaces stripped, then
      every tab, carriage return and line feed deleted. */
  function Cleaned(url: string): string {
    SafeChars(DropC0(url))
  }

  /** Deleting the unsafe characters is filtering on the safe ones. */
  lemma {:induction false} SafeCharsIsFilter(s: string)
    ensures SafeChars(s) == Filter(s, IsSafeUrlChar)
    decreases |s|
  {
    if |s| > 0 { SafeCharsIsFilter(s[1..]); }
  }

  lemma {:induction false} SafeCharsAppend(a: string, b: string)
    ensures SafeChars(a + b) == SafeChars(a) + SafeChars(b)
    decreases |a|
  {
    if |a| == 0 {
      assert a + b == b;
    } else {
      assert (a + b)[1..] == a[1..] + b;
      SafeCharsAppend(a[1..], b);
    }
  }

  lemma {:induction false} SafeCharsKeep(s: string)
    requires forall k :: 0 <= k < |s| ==> IsSafeUrlChar(s[k])
    ensures SafeChars(s) == s
    decreases |s|
  {
    if |s| > 0 { SafeCharsKeep(s[1..]); }
  }

  lemma {:induction false} SafeCharsFrom(s: string)
    ensures forall c :: c in SafeChars(s) ==> c in s
    decreases |s|
  {
    if |s| > 0 { SafeCharsFrom(s[1..]); }
  }

  /** Stripping the leading C0 controls and spaces is `TrimStart` on them. */
  lemma {:induction false} DropC0IsTrimStart(s: string)
    ensures DropC0(s) == TrimStart(s, IsC0OrSpace)
    decreases |s|
  {
    if |s| > 0 && IsC0OrSpace(s[0]) { DropC0IsTrimStart(s[1..]); }
  }

  /** The network location `urlsplit` reads off cleaned text: after a scheme
      (a letter followed by scheme characters, up to the first `:`), the text
      after `//` up to the first `/`, `?` or `#`; empty when there is no `//`. */
  function RawNetLoc(url: string): (r: string)
    ensures '/' !in r
  {
    match IndexOf(url, ':')
    case Some(i) =>
      if i > 0 && (('a' <= url[0] <= 'z') || ('A' <= url[0] <= 'Z'))
         && (forall k :: 0 <= k < i ==> IsSchemeChar(url[k]))
      then AfterSlashes(url[i + 1..])
      else AfterSlashes(url)
    case None => AfterSlashes(url)
  }

  function AfterSlashes(rest: string): (r: string)
    ensures '/' !in r
  {
    if StartsWith(rest, "//") then
      var j := NetLocEnd(rest, 2);
      assert forall k :: 0 <= k < j - 2 ==> rest[2..j][k] == rest[k + 2];
      rest[2..j]
    else ""
  }

  /** `urlparse(url).netloc`, read from the cleaned URL; a `ValueError` when the
      network location holds one square bracket without the other. */
  function NetLoc(url: string): (r: Result<string>)
    ensures r.Ok? ==> '/' !in r.value
  {
    var n := RawNetLoc(Cleaned(url));
    if ('[' in n) != (']' in n) then Err(ValueError("Invalid IPv6 URL")) else Ok(n)
  }

  /** `_domain(url)`: the network location with every `www.` removed; `""`
      when `urlparse` raises. */
  function Domain(url: string): string {
    match NetLoc(url)
    case Ok(n) => DropWww(n)
    case Err(_) => ""
  }

  /** A character of a plain host name: nothing that ends a network location,
      no port separator and no square bracket. */
  predicate IsHostChar(c: char) {
    !IsNetLocEnd(c) && c != ':' && c != '[' && c != ']'
  }

  /** `url` is `scheme://host/path`: a lower-case scheme, a plain host name and
      a path starting with `/`. */
  predicate UrlOfParts(url: string, scheme: string, host: string, path: string) {
    && url == scheme + "://" + host + path && |scheme| > 0
    && (forall k :: 0 <= k < |scheme| ==> 'a' <= scheme[k] <= 'z')
    && (forall k :: 0 <= k < |host| ==> IsHostChar(host[k]))
    && |path| > 0 && path[0] == '/'
  }

  /** `www.` starts `s`. */
  predicate WwwAt(s: string) {
    |s| >= 4 && s[0] == 'w' && s[1] == 'w' && s[2] == 'w' && s[3] == '.'
  }

  /** `s.replace("www.", "")`, reading the four characters one by one. */
  function DropWww(s: string): string
    decreases |s|
  {
    if |s| == 0 then s
    else if WwwAt(s) then DropWww(s[4..])
    else [s[0]] + DropWww(s[1..])
  }

  /** Removing `www.` is the general `str.replace` with an empty replacement. */
  lemma {:induction false} DropWwwIsReplace(s: string)
    ensures DropWww(s) == ReplaceAll(s, "www.", "")
    decreases |s|
  {
    if |s| > 0 {
      assert WwwAt(s) <==> StartsWith(s, "www.") by {
        if |s| >= 4 { assert s[..4] == "www." <==> WwwAt(s); }
      }
      if WwwAt(s) { DropWwwIsReplace(s[4..]); } else { DropWwwIsReplace(s[1..]); }
    }
  }

  /** `_valid_url(href)`. */
  predicate ValidUrl(href: string) {
    StartsWith(href, "http") && !Skipped(Domain(href))
  }

  /** One scraped competitor. */
  datatype SerpResult = SerpResult(url: string, title: string, snippet: string, content: string)

  /** A candidate entry a Google selector found: the link's `href` (`None` when
      there is no link), the `<h3>` text (`None` when there is no `<h3>`), and the
      snippet text. */
  datatype Entry = Entry(link: Option<string>, heading: Option<string>, snippet: string)

  /** The longest snippet kept, and the longest page excerpt kept per competitor. */
  const SnippetCap: nat := 400
  const ContentCap: nat := 3500

  predicate Usable(e: Entry) {
    e.link.Some? && e.heading.Some? && ValidUrl(e.link.value)
  }

  function ToResult(e: Entry, keepSnippet: bool): SerpResult
    requires Usable(e)
  {
    SerpResult(e.link.value, e.heading.value, if keepSnippet then Take(e.snippet, SnippetCap) else "", "")
  }

  /** The results of one selector tier: the usable entries in document order; the
      first tier keeps a snippet, the others leave it empty. */
  function Tier(entries: seq<Entry>, keepSnippet: bool): (r: seq<SerpResult>)
    ensures |r| <= |entries|
    ensures forall k :: 0 <= k < |r| ==>
              ValidUrl(r[k].url) && |r[k].snippet| <= SnippetCap && r[k].content == ""
              && (!keepSnippet ==> r[k].snippet == "")
  {
    if |entries| == 0 then []
    else if Usable(entries[0]) then [ToResult(entries[0], keepSnippet)] + Tier(entries[1..], keepSnippet)
    else Tier(entries[1..], keepSnippet)
  }

  /** A tier's results come from its usable entries, each once, in order. */
  lemma {:induction false} TierMembers(entries: seq<Entry>, keepSnippet: bool, r: SerpResult)
    ensures r in Tier(entries, keepSnippet) <==>
              exists k :: 0 <= k < |entries| && Usable(entries[k]) && r == ToResult(entries[k], keepSnippet)
    decreases |entries|
  {
    if |entries| > 0 {
      TierMembers(entries[1..], keepSnippet, r);
      if exists k :: 0 <= k < |entries| && Usable(entries[k]) && r == ToResult(entries[k], keepSnippet) {
        var k :| 0 <= k < |entries| && Usable(entries[k]) && r == ToResult(entries[k], keepSnippet);
        if k > 0 { assert entries[1..][k - 1] == entries[k]; }
      }
      if r in Tier(entries[1..], keepSnippet) {
        var k :| 0 <= k < |entries[1..]| && Usable(entries[1..][k]) && r == ToResult(entries[1..][k], keepSnippet);
        assert entries[k + 1] == entries[1..][k];
      }
    }
  }

  /** Appending an entry appends its result exactly when it is usable: the
      tier keeps document order and gives one result per usable entry. */
  lemma {:induction false} TierSnoc(entries: seq<Entry>, e: Entry, keepSnippet: bool)
    ensures Tier(entries + [e], keepSnippet) ==
              Tier(entries, keepSnippet) + (if Usable(e) then [ToResult(e, keepSnippet)] else [])
    decreases |entries|
  {
    if |entries| == 0 {
      assert entries + [e] == [e];
    } else {
      assert (entries + [e])[1..] == entries[1..] + [e];
      TierSnoc(entries[1..], e, keepSnippet);
    }
  }

  /** `_parse_google`: the first non-empty tier among the classic layout
      (with snippets), the `data-hveid` layout and any `<h3>` inside a link. */
  function ParseGoogle(a: seq<Entry>, b: seq<Entry>, c: seq<Entry>): (r: seq<SerpResult>)
    ensures forall k :: 0 <= k < |r| ==> ValidUrl(r[k].url) && |r[k].snippet| <= SnippetCap && r[k].content == ""
    ensures r == [] <==> Tier(a, true) == [] && Tier(b, false) == [] && Tier(c, false) == []
  {
    var ra := Tier(a, true);
    if |ra| > 0 then ra
    else
      var rb := Tier(b, false);
      if |rb| > 0 then rb else Tier(c, false)
  }

  /** A usable entry of the classic layout wins over every later tier. */
  lemma ParseGoogleFirstTier(a: seq<Entry>, b: seq<Entry>, c: seq<Entry>, k: int)
    requires 0 <= k < |a| && Usable(a[k])
    ensures ParseGoogle(a, b, c) == Tier(a, true)
  {
    TierMembers(a, true, ToResult(a[k], true));
  }

  /** With no usable entry in the classic layout, a usable `data-hveid` entry
      makes the second tier the result, whatever the last tier holds. */
  lemma ParseGoogleSecondTier(a: seq<Entry>, b: seq<Entry>, c: seq<Entry>, k: int)
    requires forall j :: 0 <= j < |a| ==> !Usable(a[j])
    requires 0 <= k < |b| && Usable(b[k])
    ensures ParseGoogle(a, b, c) == Tier(b, false)
  {
    if Tier(a, true) != [] {
      TierMembers(a, true, Tier(a, true)[0]);
    }
    TierMembers(b, false, ToResult(b[k], false));
  }

  /** Only when no entry of the first two tiers is usable does the last tier count. */
  lemma ParseGoogleLastTier(a: seq<Entry>, b: seq<Entry>, c: seq<Entry>)
    requires forall k :: 0 <= k < |a| ==> !Usable(a[k])
    requires forall k :: 0 <= k < |b| ==> !Usable(b[k])
    ensures ParseGoogle(a, b, c) == Tier(c, false)
  {
    if Tier(a, true) != [] {
      TierMembers(a, true, Tier(a, true)[0]);
    }
    if Tier(b, false) != [] {
      TierMembers(b, false, Tier(b, false)[0]);
    }
  }

  /** The cleaned text of a page, `""` when it cannot be fetched; a stand-in for
      `scrape_page_text` before its truncation. */
  type PageText = string -> string

  /** Each result with the first 3500 characters of its page as content. */
  function WithContent(rs: seq<SerpResult>, pageText: PageText): (r: seq<SerpResult>)
    ensures |r| == |rs|
    ensures forall k :: 0 <= k < |r| ==>
              r[k] == rs[k].(content := Take(pageText(rs[k].url), ContentCap))
  {
    seq(|rs|, k requires 0 <= k < |rs| => rs[k].(content := Take(pageText(rs[k].url), ContentCap)))
  }

  /** The Google results page: an exception, or the status, the text and the
      entries of the three selector tiers. */
  datatype GooglePage = GoogleFailed | GooglePage(status: int, html: string, a: seq<Entry>, b: seq<Entry>, c: seq<Entry>)

  /** `scrape_google_serp(keyword, num_results)`. */
  function ScrapeGoogle(page: GooglePage, num: int, pageText: PageText): (r: seq<SerpResult>)
    ensures page.GoogleFailed? ==> r == []
    ensures page.GooglePage? && (page.status != 200 || IsBlocked(page.html)) ==> r == []
    ensures num >= 0 ==> |r| <= num
    ensures forall k :: 0 <= k < |r| ==>
              ValidUrl(r[k].url) && |r[k].snippet| <= SnippetCap && |r[k].content| <= ContentCap
  {
    match page
    case GoogleFailed => []
    case GooglePage(status, html, a, b, c) =>
      if status != 200 || IsBlocked(html) then []
      else WithContent(Take(ParseGoogle(a, b, c), num), pageText)
  }

  /** On an answered, unblocked page the results are the first `num` parsed
      ones, in order, each with its page excerpt. */
  lemma ScrapeGooglePrefix(page: GooglePage, num: int, pageText: PageText)
    requires page.GooglePage? && page.status == 200 && !IsBlocked(page.html)
    ensures var parsed := ParseGoogle(page.a, page.b, page.c);
            var r := ScrapeGoogle(page, num, pageText);
            && (num >= 0 ==> |r| == Min(num, |parsed|))
            && forall k :: 0 <= k < |r| ==>
                 r[k].url == parsed[k].url && r[k].title == parsed[k].title && r[k].snippet == parsed[k].snippet
  {
  }

  /** A DuckDuckGo result block: the `result__a` link (`None` when absent) with
      its `href` (`""` when it has none) and text, and the snippet text. */
  datatype DdgEntry = DdgEntry(link: Option<string>, title: string, snippet: string)

  datatype DdgPage = DdgFailed | DdgPage(status: int, entries: seq<DdgEntry>)

  predicate DdgUsable(e: DdgEntry) { e.link.Some? && ValidUrl(e.link.value) }

  function DdgResult(e: DdgEntry): SerpResult
    requires DdgUsable(e)
  {
    SerpResult(e.link.value, e.title, Take(e.snippet, SnippetCap), "")
  }

  /** Every usable DuckDuckGo block, with no stopping: the reference for the
      collecting loop. */
  function AllDdg(entries: seq<DdgEntry>): (r: seq<SerpResult>)
    ensures forall k :: 0 <= k < |r| ==> ValidUrl(r[k].url) && |r[k].snippet| <= SnippetCap
  {
    if |entries| == 0 then []
    else if DdgUsable(entries[0]) then [DdgResult(entries[0])] + AllDdg(entries[1..])
    else AllDdg(entries[1..])
  }

  /** What `_scrape_duckduckgo` returns: the first `num` usable blocks (none when
      `num <= 0`), each with its page excerpt. */
  function DuckDuckGo(page: DdgPage, num: int, pageText: PageText): (r: seq<SerpResult>)
    ensures page.DdgFailed? || page.status != 200 ==> r == []
    ensures |r| <= Max(num, 0)
    ensures forall k :: 0 <= k < |r| ==>
              ValidUrl(r[k].url) && |r[k].snippet| <= SnippetCap && |r[k].content| <= ContentCap
  {
    match page
    case DdgFailed => []
    case DdgPage(status, entries) =>
      if status != 200 then []
      else WithContent(Take(AllDdg(entries), Max(num, 0)), pageText)
  }

  /** `_scrape_duckduckgo(keyword, num_results)`, with its loop that stops
      once `num_results` results are collected, followed by the slice
      `results[:num_results]`: the early stop never changes the answer. */
  method ScrapeDuckDuckGo(page: DdgPage, num: int, pageText: PageText) returns (r: seq<SerpResult>)
    ensures r == DuckDuckGo(page, num, pageText)
  {
    if page.DdgFailed? || page.status != 200 {
      return [];
    }
    var entries := page.entries;
    var results: seq<SerpResult> := [];
    var i := 0;
    while i < |entries|
      invariant 0 <= i <= |entries|
      invariant results + AllDdg(entries[i..]) == AllDdg(entries)
      invariant num >= 1 ==> |results| < num
      invariant num < 1 ==> results == []
    {
      var e := entries[i];
      AllDdgStep(entries, i);
      if DdgUsable(e) {
        DdgCollect(results, entries, i);
        results := results + [DdgResult(e)];
        if |results| >= num {
          TakeOfPrefix(results, AllDdg(entries[i + 1..]), num);
          return WithContent(Take(results, num), pageText);
        }
      }
      i := i + 1;
    }
    assert entries[|entries|..] == [];
    r := WithContent(Take(results, num), pageText);
  }

  lemma AllDdgStep(entries: seq<DdgEntry>, i: int)
    requires 0 <= i < |entries|
    ensures AllDdg(entries[i..]) == (if DdgUsable(entries[i]) then [DdgResult(entries[i])] else []) + AllDdg(entries[i + 1..])
  {
    assert entries[i..][1..] == entries[i + 1..];
  }

  /** Collecting a usable block moves it from the pending list to the results. */
  lemma DdgCollect(results: seq<SerpResult>, entries: seq<DdgEntry>, i: int)
    requires 0 <= i < |entries| && DdgUsable(entries[i])
    requires results + AllDdg(entries[i..]) == AllDdg(entries)
    ensures (results + [DdgResult(entries[i])]) + AllDdg(entries[i + 1..]) == AllDdg(entries)
  {
  }

  /** Cutting the collected prefix at `num` is cutting the whole list there. */
  lemma TakeOfPrefix(results: seq<SerpResult>, rest: seq<SerpResult>, num: int)
    requires |results| >= num && |results| >= 1 && (num >= 1 ==> |results| == num)
    requires num < 1 ==> |results| == 1
    ensures Take(results, num) == Take(results + rest, Max(num, 0))
  {
  }

  /** The model's analysis as decoded from its JSON (missing keys read as `""`
      and `[]`). */
  datatype Competitor = Competitor(title: string, domain: string, angles: seq<string>,
                                   structure: seq<string>, weaknesses: seq<string>)
  datatype Analysis = Analysis(competitors: seq<Competitor>, gaps: seq<string>)

  const AnalysisHeader: string :=
    "[\U{26A1} Analyse g\U{E9}n\U{E9}r\U{E9}e par Gemini IA \U{2014} scraping web bloqu\U{E9}]\n"
  const NoJsonPrefix: string := "Analyse Gemini indisponible. R\U{E9}ponse : "
  const FailedPrefix: string := "Analyse Gemini \U{E9}chou\U{E9}e : "

  function CompetitorLines(i: nat, c: Competitor): seq<string> {
    ["### Concurrent " + NatToString(i) + " (IA): " + c.title, "Domaine : " + c.domain]
    + (if |c.angles| > 0 then ["Angles : " + Join(", ", c.angles)] else [])
    + (if |c.structure| > 0 then ["Structure : " + Join(" \U{2192} ", c.structure)] else [])
    + (if |c.weaknesses| > 0 then ["Lacunes \U{E0} exploiter : " + Join(", ", c.weaknesses)] else [])
    + [""]
  }

  function CompetitorsLines(cs: seq<Competitor>, from: nat): seq<string>
    decreases |cs|
  {
    if |cs| == 0 then [] else CompetitorLines(from, cs[0]) + CompetitorsLines(cs[1..], from + 1)
  }

  function GapLines(gaps: seq<string>): seq<string> {
    if |gaps| == 0 then []
    else ["### Opportunit\U{E9}s globales :"] + seq(|gaps|, k requires 0 <= k < |gaps| => "  - " + gaps[k])
  }

  /** The lines of the analysis text: the header, each competitor's block
      numbered from 1, then the global gaps. */
  function AnalysisLines(a: Analysis): (ls: seq<string>)
    ensures |ls| >= 1 && ls[0] == AnalysisHeader
  {
    [AnalysisHeader] + CompetitorsLines(a.competitors, 1) + GapLines(a.gaps)
  }

  /** One competitor's block: its numbered title and its domain, then a line for
      each of the angles, the structure and the weaknesses exactly when that
      list is non-empty, in that order, and a blank line last. */
  lemma CompetitorLinesShape(i: nat, c: Competitor)
    ensures var ls := CompetitorLines(i, c);
            && |ls| == 3 + (if |c.angles| > 0 then 1 else 0) + (if |c.structure| > 0 then 1 else 0)
                         + (if |c.weaknesses| > 0 then 1 else 0)
            && ls[0] == "### Concurrent " + NatToString(i) + " (IA): " + c.title
            && ls[1] == "Domaine : " + c.domain
            && ls[|ls| - 1] == ""
            && (|c.angles| > 0 ==> ls[2] == "Angles : " + Join(", ", c.angles))
            && (|c.weaknesses| > 0 ==> ls[|ls| - 2] == "Lacunes \U{E0} exploiter : " + Join(", ", c.weaknesses))
            && (|c.structure| > 0 ==>
                  ls[|ls| - 2 - (if |c.weaknesses| > 0 then 1 else 0)] == "Structure : " + Join(" \U{2192} ", c.structure))
  {
  }

  /** Each competitor contributes a block of 3 to 6 lines, its header first and
      a blank line last. */
  lemma {:induction false} CompetitorsLinesCount(cs: seq<Competitor>, from: nat)
    ensures 3 * |cs| <= |CompetitorsLines(cs, from)| <= 6 * |cs|
    ensures |cs| > 0 ==> CompetitorsLines(cs, from)[0] == "### Concurrent " + NatToString(from) + " (IA): " + cs[0].title
    decreases |cs|
  {
    if |cs| > 0 {
      CompetitorsLinesCount(cs[1..], from + 1);
    }
  }

  /** `_gemini_competitor_analysis(keyword, num_results, model)`: it never
      raises; a model error or an undecodable answer gives the failure text, an
      answer without JSON gives its first 200 characters. */
  function CompetitorAnalysis(reply: Reply, decode: string -> Decoded<Analysis>): (r: string)
    ensures reply.Failure? ==> r == FailedPrefix + reply.message
    ensures reply.Response? && JsonExtract.ExtractJson(Strip(reply.text)).None? ==>
              r == NoJsonPrefix + Take(Strip(reply.text), 200)
    ensures reply.Response? && JsonExtract.ExtractJson(Strip(reply.text)).Some? ==>
              match decode(JsonExtract.ExtractJson(Strip(reply.text)).value)
              case Malformed(m) => r == FailedPrefix + m
              case Decoded(a) => StartsWith(r, AnalysisHeader)
  {
    match reply
    case Failure(m) => FailedPrefix + m
    case Response(text) =>
      var raw := Strip(text);
      match JsonExtract.ExtractJson(raw)
      case None => NoJsonPrefix + Take(raw, 200)
      case Some(js) =>
        match decode(js)
        case Malformed(m) => FailedPrefix + m
        case Decoded(a) =>
          var ls := AnalysisLines(a);
          assert ls == [ls[0]] + ls[1..];
          JoinStartsWithFirst("\n", ls);
          Join("\n", ls)
  }

  lemma JoinStartsWithFirst(sep: string, parts: seq<string>)
    requires |parts| > 0
    ensures StartsWith(Join(sep, parts), parts[0])
  {
  }

  const NoDataMessage: string := "Aucune donn\U{E9}e concurrente disponible (scraping bloqu\U{E9})."

  /** `get_competitor_data(keyword, num_results, model)`: the results and where
      they came from. */
  function GetCompetitorData(google: GooglePage, ddg: DdgPage, model: Option<Reply>,
                             decode: string -> Decoded<Analysis>, num: int, pageText: PageText)
    : (r: (seq<SerpResult>, string))
  {
    var g := ScrapeGoogle(google, num, pageText);
    if |g| > 0 then (g, "google")
    else
      var d := DuckDuckGo(ddg, num, pageText);
      if |d| > 0 then (d, "duckduckgo")
      else match model
        case Some(reply) => ([], CompetitorAnalysis(reply, decode))
        case None => ([], NoDataMessage)
  }

  /** The cascade and its provenance tags: results come with `"google"` or
      `"duckduckgo"` exactly when some scraper found any, Google first; otherwise
      the text is the model's analysis or the fixed message. */
  lemma GetCompetitorDataProvenance(google: GooglePage, ddg: DdgPage, model: Option<Reply>,
                                    decode: string -> Decoded<Analysis>, num: int, pageText: PageText)
    ensures var (rs, source) := GetCompetitorData(google, ddg, model, decode, num, pageText);
            var g := ScrapeGoogle(google, num, pageText);
            var d := DuckDuckGo(ddg, num, pageText);
            && (source == "google" <==> g != [])
            && (source == "google" ==> rs == g)
            && (source == "duckduckgo" <==> g == [] && d != [])
            && (source == "duckduckgo" ==> rs == d)
            && (rs == [] <==> source != "google" && source != "duckduckgo")
            && (rs == [] && model.None? ==> source == NoDataMessage)
            && (rs == [] && model.Some? ==> source == CompetitorAnalysis(model.value, decode))
  {
    var g := ScrapeGoogle(google, num, pageText);
    var d := DuckDuckGo(ddg, num, pageText);
    if g == [] && d == [] {
      match model {
        case Some(reply) => AnalysisIsNotATag(reply, decode);
        case None =>
          assert |NoDataMessage| > 10;
      }
    }
  }

  /** No analysis text can be mistaken for a provenance tag: each is longer
      than either tag. */
  lemma AnalysisIsNotATag(reply: Reply, decode: string -> Decoded<Analysis>)
    ensures |CompetitorAnalysis(reply, decode)| > 10
  {
    assert |FailedPrefix| > 10 && |NoJsonPrefix| > 10 && |AnalysisHeader| > 10;
  }

  lemma OpensWith(s: string, p: string)
    requires |p| > 0 && StartsWith(s, p)
    ensures |s| > 0 && s[0] == p[0]
  {
    assert s[..|p|][0] == s[0];
  }

  const EmptySummary: string := "Aucune donn\U{E9}e concurrente disponible."
  const ExcerptCap: nat := 1200

  /** The heading lines of the `i`-th competitor block. */
  function BlockHead(i: nat, r: SerpResult): string {
    "### Concurrent " + NatToString(i) + ": " + r.title + "\nURL : " + r.url + "\n"
  }

  /** The line quoting a result's snippet. */
  function SnippetLine(snippet: string): string {
    "Extrait SERP : " + snippet + "\n"
  }

  /** The lines quoting the first 1200 characters of a page. */
  function ExcerptLines(content: string): string {
    "Contenu page (extrait) :\n" + Take(content, ExcerptCap) + "\n"
  }

  /** One competitor's block: the heading, the snippet line when there is a
      snippet, and the first 1200 characters of the page when there is content.
      The block's length leaves room for exactly the lines that are present, so
      the snippet line follows the heading exactly when the snippet is non-empty
      and the excerpt closes the block exactly when the content is non-empty. */
  function SummaryBlock(i: nat, r: SerpResult): (b: string)
    ensures StartsWith(b, BlockHead(i, r)) && EndsWith(b, "\n")
    ensures r.snippet != "" ==> StartsWith(b, BlockHead(i, r) + SnippetLine(r.snippet))
    ensures r.content != "" ==> EndsWith(b, ExcerptLines(r.content))
    ensures |b| == |BlockHead(i, r)| + (if r.snippet == "" then 0 else |SnippetLine(r.snippet)|)
                   + (if r.content == "" then 0 else |ExcerptLines(r.content)|)
    ensures |b| <= |BlockHead(i, r)| + (if r.snippet == "" then 0 else 16 + |r.snippet|)
                   + (if r.content == "" then 0 else 26 + ExcerptCap)
    ensures r.snippet == "" && r.content == "" ==> b == BlockHead(i, r)
  {
    var head := BlockHead(i, r);
    var snip := if r.snippet != "" then SnippetLine(r.snippet) else "";
    var body := if r.content != "" then ExcerptLines(r.content) else "";
    assert (head + snip + body)[..|head|] == head;
    assert (head + snip + body)[..|head + snip|] == head + snip;
    assert (head + snip + body)[|head + snip|..] == body;
    head + snip + body
  }

  /** A block is determined by its heading and which of the two optional parts
      are present: without a snippet no snippet line appears, and without
      content no excerpt appears. */
  lemma SummaryBlockParts(i: nat, r: SerpResult)
    ensures r.snippet == "" && r.content != "" ==> SummaryBlock(i, r) == BlockHead(i, r) + ExcerptLines(r.content)
    ensures r.snippet != "" && r.content == "" ==> SummaryBlock(i, r) == BlockHead(i, r) + SnippetLine(r.snippet)
    ensures r.snippet != "" && r.content != "" ==>
              SummaryBlock(i, r) == BlockHead(i, r) + SnippetLine(r.snippet) + ExcerptLines(r.content)
  {
  }

  function SummaryBlocks(rs: seq<SerpResult>): (bs: seq<string>)
    ensures |bs| == |rs|
    ensures forall k :: 0 <= k < |rs| ==> bs[k] == SummaryBlock(k + 1, rs[k])
  {
    seq(|rs|, k requires 0 <= k < |rs| => SummaryBlock(k + 1, rs[k]))
  }

  /** `build_competitor_summary(results)`. */
  function CompetitorSummary(rs: seq<SerpResult>): (s: string)
    ensures rs == [] <==> s == EmptySummary
  {
    if |rs| == 0 then EmptySummary
    else
      var s := Join("\n\n", SummaryBlocks(rs));
      JoinStartsWithFirst("\n\n", SummaryBlocks(rs));
      OpensWith(SummaryBlocks(rs)[0], BlockHead(1, rs[0]));
      OpensWith(s, SummaryBlocks(rs)[0]);
      assert s[0] == '#' && EmptySummary[0] == 'A';
      s
  }

  /** One result gives its block, numbered 1. */
  lemma SummaryOfOne(r: SerpResult)
    ensures CompetitorSummary([r]) == SummaryBlock(1, r)
  {
  }

  /** Appending a result appends a blank line and its block, numbered next. */
  lemma SummarySnoc(rs: seq<SerpResult>, r: SerpResult)
    requires rs != []
    ensures CompetitorSummary(rs + [r]) == CompetitorSummary(rs) + "\n\n" + SummaryBlock(|rs| + 1, r)
  {
    assert SummaryBlocks(rs + [r]) == SummaryBlocks(rs) + [SummaryBlock(|rs| + 1, r)];
    JoinSnoc("\n\n", SummaryBlocks(rs), SummaryBlock(|rs| + 1, r));
  }

  /** The pipeline's competitor step: with a positive number of results asked
      for, the summary of what Google gave; otherwise no analysis at all. The
      DuckDuckGo and model fallbacks are not used on this path. */
  function PipelineCompetitorSummary(google: GooglePage, num: int, pageText: PageText): (s: string)
    ensures num <= 0 ==> s == ""
    ensures num > 0 && ScrapeGoogle(google, num, pageText) == [] ==> s == EmptySummary
  {
    if num > 0 then CompetitorSummary(ScrapeGoogle(google, num, pageText)) else ""
  }

  /** When Google answers, the pipeline's summary opens with the first result. */
  lemma PipelineSummaryOpensWithFirst(google: GooglePage, num: int, pageText: PageText)
    requires num > 0 && ScrapeGoogle(google, num, pageText) != []
    ensures StartsWith(PipelineCompetitorSummary(google, num, pageText),
                       BlockHead(1, ScrapeGoogle(google, num, pageText)[0]))
  {
    var rs := ScrapeGoogle(google, num, pageText);
    var bs := SummaryBlocks(rs);
    JoinStartsWithFirst("\n\n", bs);
    StartsWithTrans(Join("\n\n", bs), bs[0], BlockHead(1, rs[0]));
  }

  lemma StartsWithTrans(s: string, t: string, p: string)
    requires StartsWith(s, t) && StartsWith(t, p)
    ensures StartsWith(s, p)
  {
    assert s[..|p|] == t[..|p|];
  }

  /** Every skipped domain is at most 14 characters long. */
  lemma SkipDomainsShort()
    ensures forall d :: d in SkipDomains ==> |d| <= 14
  {
  }

  /** For a link `scheme://host/path` with an `http` scheme, validity is
      exactly the host, with its tabs and line breaks deleted and then every
      `www.` removed, not being a skipped domain. */
  lemma ValidUrlOfHost(url: string, scheme: string, host: string, path: string)
    requires UrlOfParts(url, scheme, host, path) && StartsWith(scheme, "http")
    ensures ValidUrl(url) <==> !Skipped(DropWww(SafeChars(host)))
  {
    HttpPrefix(url, scheme, host, path);
    ValidUrlByNetLoc(url, SafeChars(host));
  }

  lemma HttpPrefix(url: string, scheme: string, host: string, path: string)
    requires UrlOfParts(url, scheme, host, path) && StartsWith(scheme, "http")
    ensures StartsWith(url, "http") && NetLoc(url) == Ok(SafeChars(host))
  {
    StartsWithExtended(scheme, "://" + host + path, "http");
    DomainExample(url, scheme, host, path);
  }

  lemma ValidUrlByNetLoc(url: string, host: string)
    ensures NetLoc(url) == Ok(host) && StartsWith(url, "http") ==>
              (ValidUrl(url) <==> !Skipped(DropWww(host)))
  {
  }

  lemma StartsWithExtended(a: string, b: string, p: string)
    requires StartsWith(a, p)
    ensures StartsWith(a + b, p)
  {
    assert (a + b)[..|p|] == a[..|p|];
  }

  /** Subdomains of a skipped domain are competitors. */
  lemma SubdomainIsValid(url: string)
    requires url == "https://fr.linkedin.com/in/chat"
    ensures ValidUrl(url)
  {
    var host := "fr.linkedin.com";
    ExampleUrl(url, host);
    ValidUrlOfHost(url, "https", host, "/in/chat");
    LettersKept(host);
    SubdomainNotSkipped(host);
  }

  lemma SubdomainNotSkipped(host: string)
    requires host == "fr.linkedin.com"
    ensures !Skipped(DropWww(host))
  {
    ReplaceWithoutW(host);
    LongHostNotSkipped(host);
  }

  /** The example links are `https://host/in/chat` for a host of lower-case
      letters and dots, which cleaning leaves alone. */
  lemma ExampleUrl(url: string, host: string)
    requires url == "https://" + host + "/in/chat"
    requires forall k :: 0 <= k < |host| ==> 'a' <= host[k] <= 'z' || host[k] == '.'
    ensures UrlOfParts(url, "https", host, "/in/chat") && StartsWith("https", "http")
  {
    assert url == "https" + "://" + host + "/in/chat";
  }

  /** Cleaning leaves a host of lower-case letters and dots alone. */
  lemma LettersKept(host: string)
    requires forall k :: 0 <= k < |host| ==> 'a' <= host[k] <= 'z' || host[k] == '.'
    ensures SafeChars(host) == host
  {
    SafeCharsKeep(host);
  }

  lemma LongHostNotSkipped(host: string)
    requires |host| > 14
    ensures !Skipped(host)
  {
    SkipDomainsShort();
  }

  /** `www.` is no way around the list. */
  lemma WwwIsSkipped(url: string)
    requires url == "https://www.linkedin.com/in/chat"
    ensures !ValidUrl(url)
  {
    var host := "www.linkedin.com";
    ExampleUrl(url, host);
    ValidUrlOfHost(url, "https", host, "/in/chat");
    LettersKept(host);
    WwwRemoved();
  }

  lemma WwwRemoved()
    ensures Skipped(DropWww("www.linkedin.com"))
  {
    var host := "www.linkedin.com";
    assert WwwAt(host) && host[4..] == "linkedin.com";
    ReplaceWithoutW("linkedin.com");
  }

  /** A tab inside the host is no way around the list either: `urlsplit`
      deletes it before the host is read. */
  lemma TabbedHostIsSkipped(url: string)
    requires url == "https://www.face\tbook.com/x"
    ensures !ValidUrl(url)
  {
    var host := "www.face\tbook.com";
    TabbedUrlParts(url, host);
    ValidUrlOfHost(url, "https", host, "/x");
    TabbedHost(host);
    FacebookSkipped();
  }

  lemma TabbedUrlParts(url: string, host: string)
    requires url == "https://www.face\tbook.com/x" && host == "www.face\tbook.com"
    ensures UrlOfParts(url, "https", host, "/x") && StartsWith("https", "http")
  {
    assert url == "https" + "://" + host + "/x";
  }

  lemma TabbedHost(host: string)
    requires host == "www.face\tbook.com"
    ensures SafeChars(host) == "www.facebook.com"
  {
    assert host == "www.face" + "\t" + "book.com";
    TabDeleted("www.face", "book.com");
    assert "www.face" + "book.com" == "www.facebook.com";
  }

  /** A tab between two safe pieces is deleted and nothing else is. */
  lemma TabDeleted(a: string, b: string)
    requires forall k :: 0 <= k < |a| ==> IsSafeUrlChar(a[k])
    requires forall k :: 0 <= k < |b| ==> IsSafeUrlChar(b[k])
    ensures SafeChars(a + "\t" + b) == a + b
  {
    var tab := "\t";
    SafeCharsAppend(a, tab);
    SafeCharsKeep(a);
    assert SafeChars(tab) == [] by {
      assert tab[1..] == [];
    }
    assert SafeChars(a + tab) == a by {
      assert a + [] == a;
    }
    SafeCharsAppend(a + tab, b);
    SafeCharsKeep(b);
  }

  lemma FacebookSkipped()
    ensures Skipped(DropWww("www.facebook.com"))
  {
    var host := "www.facebook.com";
    assert WwwAt(host) && host[4..] == "facebook.com";
    ReplaceWithoutW("facebook.com");
  }

  /** Only `http` links count. */
  lemma OnlyHttp(url: string)
    requires url == "ftp://y.fr/"
    ensures !ValidUrl(url)
  {
    assert !StartsWith(url, "http") by { assert url[0] == 'f'; }
  }

  /** The network location of `scheme://host/path` is the host with its tabs
      and line breaks deleted. */
  lemma DomainExample(url: string, scheme: string, host: string, path: string)
    requires UrlOfParts(url, scheme, host, path)
    ensures NetLoc(url) == Ok(SafeChars(host))
  {
    var h := SafeChars(host);
    CleanedOfParts(url, scheme, host, path);
    RawNetLocOfParts(Cleaned(url), scheme, h, SafeChars(path));
    assert '[' !in h && ']' !in h by {
      assert forall k :: 0 <= k < |h| ==> IsHostChar(h[k]);
    }
  }

  /** Cleaning `scheme://host/path` cleans the host and the path and leaves the
      rest. */
  lemma CleanedOfParts(url: string, scheme: string, host: string, path: string)
    requires UrlOfParts(url, scheme, host, path)
    ensures UrlOfParts(Cleaned(url), scheme, SafeChars(host), SafeChars(path))
  {
    assert url[0] == scheme[0];
    assert DropC0(url) == url;
    SafeCharsAppend(scheme + "://" + host, path);
    SafeCharsAppend(scheme + "://", host);
    SafeCharsAppend(scheme, "://");
    SafeCharsKeep(scheme);
    SafeCharsKeep("://");
    assert SafeChars(path) == [path[0]] + SafeChars(path[1..]);
    HostCharsKept(host);
  }

  lemma HostCharsKept(host: string)
    requires forall k :: 0 <= k < |host| ==> IsHostChar(host[k])
    ensures forall k :: 0 <= k < |SafeChars(host)| ==> IsHostChar(SafeChars(host)[k])
  {
    var h := SafeChars(host);
    SafeCharsFrom(host);
    forall k | 0 <= k < |h|
      ensures IsHostChar(h[k])
    {
      assert h[k] in host;
    }
  }

  /** The network location `urlsplit` reads off `scheme://host/path`. */
  lemma RawNetLocOfParts(url: string, scheme: string, host: string, path: string)
    requires UrlOfParts(url, scheme, host, path)
    ensures RawNetLoc(url) == host
  {
    SchemeSplit(url, scheme, "//" + host + path);
    assert url[|scheme| + 1..] == "//" + host + path;
    HostAfterSlashes(host, path);
  }

  lemma SchemeSplit(url: string, scheme: string, rest: string)
    requires url == scheme + ":" + rest && |scheme| > 0
    requires forall k :: 0 <= k < |scheme| ==> 'a' <= scheme[k] <= 'z'
    ensures IndexOf(url, ':') == Some(|scheme|)
    ensures RawNetLoc(url) == AfterSlashes(url[|scheme| + 1..])
  {
    var i := |scheme|;
    assert url[i] == ':' && url[..i] == scheme;
    assert url[i] in url;
    assert forall k :: 0 <= k < i ==> url[k] == scheme[k];
  }

  lemma HostAfterSlashes(host: string, path: string)
    requires forall k :: 0 <= k < |host| ==> !IsNetLocEnd(host[k])
    requires |path| > 0 && path[0] == '/'
    ensures AfterSlashes("//" + host + path) == host
  {
    var rest := "//" + host + path;
    assert StartsWith(rest, "//");
    NetLocEndSkips(rest, 2, 2 + |host|);
    assert rest[2..2 + |host|] == host;
  }

  lemma {:induction false} NetLocEndSkips(s: string, i: nat, j: nat)
    requires i <= j < |s| && IsNetLocEnd(s[j]) && forall k :: i <= k < j ==> !IsNetLocEnd(s[k])
    ensures NetLocEnd(s, i) == j
    decreases j - i
  {
    if i < j { NetLocEndSkips(s, i + 1, j); }
  }

  /** Text without a `w` has no `www.` to remove. */
  lemma {:induction false} ReplaceWithoutW(s: string)
    requires 'w' !in s
    ensures DropWww(s) == s
    decreases |s|
  {
    if |s| > 0 {
      ReplaceWithoutW(s[1..]);
      assert s == [s[0]] + s[1..];
    }
  }
}

=== FILE: sitemap.dfy ===
/** `fetch_sitemap` (modules/utils.py): collect the page URLs of a sitemap,
    following a sitemap index into its first eight child sitemaps, down to a
    maximum depth, de-duplicating each level in first-occurrence order.

    Fetching and XML parsing are an oracle from a URL to what the document
    turned out to be. */
module Sitemap {
  import opened Common
  import opened Text

  /** What fetching and parsing one sitemap URL gives. `Unreadable` covers an
      HTTP or network error and a document that is not XML. The `<loc>` elements
      are listed in document order; a `<loc>` without text is `None`. */
  datatype SitemapDoc =
    | Unreadable
    | Index(locs: seq<Option<string>>)
    | UrlSet(locs: seq<Option<string>>)

  type Fetch = string -> SitemapDoc

  /** How many child sitemaps an index is followed into. */
  const MaxChildren: nat := 8

  /** The texts of the `<loc>` elements, up to the first one without text. */
  function LocValues(locs: seq<Option<string>>): (r: seq<string>)
    ensures |r| <= |locs|
    ensures forall i :: 0 <= i < |r| ==> locs[i] == Some(r[i])
    ensures |r| < |locs| ==> locs[|r|].None?
  {
    if |locs| == 0 || locs[0].None? then []
    else
      var rest := LocValues(locs[1..]);
      assert forall i :: 0 <= i < |rest| ==> locs[1..][i] == locs[i + 1];
      [locs[0].value] + rest
  }

  /** The stripped texts of the `<loc>` elements, up to the first one without
      text (reading `None.strip()` raises, which ends the collection). */
  function LocTexts(locs: seq<Option<string>>): (r: seq<string>)
    ensures |r| <= |locs|
    ensures forall i :: 0 <= i < |r| ==> locs[i].Some? && r[i] == Strip(locs[i].value)
    ensures |r| < |locs| ==> locs[|r|].None?
  {
    var v := LocValues(locs);
    seq(|v|, i requires 0 <= i < |v| => Strip(v[i]))
  }

  /** The recursion measure: how many levels may still be fetched. */
  function Levels(depth: int, maxDepth: int): nat {
    if depth > maxDepth then 0 else maxDepth - depth + 1
  }

  /** `fetch_sitemap(url, depth, max_depth)`. */
  function FetchSitemap(fetch: Fetch, url: string, depth: int, maxDepth: int): (r: seq<string>)
    ensures NoDups(r)
    ensures depth > maxDepth ==> r == []
    decreases Levels(depth, maxDepth), 1, 0
  {
    if depth > maxDepth then []
    else match fetch(url)
      case Unreadable => []
      case UrlSet(locs) => Dedup(LocTexts(locs))
      case Index(locs) => Dedup(Children(fetch, Take(locs, MaxChildren), depth, maxDepth))
  }

  /** The URLs of the child sitemaps of an index at `depth`, concatenated, up to
      the first `<loc>` without text. */
  function Children(fetch: Fetch, locs: seq<Option<string>>, depth: int, maxDepth: int): seq<string>
    requires depth <= maxDepth
    decreases Levels(depth, maxDepth), 0, |locs|
  {
    if |locs| == 0 || locs[0].None? then []
    else FetchSitemap(fetch, Strip(locs[0].value), depth + 1, maxDepth) + Children(fetch, locs[1..], depth, maxDepth)
  }

  /** `fetch_sitemap(url)` with its default depth bound. */
  function FetchSitemapDefault(fetch: Fetch, url: string): seq<string> {
    FetchSitemap(fetch, url, 0, 2)
  }

  /** The URLs requested by `fetch_sitemap`, in order. */
  function Requests(fetch: Fetch, url: string, depth: int, maxDepth: int): seq<string>
    decreases Levels(depth, maxDepth), 1, 0
  {
    if depth > maxDepth then []
    else match fetch(url)
      case Index(locs) => [url] + ChildRequests(fetch, Take(locs, MaxChildren), depth, maxDepth)
      case _ => [url]
  }

  function ChildRequests(fetch: Fetch, locs: seq<Option<string>>, depth: int, maxDepth: int): seq<string>
    requires depth <= maxDepth
    decreases Levels(depth, maxDepth), 0, |locs|
  {
    if |locs| == 0 || locs[0].None? then []
    else Requests(fetch, Strip(locs[0].value), depth + 1, maxDepth) + ChildRequests(fetch, locs[1..], depth, maxDepth)
  }

  /** `1 + 8 + ... + 8^(k-1)`: the nodes of a complete 8-ary tree with `k` levels. */
  function TreeSize(k: nat): nat {
    if k == 0 then 0 else 1 + MaxChildren * TreeSize(k - 1)
  }

  lemma MulMono(a: nat, b: nat, t: nat)
    requires a <= b
    ensures a * t <= b * t
  {
  }

  lemma MulSucc(n: nat, t: nat)
    ensures (n + 1) * t == t + n * t
  {
  }

  /** The depth bound and the eight-children cap together bound the number of
      requests: at most `TreeSize` of the remaining levels (73 with the defaults). */
  lemma {:induction false} RequestsBound(fetch: Fetch, url: string, depth: int, maxDepth: int)
    ensures |Requests(fetch, url, depth, maxDepth)| <= TreeSize(Levels(depth, maxDepth))
    decreases Levels(depth, maxDepth), 1, 0
  {
    if depth <= maxDepth && fetch(url).Index? {
      var kids := Take(fetch(url).locs, MaxChildren);
      var t := TreeSize(Levels(depth + 1, maxDepth));
      assert Levels(depth + 1, maxDepth) == Levels(depth, maxDepth) - 1;
      assert TreeSize(Levels(depth, maxDepth)) == 1 + MaxChildren * t;
      ChildRequestsBound(fetch, kids, depth, maxDepth);
      MulMono(|kids|, MaxChildren, t);
      assert Requests(fetch, url, depth, maxDepth) == [url] + ChildRequests(fetch, kids, depth, maxDepth);
    }
  }

  lemma {:induction false} ChildRequestsBound(fetch: Fetch, locs: seq<Option<string>>, depth: int, maxDepth: int)
    requires depth <= maxDepth
    ensures |ChildRequests(fetch, locs, depth, maxDepth)| <= |locs| * TreeSize(Levels(depth + 1, maxDepth))
    decreases Levels(depth, maxDepth), 0, |locs|
  {
    var t := TreeSize(Levels(depth + 1, maxDepth));
    if |locs| > 0 && locs[0].Some? {
      var child := Strip(locs[0].value);
      var n := |locs[1..]|;
      RequestsBound(fetch, child, depth + 1, maxDepth);
      ChildRequestsBound(fetch, locs[1..], depth, maxDepth);
      assert ChildRequests(fetch, locs, depth, maxDepth)
          == Requests(fetch, child, depth + 1, maxDepth) + ChildRequests(fetch, locs[1..], depth, maxDepth);
      assert |locs| == n + 1;
      MulSucc(n, t);
    } else {
      MulMono(0, |locs|, t);
    }
  }

  /** With the default bound, a sitemap costs at most 73 requests. */
  lemma DefaultRequestsBound(fetch: Fetch, url: string)
    ensures |Requests(fetch, url, 0, 2)| <= 73
  {
    RequestsBound(fetch, url, 0, 2);
  }

  /** No request at all beyond the depth bound. */
  lemma NothingBeyondMaxDepth(fetch: Fetch, url: string, depth: int, maxDepth: int)
    requires depth > maxDepth
    ensures Requests(fetch, url, depth, maxDepth) == [] && FetchSitemap(fetch, url, depth, maxDepth) == []
  {
  }

  /** `<loc>` number `i` is read: it and every `<loc>` before it have text. */
  predicate Reached(locs: seq<Option<string>>, i: int) {
    0 <= i < |locs| && forall j :: 0 <= j <= i ==> locs[j].Some?
  }

  lemma LocTextsMembers(locs: seq<Option<string>>, x: string)
    ensures x in LocTexts(locs) <==> exists i :: Reached(locs, i) && Strip(locs[i].value) == x
  {
    var t := LocTexts(locs);
    if x in t {
      var i :| 0 <= i < |t| && t[i] == x;
      assert Reached(locs, i);
    }
    if exists i :: Reached(locs, i) && Strip(locs[i].value) == x {
      var i :| Reached(locs, i) && Strip(locs[i].value) == x;
      assert t[i] == x;
    }
  }

  /** The URLs of a plain sitemap: exactly the stripped `<loc>` texts before the
      first one without text. */
  lemma UrlSetMembers(fetch: Fetch, url: string, depth: int, maxDepth: int, x: string)
    requires depth <= maxDepth && fetch(url).UrlSet?
    ensures x in FetchSitemap(fetch, url, depth, maxDepth) <==>
              exists i :: Reached(fetch(url).locs, i) && Strip(fetch(url).locs[i].value) == x
  {
    LocTextsMembers(fetch(url).locs, x);
  }

  lemma NotReached(locs: seq<Option<string>>)
    requires |locs| == 0 || locs[0].None?
    ensures forall i :: !Reached(locs, i)
  {
  }

  /** `x` is among the URLs of child sitemap `i` of an index. */
  ghost predicate FromChild(fetch: Fetch, locs: seq<Option<string>>, i: int, depth: int, maxDepth: int, x: string)
    requires depth <= maxDepth
  {
    Reached(locs, i) && x in FetchSitemap(fetch, Strip(locs[i].value), depth + 1, maxDepth)
  }

  /** The URLs of an index: exactly those of its first eight child sitemaps
      (up to the first `<loc>` without text), fetched one level deeper. */
  lemma IndexMembers(fetch: Fetch, url: string, depth: int, maxDepth: int, x: string)
    requires depth <= maxDepth && fetch(url).Index?
    ensures x in FetchSitemap(fetch, url, depth, maxDepth) <==>
              exists i :: i < MaxChildren && FromChild(fetch, fetch(url).locs, i, depth, maxDepth, x)
  {
    var locs := fetch(url).locs;
    var kids := Take(locs, MaxChildren);
    assert x in FetchSitemap(fetch, url, depth, maxDepth) <==> x in Children(fetch, kids, depth, maxDepth);
    ChildrenMembers(fetch, kids, depth, maxDepth, x);
    if exists i :: FromChild(fetch, kids, i, depth, maxDepth, x) {
      var i :| FromChild(fetch, kids, i, depth, maxDepth, x);
      FromChildPrefix(fetch, locs, kids, i, depth, maxDepth, x);
    }
    if exists i :: i < MaxChildren && FromChild(fetch, locs, i, depth, maxDepth, x) {
      var i :| i < MaxChildren && FromChild(fetch, locs, i, depth, maxDepth, x);
      FromChildPrefix(fetch, locs, kids, i, depth, maxDepth, x);
    }
  }

  /** A child of a prefix of the `<loc>` entries is the same child of them all. */
  lemma FromChildPrefix(fetch: Fetch, locs: seq<Option<string>>, kids: seq<Option<string>>, i: int, depth: int, maxDepth: int, x: string)
    requires depth <= maxDepth && |kids| <= |locs| && kids == locs[..|kids|]
    ensures FromChild(fetch, kids, i, depth, maxDepth, x) <==> i < |kids| && FromChild(fetch, locs, i, depth, maxDepth, x)
  {
    if 0 <= i < |kids| {
      assert forall j :: 0 <= j <= i ==> kids[j] == locs[j];
    }
  }

  lemma {:induction false} ChildrenMembers(fetch: Fetch, locs: seq<Option<string>>, depth: int, maxDepth: int, x: string)
    requires depth <= maxDepth
    ensures x in Children(fetch, locs, depth, maxDepth) <==> exists i :: FromChild(fetch, locs, i, depth, maxDepth, x)
    decreases |locs|
  {
    if |locs| > 0 && locs[0].Some? {
      var rest := locs[1..];
      ChildrenMembers(fetch, rest, depth, maxDepth, x);
      ChildrenCons(fetch, locs, depth, maxDepth);
      if exists i :: FromChild(fetch, locs, i, depth, maxDepth, x) {
        var i :| FromChild(fetch, locs, i, depth, maxDepth, x);
        if i > 0 { FromChildShift(fetch, locs, i - 1, depth, maxDepth, x); }
      }
      if exists i :: FromChild(fetch, rest, i, depth, maxDepth, x) {
        var i :| FromChild(fetch, rest, i, depth, maxDepth, x);
        FromChildShift(fetch, locs, i, depth, maxDepth, x);
      }
      assert FromChild(fetch, locs, 0, depth, maxDepth, x) <==> x in FetchSitemap(fetch, Strip(locs[0].value), depth + 1, maxDepth);
    } else {
      NotReached(locs);
    }
  }

  /** An index's children: the first child's URLs, then those of the others. */
  lemma ChildrenCons(fetch: Fetch, locs: seq<Option<string>>, depth: int, maxDepth: int)
    requires depth <= maxDepth && |locs| > 0 && locs[0].Some?
    ensures Children(fetch, locs, depth, maxDepth)
         == FetchSitemap(fetch, Strip(locs[0].value), depth + 1, maxDepth) + Children(fetch, locs[1..], depth, maxDepth)
  {
  }

  /** Child `i + 1` of an index whose first `<loc>` has text is child `i` of the rest. */
  lemma FromChildShift(fetch: Fetch, locs: seq<Option<string>>, i: nat, depth: int, maxDepth: int, x: string)
    requires depth <= maxDepth && |locs| > 0 && locs[0].Some?
    ensures FromChild(fetch, locs[1..], i, depth, maxDepth, x) <==> FromChild(fetch, locs, i + 1, depth, maxDepth, x)
  {
    var rest := locs[1..];
    if i < |rest| {
      assert forall j :: 0 <= j <= i ==> rest[j] == locs[j + 1];
      if Reached(locs, i + 1) {
        forall j | 0 <= j <= i ensures rest[j].Some? { assert locs[j + 1].Some?; }
      }
      if Reached(rest, i) {
        forall j | 0 <= j <= i + 1 ensures locs[j].Some? {
          if j > 0 { assert rest[j - 1].Some?; }
        }
      }
    }
  }

  /** A request for `url` made again below it can be answered differently without
      changing anything else: two oracles that agree on every other URL give the
      same result when `url` is not requested below. In particular `<loc>`
      entries of an index after the eighth are never looked at. */
  lemma {:induction false} FetchAgree(fetch: Fetch, fetch2: Fetch, url: string, u: string, depth: int, maxDepth: int)
    requires forall v :: v != url ==> fetch(v) == fetch2(v)
    requires url !in Requests(fetch, u, depth, maxDepth)
    ensures FetchSitemap(fetch, u, depth, maxDepth) == FetchSitemap(fetch2, u, depth, maxDepth)
    decreases Levels(depth, maxDepth), 1, 0
  {
    if depth <= maxDepth {
      assert u in Requests(fetch, u, depth, maxDepth);
      assert fetch(u) == fetch2(u);
      if fetch(u).Index? {
        var kids := Take(fetch(u).locs, MaxChildren);
        assert Requests(fetch, u, depth, maxDepth) == [u] + ChildRequests(fetch, kids, depth, maxDepth);
        ChildrenAgree(fetch, fetch2, url, kids, depth, maxDepth);
      }
    }
  }

  lemma {:induction false} ChildrenAgree(fetch: Fetch, fetch2: Fetch, url: string, locs: seq<Option<string>>,
                                         depth: int, maxDepth: int)
    requires depth <= maxDepth
    requires forall u :: u != url ==> fetch(u) == fetch2(u)
    requires url !in ChildRequests(fetch, locs, depth, maxDepth)
    ensures Children(fetch, locs, depth, maxDepth) == Children(fetch2, locs, depth, maxDepth)
    decreases Levels(depth, maxDepth), 0, |locs|
  {
    if |locs| > 0 && locs[0].Some? {
      var child := Strip(locs[0].value);
      assert ChildRequests(fetch, locs, depth, maxDepth)
          == Requests(fetch, child, depth + 1, maxDepth) + ChildRequests(fetch, locs[1..], depth, maxDepth);
      FetchAgree(fetch, fetch2, url, child, depth + 1, maxDepth);
      ChildrenAgree(fetch, fetch2, url, locs[1..], depth, maxDepth);
    }
  }

  /** Only the first eight `<loc>` entries of an index matter. */
  lemma IndexIgnoresBeyondEight(fetch: Fetch, url: string, extra: seq<Option<string>>, depth: int, maxDepth: int)
    requires depth <= maxDepth && fetch(url).Index? && |fetch(url).locs| >= MaxChildren
    requires url !in ChildRequests(fetch, Take(fetch(url).locs, MaxChildren), depth, maxDepth)
    ensures var fetch2 := (v: string) => if v == url then Index(Take(fetch(url).locs, MaxChildren) + extra) else fetch(v);
            FetchSitemap(fetch, url, depth, maxDepth) == FetchSitemap(fetch2, url, depth, maxDepth)
  {
    var kids := Take(fetch(url).locs, MaxChildren);
    var fetch2 := (v: string) => if v == url then Index(kids + extra) else fetch(v);
    assert Take(kids + extra, MaxChildren) == kids;
    ChildrenAgree(fetch, fetch2, url, kids, depth, maxDepth);
  }
}

=== FILE: slug.dfy ===
/** `slug_from_keyword` (modules/utils.py): a keyword turned into a URL slug of
    lower-case ASCII letters, digits and single dashes. */
module Slug {
  import opened Common
  import opened Text

  /** The accented lower-case letters the slug spells without their accent
      (`à`..`å`, `è`..`ë`, `ì`..`ï`, `ò`..`ö`, `ù`..`ü`, `ç`, `ñ`). */
  function Unaccent(c: char): (r: char)
    ensures ('a' <= c <= 'z' || '0' <= c <= '9' || c == '-') ==> r == c
  {
    if '\U{E0}' <= c <= '\U{E5}' then 'a'
    else if '\U{E8}' <= c <= '\U{EB}' then 'e'
    else if '\U{EC}' <= c <= '\U{EF}' then 'i'
    else if '\U{F2}' <= c <= '\U{F6}' then 'o'
    else if '\U{F9}' <= c <= '\U{FC}' then 'u'
    else if c == '\U{E7}' then 'c'
    else if c == '\U{F1}' then 'n'
    else c
  }

  function UnaccentAll(s: string): (r: string)
    ensures |r| == |s| && forall i :: 0 <= i < |s| ==> r[i] == Unaccent(s[i])
  {
    seq(|s|, i requires 0 <= i < |s| => Unaccent(s[i]))
  }

  predicate IsAlnum(c: char) { 'a' <= c <= 'z' || '0' <= c <= '9' }

  /** A separator: what `[\s-]` matches. */
  predicate IsSep(c: char) { IsSpace(c) || c == '-' }

  /** What survives removing `[^a-z0-9\s-]`. */
  predicate Kept(c: char) { IsAlnum(c) || IsSep(c) }

  /** Every run of separators replaced by one dash, as `re.sub(r"[\s-]+", "-", s)`;
      `inRun` says that the previous character was a separator. */
  function CollapseFrom(s: string, inRun: bool): (r: string)
    ensures forall i :: 0 <= i < |r| ==> r[i] == '-' || (r[i] in s && !IsSep(r[i]))
    ensures inRun ==> |r| == 0 || r[0] != '-'
    decreases |s|
  {
    if |s| == 0 then []
    else if IsSep(s[0]) then (if inRun then [] else "-") + CollapseFrom(s[1..], true)
    else [s[0]] + CollapseFrom(s[1..], false)
  }

  function Collapse(s: string): string { CollapseFrom(s, false) }

  predicate IsDash(c: char) { c == '-' }

  /** `s.strip("-")`. */
  function StripDashes(s: string): (r: string)
    ensures |r| == 0 || (r[0] != '-' && r[|r| - 1] != '-')
  {
    var t := TrimStart(s, IsDash);
    TrimEnd(t, IsDash)
  }

  /** `slug_from_keyword(keyword)`. */
  function SlugFromKeyword(keyword: string): string {
    var s := UnaccentAll(Strip(Lower(keyword)));
    StripDashes(Collapse(Filter(s, Kept)))
  }

  /** A well-formed slug: letters, digits and dashes, no dash at either end and
      never two in a row. */
  predicate IsSlug(s: string) {
    && (forall i :: 0 <= i < |s| ==> IsAlnum(s[i]) || s[i] == '-')
    && (|s| == 0 || (s[0] != '-' && s[|s| - 1] != '-'))
    && (forall i :: 0 <= i < |s| - 1 ==> !(s[i] == '-' && s[i + 1] == '-'))
  }

  predicate NoDoubleDash(s: string) {
    forall i :: 0 <= i < |s| - 1 ==> !(s[i] == '-' && s[i + 1] == '-')
  }

  lemma {:induction false} CollapseNoDoubleDash(s: string, inRun: bool)
    ensures NoDoubleDash(CollapseFrom(s, inRun))
    decreases |s|
  {
    if |s| > 0 {
      CollapseNoDoubleDash(s[1..], IsSep(s[0]));
    }
  }

  /** Collapsing keeps every non-separator character, in order. */
  lemma {:induction false} CollapseAlnums(s: string, inRun: bool)
    ensures Filter(CollapseFrom(s, inRun), IsAlnum) == Filter(s, IsAlnum)
    decreases |s|
  {
    if |s| > 0 {
      CollapseAlnums(s[1..], IsSep(s[0]));
      var head := if IsSep(s[0]) then (if inRun then [] else "-") else [s[0]];
      FilterAppend(head, CollapseFrom(s[1..], IsSep(s[0])), IsAlnum);
    }
  }

  /** Stripping dashes keeps every letter and digit. */
  lemma StripDashesAlnums(s: string)
    ensures Filter(StripDashes(s), IsAlnum) == Filter(s, IsAlnum)
  {
    TrimStartAlnums(s);
    TrimEndAlnums(TrimStart(s, IsDash));
  }

  lemma TrimStartAlnums(s: string)
    ensures Filter(TrimStart(s, IsDash), IsAlnum) == Filter(s, IsAlnum)
  {
    var t := TrimStart(s, IsDash);
    var front := s[..|s| - |t|];
    assert s == front + t;
    FilterAppend(front, t, IsAlnum);
    NoAlnums(front);
  }

  lemma TrimEndAlnums(t: string)
    ensures Filter(TrimEnd(t, IsDash), IsAlnum) == Filter(t, IsAlnum)
  {
    var r := TrimEnd(t, IsDash);
    var back := t[|r|..];
    assert t == r + back;
    FilterAppend(r, back, IsAlnum);
    NoAlnums(back);
  }

  lemma {:induction false} NoAlnums(s: string)
    requires forall i :: 0 <= i < |s| ==> s[i] == '-'
    ensures Filter(s, IsAlnum) == []
    decreases |s|
  {
    if |s| > 0 { NoAlnums(s[1..]); }
  }

  /** The result is always a well-formed slug. */
  lemma SlugIsWellFormed(keyword: string)
    ensures IsSlug(SlugFromKeyword(keyword))
  {
    var f := Filter(UnaccentAll(Strip(Lower(keyword))), Kept);
    var c := Collapse(f);
    CollapseNoDoubleDash(f, false);
    assert forall i :: 0 <= i < |c| ==> IsAlnum(c[i]) || c[i] == '-';
    StripDashesSlug(c);
  }

  /** Stripping the dashes of a string of letters, digits and single dashes
      leaves a well-formed slug. */
  lemma StripDashesSlug(c: string)
    requires forall i :: 0 <= i < |c| ==> IsAlnum(c[i]) || c[i] == '-'
    requires NoDoubleDash(c)
    ensures IsSlug(StripDashes(c))
  {
    var t := TrimStart(c, IsDash);
    var r := TrimEnd(t, IsDash);
    var k := |c| - |t|;
    assert forall i :: 0 <= i < |r| ==> r[i] == c[k + i];
  }

  /** The letters and digits of the slug are exactly those of the lower-cased,
      unaccented keyword, in order: only separators are rewritten. */
  lemma SlugKeepsAlnums(keyword: string)
    ensures Filter(SlugFromKeyword(keyword), IsAlnum) == Filter(UnaccentAll(Strip(Lower(keyword))), IsAlnum)
  {
    var s := UnaccentAll(Strip(Lower(keyword)));
    var f := Filter(s, Kept);
    StripDashesAlnums(Collapse(f));
    CollapseAlnums(f, false);
    FilterKeepsAlnums(s);
  }

  lemma {:induction false} FilterKeepsAlnums(s: string)
    ensures Filter(Filter(s, Kept), IsAlnum) == Filter(s, IsAlnum)
    decreases |s|
  {
    if |s| > 0 { FilterKeepsAlnums(s[1..]); }
  }

  /** Each step leaves a well-formed slug unchanged. */
  lemma {:induction false} CollapseOfSlug(s: string, inRun: bool)
    requires forall i :: 0 <= i < |s| ==> IsAlnum(s[i]) || s[i] == '-'
    requires NoDoubleDash(s)
    requires inRun ==> |s| == 0 || s[0] != '-'
    ensures CollapseFrom(s, inRun) == s
    decreases |s|
  {
    if |s| > 0 {
      assert !IsSpace(s[0]);
      CollapseOfSlug(s[1..], s[0] == '-');
      assert s == [s[0]] + s[1..];
    }
  }

  /** Slugging a slug gives it back. */
  lemma SlugIdempotent(keyword: string)
    ensures var s := SlugFromKeyword(keyword); SlugFromKeyword(s) == s
  {
    SlugIsWellFormed(keyword);
    SlugOfSlug(SlugFromKeyword(keyword));
  }

  /** When lower-casing, stripping and dropping accents already give a
      well-formed slug, that is the slug. */
  lemma SlugWhenClean(keyword: string)
    requires IsSlug(UnaccentAll(Strip(Lower(keyword))))
    ensures SlugFromKeyword(keyword) == UnaccentAll(Strip(Lower(keyword)))
  {
    var s := UnaccentAll(Strip(Lower(keyword)));
    FilterAll(s, Kept);
    CollapseOfSlug(s, false);
    StripDashesOfSlug(s);
  }

  /** A well-formed slug is its own slug. */
  lemma SlugOfSlug(s: string)
    requires IsSlug(s)
    ensures SlugFromKeyword(s) == s
  {
    LowerOfSlug(s);
    StripOfSlug(s);
    UnaccentOfSlug(s);
    SlugWhenClean(s);
  }

  lemma LowerOfSlug(s: string)
    requires IsSlug(s)
    ensures Lower(s) == s
  {
  }

  lemma StripOfSlug(s: string)
    requires IsSlug(s)
    ensures Strip(s) == s
  {
    assert TrimStart(s, IsSpace) == s;
    assert TrimEnd(s, IsSpace) == s;
  }

  lemma UnaccentOfSlug(s: string)
    requires IsSlug(s)
    ensures UnaccentAll(s) == s
  {
  }

  lemma StripDashesOfSlug(s: string)
    requires IsSlug(s)
    ensures StripDashes(s) == s
  {
    assert TrimStart(s, IsDash) == s;
    assert TrimEnd(s, IsDash) == s;
  }

  /** An accented French keyword. */
  lemma SlugExample()
    ensures SlugFromKeyword("\U{C9}t\U{E9}-2024") == "ete-2024"
  {
    ExampleSteps();
    StripOfStripped("\U{E9}t\U{E9}-2024");
    SlugWhenClean("\U{C9}t\U{E9}-2024");
  }

  lemma ExampleSteps()
    ensures Lower("\U{C9}t\U{E9}-2024") == "\U{E9}t\U{E9}-2024"
    ensures UnaccentAll("\U{E9}t\U{E9}-2024") == "ete-2024"
    ensures IsSlug("ete-2024")
  {
    assert Lower("\U{C9}t\U{E9}-2024") == "\U{E9}t\U{E9}-2024";
    assert UnaccentAll("\U{E9}t\U{E9}-2024") == "ete-2024";
  }
}

=== FILE: text.dfy ===
/** The string primitives of Python that the pipeline relies on, over `seq<char>`:
    whitespace and line breaks as Python defines them, `lower()` on Latin-1,
    `strip`, `startswith`, `in`, `split`, `replace`, `join` and `str(int)`. */
module Text {
  import opened Common

  /** `c.isspace()`, which is also the class `\s` matches in a `str` pattern. */
  predicate IsSpace(c: char) {
    || c == ' ' || ('\t' <= c <= '\r') || ('\U{1C}' <= c <= '\U{1F}')
    || c == '\U{85}' || c == '\U{A0}' || c == '\U{1680}' || ('\U{2000}' <= c <= '\U{200A}')
    || c == '\U{2028}' || c == '\U{2029}' || c == '\U{202F}' || c == '\U{205F}' || c == '\U{3000}'
  }

  /** A line boundary of `str.splitlines()` (a `\r\n` pair counts as one boundary). */
  predicate IsLineBreak(c: char) {
    || c == '\n' || c == '\r' || c == '\U{0B}' || c == '\U{0C}'
    || ('\U{1C}' <= c <= '\U{1E}') || c == '\U{85}' || c == '\U{2028}' || c == '\U{2029}'
  }

  /** Python's `lower()` on one character of Latin-1 (ASCII and U+00C0..U+00DE);
      other characters are returned unchanged. */
  function LowerChar(c: char): char {
    if ('A' <= c <= 'Z') || ('\U{C0}' <= c <= '\U{DE}' && c != '\U{D7}') then (c as int + 32) as char
    else c
  }

  function Lower(s: string): (r: string)
    ensures |r| == |s| && forall i :: 0 <= i < |s| ==> r[i] == LowerChar(s[i])
  {
    seq(|s|, i requires 0 <= i < |s| => LowerChar(s[i]))
  }

  /** Drops leading characters satisfying `drop` (`lstrip`, `lstrip("-")`). */
  function TrimStart(s: string, drop: char -> bool): (r: string)
    ensures |r| <= |s| && r == s[|s| - |r|..]
    ensures forall i :: 0 <= i < |s| - |r| ==> drop(s[i])
    ensures |r| > 0 ==> !drop(r[0])
  {
    if |s| > 0 && drop(s[0]) then
      var r := TrimStart(s[1..], drop);
      assert r == s[|s| - |r|..] by { assert s[1..][|s| - 1 - |r|..] == s[|s| - |r|..]; }
      assert forall i :: 1 <= i < |s| - |r| ==> s[i] == s[1..][i - 1];
      r
    else s
  }

  /** Drops trailing characters satisfying `drop` (`rstrip`, `rstrip("/")`). */
  function TrimEnd(s: string, drop: char -> bool): (r: string)
    ensures |r| <= |s| && r == s[..|r|]
    ensures forall i :: |r| <= i < |s| ==> drop(s[i])
    ensures |r| > 0 ==> !drop(r[|r| - 1])
  {
    if |s| > 0 && drop(s[|s| - 1]) then TrimEnd(s[..|s| - 1], drop) else s
  }

  /** One step of `rstrip`: a trailing whitespace character goes. */
  lemma TrimEndStep(x: string)
    requires |x| > 0 && IsSpace(x[|x| - 1])
    ensures TrimEnd(x, IsSpace) == TrimEnd(x[..|x| - 1], IsSpace)
  {
  }

  /** `rstrip` stops at a character that is not whitespace. */
  lemma TrimEndStop(x: string)
    requires |x| == 0 || !IsSpace(x[|x| - 1])
    ensures TrimEnd(x, IsSpace) == x
  {
  }

  /** One step of `lstrip`: a leading whitespace character goes. */
  lemma TrimStartStep(x: string)
    requires |x| > 0 && IsSpace(x[0])
    ensures TrimStart(x, IsSpace) == TrimStart(x[1..], IsSpace)
  {
  }

  /** `lstrip` stops at a character that is not whitespace. */
  lemma TrimStartStop(x: string)
    requires |x| == 0 || !IsSpace(x[0])
    ensures TrimStart(x, IsSpace) == x
  {
  }

  predicate IsSlash(c: char) { c == '/' }

  function LStrip(s: string): string { TrimStart(s, IsSpace) }
  function RStrip(s: string): string { TrimEnd(s, IsSpace) }

  /** `s.strip()`: no leading or trailing whitespace remains. */
  function Strip(s: string): (r: string)
    ensures |r| == 0 || (!IsSpace(r[0]) && !IsSpace(r[|r| - 1]))
  {
    var t := TrimStart(s, IsSpace);
    TrimEnd(t, IsSpace)
  }

  /** A text without leading or trailing whitespace is its own `strip()`. */
  lemma StripOfStripped(s: string)
    requires |s| == 0 || (!IsSpace(s[0]) && !IsSpace(s[|s| - 1]))
    ensures Strip(s) == s
  {
    if |s| > 0 {
      assert TrimStart(s, IsSpace) == s;
      assert TrimEnd(s, IsSpace) == s;
    }
  }

  /** Stripping twice is stripping once. */
  lemma StripIdempotent(s: string)
    ensures Strip(Strip(s)) == Strip(s)
  {
    StripOfStripped(Strip(s));
  }

  /** `s.startswith(p)`. */
  predicate StartsWith(s: string, p: string) {
    |p| <= |s| && s[..|p|] == p
  }

  /** `p` occurs in `s` starting at index `i`. */
  predicate OccursAt(s: string, p: string, i: int) {
    0 <= i && i + |p| <= |s| && s[i..i + |p|] == p
  }

  /** `p in s` for strings. */
  predicate Contains(s: string, p: string) {
    exists i | 0 <= i <= |s| - |p| :: OccursAt(s, p, i)
  }

  /** `any(p in s for p in ps)`. */
  predicate ContainsAny(s: string, ps: seq<string>) {
    exists k | 0 <= k < |ps| :: Contains(s, ps[k])
  }

  /** Whatever text is found in `s` is also found in any text that contains `s`. */
  lemma ContainsInExtension(a: string, s: string, b: string, p: string)
    requires Contains(s, p)
    ensures Contains(a + s + b, p)
  {
    var i :| 0 <= i <= |s| - |p| && OccursAt(s, p, i);
    assert (a + s + b)[|a| + i..|a| + i + |p|] == s[i..i + |p|];
    assert OccursAt(a + s + b, p, |a| + i);
  }

  /** `s.find(p, i)`: the first place at or after `i` where `p` occurs. */
  function FindFrom(s: string, p: string, i: nat): (r: Option<nat>)
    ensures r.Some? ==> i <= r.value && OccursAt(s, p, r.value)
                        && forall j :: i <= j < r.value ==> !OccursAt(s, p, j)
    ensures r.None? ==> forall j :: i <= j ==> !OccursAt(s, p, j)
    decreases |s| - i
  {
    if i + |p| > |s| then None
    else if s[i..i + |p|] == p then Some(i)
    else FindFrom(s, p, i + 1)
  }

  /** Index of the first occurrence of `c` in `s`. */
  function IndexOf(s: string, c: char): (r: Option<nat>)
    ensures r.None? <==> c !in s
    ensures r.Some? ==> r.value < |s| && s[r.value] == c && c !in s[..r.value]
  {
    if |s| == 0 then None
    else if s[0] == c then Some(0)
    else match IndexOf(s[1..], c)
      case None => None
      case Some(k) => assert s[..k + 1] == [s[0]] + s[1..][..k]; Some(k + 1)
  }

  /** `s.split(c)` for a one-character separator. */
  function Split(s: string, c: char): (parts: seq<string>)
    ensures |parts| >= 1
    ensures forall k :: 0 <= k < |parts| ==> c !in parts[k]
    decreases |s|
  {
    match IndexOf(s, c)
    case None => [s]
    case Some(i) => [s[..i]] + Split(s[i + 1..], c)
  }

  /** `s.split(c)` has one part more than `s` has separators. */
  lemma {:induction false} SplitCount(s: string, c: char)
    ensures |Split(s, c)| == Count(s, c) + 1
    decreases |s|
  {
    match IndexOf(s, c)
    case None => CountAbsent(s, c);
    case Some(i) =>
      SplitCount(s[i + 1..], c);
      CountAbsent(s[..i], c);
      assert s == s[..i] + [c] + s[i + 1..];
      CountAppend(s[..i] + [c], s[i + 1..], c);
      CountAppend(s[..i], [c], c);
  }

  /** `s.endswith(p)`. */
  predicate EndsWith(s: string, p: string) {
    |p| <= |s| && s[|s| - |p|..] == p
  }

  lemma {:induction false} CountAbsent(s: string, c: char)
    requires c !in s
    ensures Count(s, c) == 0
    decreases |s|
  {
    if |s| > 0 { CountAbsent(s[1..], c); }
  }

  lemma {:induction false} CountAppend<T>(a: seq<T>, b: seq<T>, x: T)
    ensures Count(a + b, x) == Count(a, x) + Count(b, x)
    decreases |a|
  {
    if |a| == 0 {
      assert a + b == b;
    } else {
      assert (a + b)[1..] == a[1..] + b;
      CountAppend(a[1..], b, x);
    }
  }

  /** `s.replace(a, b)` for single characters. */
  function ReplaceChar(s: string, a: char, b: char): (r: string)
    ensures |r| == |s|
    ensures forall i :: 0 <= i < |s| ==> r[i] == if s[i] == a then b else s[i]
  {
    seq(|s|, i requires 0 <= i < |s| => if s[i] == a then b else s[i])
  }

  /** `s.replace(pat, rep)`: leftmost, non-overlapping occurrences. */
  function ReplaceAll(s: string, pat: string, rep: string): string
    requires |pat| > 0
    decreases |s|
  {
    if |s| == 0 then s
    else if StartsWith(s, pat) then rep + ReplaceAll(s[|pat|..], pat, rep)
    else [s[0]] + ReplaceAll(s[1..], pat, rep)
  }

  /** `s.replace(str(c), "")`. */
  function RemoveChar(s: string, c: char): (r: string)
    ensures c !in r
    ensures forall x :: x != c ==> (x in r <==> x in s)
  {
    Filter(s, (x: char) => x != c)
  }

  /** `sep.join(parts)`. */
  function Join(sep: string, parts: seq<string>): string {
    if |parts| == 0 then ""
    else if |parts| == 1 then parts[0]
    else parts[0] + sep + Join(sep, parts[1..])
  }

  /** Joining one more part appends a separator and the part. */
  lemma {:induction false} JoinSnoc(sep: string, parts: seq<string>, p: string)
    requires |parts| > 0
    ensures Join(sep, parts + [p]) == Join(sep, parts) + sep + p
    decreases |parts|
  {
    if |parts| > 1 {
      assert (parts + [p])[1..] == parts[1..] + [p];
      JoinSnoc(sep, parts[1..], p);
    }
  }

  /** `str(n)` for a natural number. */
  function NatToString(n: nat): (r: string)
    ensures |r| > 0
    ensures forall i :: 0 <= i < |r| ==> '0' <= r[i] <= '9'
  {
    if n < 10 then [('0' as int + n) as char]
    else NatToString(n / 10) + [('0' as int + n % 10) as char]
  }

  /** `str(i)` for an integer. */
  function IntToString(i: int): string {
    if i < 0 then "-" + NatToString(-i) else NatToString(i)
  }
}

=== FILE: word_budget.dfy ===
/** The word budget of modules/seo_calculator.py: the model's per-section
    budget, the equal-share fallback used when the model gives no usable JSON,
    and the text rendering of a budget that goes into the writer's prompt. */
module WordBudget {
  import opened Common
  import opened Text
  import opened JsonExtract
  import opened ArticleBrief

  /** What `budget["sections"][sid]` holds: an object with optional `h2_intro`
      and `subsections`, or some other JSON value. */
  datatype SectionEntry =
    | SectionData(h2Intro: Option<int>, subsections: Option<map<string, int>>)
    | NotAnObject

  /** A word budget: `intro`, `sections`, `faq`, `conclusion` and
      `total_calculated`, each possibly missing. */
  datatype Budget = Budget(
    intro: Option<int>,
    sections: Option<map<string, SectionEntry>>,
    faq: Option<int>,
    conclusion: Option<int>,
    total: Option<int>)

  /** The words of an H2's own introduction when the section has subsections. */
  const H2IntroWords := 100
  /** The FAQ floor: this many words per question. */
  const WordsPerQuestion := 70

  // The fallback shares. The source multiplies by the floats 0.09, 0.06 and
  // 0.10 and truncates with `int()`; the model uses the exact ratios.

  function IntroWords(t: int): int { TruncDiv(t * 9, 100) }
  function ConclusionWords(t: int): int { TruncDiv(t * 6, 100) }
  function FaqWords(t: int, questions: nat): int { Max(questions * WordsPerQuestion, TruncDiv(t * 10, 100)) }

  /** What is left for the sections. */
  function BodyWords(t: int, questions: nat): int {
    t - IntroWords(t) - ConclusionWords(t) - FaqWords(t, questions)
  }

  /** `s.get("id", f"s{i+1}")`. */
  function SectionId(s: Section, i: nat): string { s.id.GetOr("s" + NatToString(i + 1)) }

  /** `ss.get("id", f"{sid}-{j+1}")`. */
  function SubsectionId(ss: Subsection, sid: string, j: nat): string { ss.id.GetOr(sid + "-" + NatToString(j + 1)) }

  function SectionIds(secs: seq<Section>): (ids: seq<string>)
    ensures |ids| == |secs| && forall i :: 0 <= i < |secs| ==> ids[i] == SectionId(secs[i], i)
  {
    seq(|secs|, i requires 0 <= i < |secs| => SectionId(secs[i], i))
  }

  function SubsectionIds(subs: seq<Subsection>, sid: string): (ids: seq<string>)
    ensures |ids| == |subs| && forall j :: 0 <= j < |subs| ==> ids[j] == SubsectionId(subs[j], sid, j)
  {
    seq(|subs|, j requires 0 <= j < |subs| => SubsectionId(subs[j], sid, j))
  }

  /** The words of each of `m` subsections when the section gets `per` words:
      an equal share of what the H2 introduction leaves (floor division, as
      Python's `//`; the divisor is positive so Dafny's `/` agrees), plus five
      more words per position. */
  function SubWords(per: int, m: nat): (w: seq<int>)
    requires m > 0
    ensures |w| == m
  {
    seq(m, j requires 0 <= j < m => (per - H2IntroWords) / m + 5 * j)
  }

  /** The entry the fallback writes for one section. */
  function SectionAllocation(per: int, s: Section, sid: string): SectionEntry {
    var m := |s.subsections|;
    if m == 0 then SectionData(Some(per), Some(map[]))
    else SectionData(Some(H2IntroWords), Some(BuildMap(SubsectionIds(s.subsections, sid), SubWords(per, m))))
  }

  function Allocations(per: int, secs: seq<Section>): (a: seq<SectionEntry>)
    ensures |a| == |secs| && forall i :: 0 <= i < |secs| ==> a[i] == SectionAllocation(per, secs[i], SectionId(secs[i], i))
  {
    seq(|secs|, i requires 0 <= i < |secs| => SectionAllocation(per, secs[i], SectionId(secs[i], i)))
  }

  /** The words each section gets: an equal floor share of the body. */
  function PerSection(brief: Brief, t: int): int
    requires |brief.sections| > 0
  {
    BodyWords(t, |brief.faq|) / |brief.sections|
  }

  /** `_fallback_budget(brief, target_words)`: every field present, the
      sections keyed by their ids, a later section overwriting an earlier one
      with the same id. */
  function FallbackBudget(brief: Brief, t: int): (b: Budget)
    ensures b.intro.Some? && b.sections.Some? && b.faq.Some? && b.conclusion.Some?
    ensures b.total == Some(t)
    ensures b.sections.value.Keys == set i | 0 <= i < |brief.sections| :: SectionId(brief.sections[i], i)
  {
    var secs := brief.sections;
    var entries :=
      if |secs| == 0 then map[]
      else BuildMap(SectionIds(secs), Allocations(PerSection(brief, t), secs));
    assert forall k :: k in SectionIds(secs) <==> exists i :: 0 <= i < |secs| && SectionId(secs[i], i) == k;
    Budget(Some(IntroWords(t)), Some(entries), Some(FaqWords(t, |brief.faq|)), Some(ConclusionWords(t)), Some(t))
  }

  /** The fixed shares: 9% introduction, 6% conclusion, the FAQ at least 10% and
      at least 70 words per question, and the four parts add up to the target. */
  lemma FallbackShares(brief: Brief, t: nat)
    ensures var b := FallbackBudget(brief, t);
            && b.intro.value == t * 9 / 100
            && b.conclusion.value == t * 6 / 100
            && b.faq.value >= WordsPerQuestion * |brief.faq| && b.faq.value >= t / 10
            && (b.faq.value == WordsPerQuestion * |brief.faq| || b.faq.value == t / 10)
            && b.intro.value + b.conclusion.value + b.faq.value + BodyWords(t, |brief.faq|) == t
  {
    assert t * 10 / 100 == t / 10;
  }

  /** A brief without sections gets an empty section budget. */
  lemma FallbackWithoutSections(brief: Brief, t: int)
    requires |brief.sections| == 0
    ensures FallbackBudget(brief, t).sections == Some(map[])
  {
  }

  /** Section `i`, unless a later section has the same id, gets the
      allocation for an equal share of the body. */
  lemma FallbackSection(brief: Brief, t: int, i: nat)
    requires i < |brief.sections|
    requires forall k :: i < k < |brief.sections| ==> SectionId(brief.sections[k], k) != SectionId(brief.sections[i], i)
    ensures var sid := SectionId(brief.sections[i], i);
            FallbackBudget(brief, t).sections.value[sid] == SectionAllocation(PerSection(brief, t), brief.sections[i], sid)
  {
    var secs := brief.sections;
    BuildMapLast(SectionIds(secs), Allocations(PerSection(brief, t), secs), i);
  }

  /** A section without subsections gives all its share to the H2; one with
      subsections gives 100 words to the H2 and keys its subsection budget by
      the subsections' ids. */
  lemma AllocationShape(per: int, s: Section, sid: string)
    ensures var e := SectionAllocation(per, s, sid);
            && e.SectionData? && e.h2Intro.Some? && e.subsections.Some?
            && (|s.subsections| == 0 ==> e.h2Intro.value == per && e.subsections.value == map[])
            && (|s.subsections| > 0 ==>
                  && e.h2Intro.value == H2IntroWords
                  && e.subsections.value.Keys == (set j | 0 <= j < |s.subsections| :: SubsectionId(s.subsections[j], sid, j)))
  {
    if |s.subsections| > 0 {
      var ids := SubsectionIds(s.subsections, sid);
      assert forall k :: k in ids <==> exists j :: 0 <= j < |s.subsections| && SubsectionId(s.subsections[j], sid, j) == k;
    }
  }

  /** Subsection `j`, unless a later sibling has the same id, gets the floor
      share of what the H2 leaves, plus `5 * j`. */
  lemma SubsectionAllocation(per: int, s: Section, sid: string, j: nat)
    requires j < |s.subsections|
    requires forall k :: j < k < |s.subsections| ==> SubsectionId(s.subsections[k], sid, k) != SubsectionId(s.subsections[j], sid, j)
    ensures var subs := SectionAllocation(per, s, sid).subsections.value;
            var ssid := SubsectionId(s.subsections[j], sid, j);
            ssid in subs && subs[ssid] == (per - H2IntroWords) / |s.subsections| + 5 * j
  {
    var ids := SubsectionIds(s.subsections, sid);
    assert ids[j] in ids;
    BuildMapLast(ids, SubWords(per, |s.subsections|), j);
  }

  /** Sibling subsections with distinct ids never get the same count: a later
      one always gets more. */
  lemma SubsectionsDiffer(per: int, s: Section, sid: string, j: nat, k: nat)
    requires j < k < |s.subsections|
    requires NoDups(SubsectionIds(s.subsections, sid))
    ensures var subs := SectionAllocation(per, s, sid).subsections.value;
            subs[SubsectionId(s.subsections[j], sid, j)] < subs[SubsectionId(s.subsections[k], sid, k)]
  {
    var ids := SubsectionIds(s.subsections, sid);
    var w := SubWords(per, |s.subsections|);
    BuildMapLast(ids, w, j);
    BuildMapLast(ids, w, k);
  }

  // ---- How many words the fallback hands out ----

  function Sum(s: seq<int>): int
    decreases |s|
  {
    if |s| == 0 then 0 else Sum(s[..|s| - 1]) + s[|s| - 1]
  }

  /** `0 + 1 + ... + (m - 1)`. */
  function Tri(m: nat): nat {
    if m == 0 then 0 else Tri(m - 1) + (m - 1)
  }

  /** The words a section's entry adds up to: the H2 and every subsection. */
  function SectionWords(per: int, s: Section): int {
    var m := |s.subsections|;
    if m == 0 then per else H2IntroWords + Sum(SubWords(per, m))
  }

  lemma {:induction false} RampSum(q: int, m: nat)
    ensures Sum(seq(m, j requires 0 <= j < m => q + 5 * j)) == m * q + 5 * Tri(m)
  {
    if m > 0 {
      var r := seq(m, j requires 0 <= j < m => q + 5 * j);
      assert r[..m - 1] == seq(m - 1, j requires 0 <= j < m - 1 => q + 5 * j);
      RampSum(q, m - 1);
      assert m * q == (m - 1) * q + q;
    }
  }

  /** A section's words stay within `m - 1` below its share, plus the `5 * j`
      steps: `0 + 5 + ... + 5 * (m - 1)` words beyond it. With at most one
      subsection it gets exactly its share. */
  lemma SectionWordsBounds(per: int, s: Section)
    ensures var m := |s.subsections|;
            && (m <= 1 ==> SectionWords(per, s) == per)
            && (m >= 1 ==> per - (m - 1) + 5 * Tri(m) <= SectionWords(per, s) <= per + 5 * Tri(m))
  {
    var m := |s.subsections|;
    if m > 0 {
      var q := (per - H2IntroWords) / m;
      assert SubWords(per, m) == seq(m, j requires 0 <= j < m => q + 5 * j);
      RampSum(q, m);
      var x := per - H2IntroWords;
      assert x == m * q + x % m;
      if m == 1 { assert q == x; }
    }
  }

  function SectionsWords(per: int, secs: seq<Section>): int
    decreases |secs|
  {
    if |secs| == 0 then 0 else SectionsWords(per, secs[..|secs| - 1]) + SectionWords(per, secs[|secs| - 1])
  }

  lemma {:induction false} SectionsWordsFlat(per: int, secs: seq<Section>)
    requires forall i :: 0 <= i < |secs| ==> |secs[i].subsections| <= 1
    ensures SectionsWords(per, secs) == |secs| * per
    decreases |secs|
  {
    if |secs| > 0 {
      var n := |secs|;
      SectionsWordsFlat(per, secs[..n - 1]);
      SectionWordsBounds(per, secs[n - 1]);
      TimesSucc(n - 1, per);
    }
  }

  lemma TimesSucc(n: int, x: int)
    ensures (n + 1) * x == n * x + x
  {
  }

  /** When no section has more than one subsection, everything the fallback
      hands out adds up to the target, short of at most one word per section
      lost to the floor division. */
  lemma FallbackAddsUp(brief: Brief, t: int)
    requires |brief.sections| > 0
    requires forall i :: 0 <= i < |brief.sections| ==> |brief.sections[i].subsections| <= 1
    ensures var b := FallbackBudget(brief, t);
            var total := b.intro.value + b.faq.value + b.conclusion.value
                         + SectionsWords(PerSection(brief, t), brief.sections);
            t - |brief.sections| < total <= t
  {
    var b := FallbackBudget(brief, t);
    SectionsWordsFlat(PerSection(brief, t), brief.sections);
    AddsUp(t, b.intro.value, b.faq.value, b.conclusion.value, BodyWords(t, |brief.faq|), |brief.sections|,
           PerSection(brief, t), SectionsWords(PerSection(brief, t), brief.sections));
  }

  /** The arithmetic of `FallbackAddsUp`: what the floor share of the body
      loses is less than one word per section. */
  lemma AddsUp(t: int, intro: int, faq: int, conclusion: int, body: int, n: nat, per: int, words: int)
    requires body == t - intro - conclusion - faq && n > 0 && per == body / n && words == n * per
    ensures t - n < intro + faq + conclusion + words <= t
  {
    assert body == n * per + body % n;
  }

  /** At the shortest target length and with eight questions, two sections
      with one subsection each leave the subsections a negative count. */
  lemma ShortArticleNegativeCount(brief: Brief)
    requires |brief.faq| == 8 && |brief.sections| == 2
    requires |brief.sections[0].subsections| == 1
    requires SectionId(brief.sections[0], 0) != SectionId(brief.sections[1], 1)
    ensures var s := brief.sections[0];
            var sid := SectionId(s, 0);
            var entries := FallbackBudget(brief, 800).sections.value;
            sid in entries && entries[sid] == SectionData(Some(H2IntroWords), Some(map[SubsectionId(s.subsections[0], sid, 0) := -40]))
  {
    var s := brief.sections[0];
    var sid := SectionId(s, 0);
    assert BodyWords(800, 8) == 120;
    assert PerSection(brief, 800) == 60;
    FallbackSection(brief, 800, 0);
    assert SubsectionIds(s.subsections, sid) == [SubsectionId(s.subsections[0], sid, 0)];
    assert SubWords(60, 1) == [-40];
  }

  // ---- calculate_word_budget ----

  /** The model's budget with `total_calculated` filled in when it is missing. */
  function Patched(b: Budget, t: int): (p: Budget)
    ensures p.(total := b.total) == b
    ensures p.total == if b.total.Some? then b.total else Some(t)
  {
    if b.total.None? then b.(total := Some(t)) else b
  }

  /** `calculate_word_budget(brief, target_words, model)`: `reply` is the
      model's answer and `decode` what `json.loads` makes of the extracted text.
      An exception from the model escapes; no JSON or a decode error falls
      back to the equal shares. */
  function CalculateWordBudget(brief: Brief, t: int, reply: Reply, decode: string -> Decoded<Budget>): (r: Result<Budget>)
    ensures reply.Failure? ==> r == Err(Propagated(reply.message))
    ensures reply.Response? ==> r.Ok? && r.value.total.Some?
  {
    match reply
    case Failure(m) => Err(Propagated(m))
    case Response(text) =>
      match ExtractJson(Strip(text))
      case None => Ok(FallbackBudget(brief, t))
      case Some(js) =>
        match decode(js)
        case Malformed(_) => Ok(FallbackBudget(brief, t))
        case Decoded(b) => Ok(Patched(b, t))
  }

  /** An answer always gives a budget. When it holds JSON that decodes, every
      field the model wrote is kept and only a missing total becomes the
      target; otherwise the budget has the target as its total and its four
      parts add up to the target. */
  lemma WordBudgetOutcome(brief: Brief, t: nat, text: string, decode: string -> Decoded<Budget>)
    ensures var r := CalculateWordBudget(brief, t, Response(text), decode);
            var js := ExtractJson(Strip(text));
            var decoded := js.Some? && decode(js.value).Decoded?;
            && r.Ok?
            && (decoded ==> r.value.(total := decode(js.value).value.total) == decode(js.value).value)
            && (decoded && decode(js.value).value.total.Some? ==> r.value == decode(js.value).value)
            && (!decoded ==> r.value.total == Some(t))
            && (!decoded ==> r.value.intro.value + r.value.conclusion.value + r.value.faq.value + BodyWords(t, |brief.faq|) == t)
  {
    FallbackShares(brief, t);
  }

  // ---- budget_to_readable ----

  function IntroLine(w: int): string { "Introduction : " + IntToString(w) + " mots" }
  function H2Line(title: string, w: int): string { "\n[H2] " + title + " \U{2014} chapeau : " + IntToString(w) + " mots" }
  function H3Line(title: string, w: int): string { "  [H3] " + title + " : " + IntToString(w) + " mots" }
  function FaqLine(w: int): string { "\nFAQ : " + IntToString(w) + " mots" }
  function ConclusionLine(w: int): string { "Conclusion : " + IntToString(w) + " mots" }
  function TotalLine(w: int): string { "\nTOTAL : ~" + IntToString(w) + " mots" }

  /** `section_budget.get(sid, {})`. */
  function EntryOf(sections: Option<map<string, SectionEntry>>, sid: string): SectionEntry {
    if sections.Some? && sid in sections.value then sections.value[sid] else SectionData(None, None)
  }

  /** The H2 words an entry shows: its `h2_intro`, 100 when missing or when the
      entry is not an object. */
  function ShownH2(e: SectionEntry): int {
    if e.SectionData? then e.h2Intro.GetOr(H2IntroWords) else H2IntroWords
  }

  /** The subsection budget an entry shows: empty when missing or when the entry
      is not an object. */
  function ShownSubsections(e: SectionEntry): map<string, int> {
    if e.SectionData? then e.subsections.GetOr(map[]) else map[]
  }

  /** `subs_budget.get(ssid, 200)`. */
  function ShownH3(subs: map<string, int>, ssid: string): int {
    if ssid in subs then subs[ssid] else 200
  }

  /** The lines of one section when it is looked up under `sid` and its
      subsections under `ssids`. */
  function SectionLinesUnder(sections: Option<map<string, SectionEntry>>, s: Section, sid: string, ssids: seq<string>): (lines: seq<string>)
    requires |ssids| == |s.subsections|
    ensures |lines| == 1 + |s.subsections|
  {
    var e := EntryOf(sections, sid);
    var subs := ShownSubsections(e);
    [H2Line(s.h2.GetOr(sid), ShownH2(e))]
    + seq(|s.subsections|, j requires 0 <= j < |s.subsections| =>
            H3Line(s.subsections[j].h3.GetOr(ssids[j]), ShownH3(subs, ssids[j])))
  }

  /** As the source looks sections up: by `s.get("id", "")` and
      `ss.get("id", "")`. */
  function SectionLines(sections: Option<map<string, SectionEntry>>, s: Section): (lines: seq<string>)
    ensures |lines| == 1 + |s.subsections|
    ensures lines[0] == H2Line(s.h2.GetOr(s.id.GetOr("")), ShownH2(EntryOf(sections, s.id.GetOr(""))))
    ensures forall j :: 0 <= j < |s.subsections| ==>
              var ssid := s.subsections[j].id.GetOr("");
              lines[1 + j] == H3Line(s.subsections[j].h3.GetOr(ssid), ShownH3(ShownSubsections(EntryOf(sections, s.id.GetOr(""))), ssid))
    ensures !(sections.Some? && s.id.GetOr("") in sections.value) ==>
              lines[0] == H2Line(s.h2.GetOr(s.id.GetOr("")), 100)
              && forall j :: 0 <= j < |s.subsections| ==>
                   lines[1 + j] == H3Line(s.subsections[j].h3.GetOr(s.subsections[j].id.GetOr("")), 200)
  {
    var ssids := seq(|s.subsections|, j requires 0 <= j < |s.subsections| => s.subsections[j].id.GetOr(""));
    LinesUnderEntry(sections, s, s.id.GetOr(""), ssids, EntryOf(sections, s.id.GetOr("")));
    SectionLinesUnder(sections, s, s.id.GetOr(""), ssids)
  }

  /** Looked up under the ids the fallback writes: `s{i+1}` and `{sid}-{j+1}`
      when the brief gives none. */
  function SectionLinesById(sections: Option<map<string, SectionEntry>>, s: Section, i: nat): (lines: seq<string>)
    ensures |lines| == 1 + |s.subsections|
  {
    var sid := SectionId(s, i);
    SectionLinesUnder(sections, s, sid, SubsectionIds(s.subsections, sid))
  }

  function SubsectionCount(secs: seq<Section>): nat
    decreases |secs|
  {
    if |secs| == 0 then 0 else SubsectionCount(secs[..|secs| - 1]) + |secs[|secs| - 1].subsections|
  }

  /** Section `i`'s lines, looked up as the source does or by the fallback's ids. */
  function OwnLines(b: Budget, s: Section, i: nat, byId: bool): (lines: seq<string>)
    ensures |lines| == 1 + |s.subsections|
  {
    if byId then SectionLinesById(b.sections, s, i) else SectionLines(b.sections, s)
  }

  /** How a section at a position is rendered. The lemmas below hold for any
      rendering that gives one line to the section and one to each subsection,
      as both lookups do. */
  type SectionRender = (Section, nat) -> seq<string>

  ghost predicate LinePerHeading(render: SectionRender) {
    forall s, i :: |render(s, i)| == 1 + |s.subsections|
  }

  /** The sections rendered with the budget's entries. */
  function Rendering(b: Budget, byId: bool): (render: SectionRender)
    ensures LinePerHeading(render)
  {
    (s: Section, i: nat) => OwnLines(b, s, i, byId)
  }

  /** Every section's lines, section by section. */
  function SectionParts(secs: seq<Section>, render: SectionRender): (parts: seq<seq<string>>)
    ensures |parts| == |secs| && forall i :: 0 <= i < |secs| ==> parts[i] == render(secs[i], i)
  {
    seq(|secs|, i requires 0 <= i < |secs| => render(secs[i], i))
  }

  lemma SectionPartsPrefix(secs: seq<Section>, render: SectionRender, k: nat)
    requires k <= |secs|
    ensures SectionParts(secs, render)[..k] == SectionParts(secs[..k], render)
  {
  }

  /** One line per section and one per subsection. */
  lemma {:induction false} SectionLineCount(secs: seq<Section>, render: SectionRender)
    requires LinePerHeading(render)
    ensures |Flatten(SectionParts(secs, render))| == |secs| + SubsectionCount(secs)
    decreases |secs|
  {
    if |secs| > 0 {
      var n := |secs| - 1;
      SectionPartsPrefix(secs, render, n);
      SectionLineCount(secs[..n], render);
      assert |render(secs[n], n)| == 1 + |secs[n].subsections|;
    }
  }

  /** The introduction line, every section's lines, and the three closing lines. */
  function Readable(b: Budget, secs: seq<Section>, render: SectionRender): (lines: seq<string>)
    ensures |lines| >= 4
    ensures lines[0] == IntroLine(b.intro.GetOr(200))
    ensures lines[|lines| - 3] == FaqLine(b.faq.GetOr(300))
    ensures lines[|lines| - 2] == ConclusionLine(b.conclusion.GetOr(150))
    ensures lines[|lines| - 1] == TotalLine(b.total.GetOr(0))
  {
    [IntroLine(b.intro.GetOr(200))]
    + Flatten(SectionParts(secs, render))
    + [FaqLine(b.faq.GetOr(300)), ConclusionLine(b.conclusion.GetOr(150)), TotalLine(b.total.GetOr(0))]
  }

  function ReadableLines(b: Budget, brief: Brief, byId: bool): seq<string> {
    Readable(b, brief.sections, Rendering(b, byId))
  }

  /** `budget_to_readable(budget, brief)`: one line per part, newline-joined. */
  function BudgetToReadable(b: Budget, brief: Brief): string {
    Join("\n", ReadableLines(b, brief, false))
  }

  /** The same rendering with sections looked up under the fallback's ids. */
  function BudgetToReadableById(b: Budget, brief: Brief): string {
    Join("\n", ReadableLines(b, brief, true))
  }

  /** The rendering has the introduction line, one line per section and
      subsection, and the three closing lines. */
  lemma ReadableLineCount(b: Budget, brief: Brief, byId: bool)
    ensures |ReadableLines(b, brief, byId)| == 4 + |brief.sections| + SubsectionCount(brief.sections)
  {
    SectionLineCount(brief.sections, Rendering(b, byId));
  }

  /** In the whole rendering, section `i`'s lines follow the introduction
      line and the lines of the sections and subsections before it. */
  lemma ReadableSectionLines(b: Budget, secs: seq<Section>, render: SectionRender, i: nat)
    requires i < |secs| && LinePerHeading(render)
    ensures var at := 1 + i + SubsectionCount(secs[..i]);
            var own := render(secs[i], i);
            var lines := Readable(b, secs, render);
            at + |own| <= |lines| && lines[at..at + |own|] == own
  {
    var parts := SectionParts(secs, render);
    var head := [IntroLine(b.intro.GetOr(200))];
    var tail := [FaqLine(b.faq.GetOr(300)), ConclusionLine(b.conclusion.GetOr(150)), TotalLine(b.total.GetOr(0))];
    PrefixLineCount(secs, render, i);
    FramedPart(head + Flatten(parts) + tail, head, parts, tail, i, 1 + i + SubsectionCount(secs[..i]), render(secs[i], i));
  }

  lemma PrefixLineCount(secs: seq<Section>, render: SectionRender, i: nat)
    requires i <= |secs| && LinePerHeading(render)
    ensures |Flatten(SectionParts(secs, render)[..i])| == i + SubsectionCount(secs[..i])
  {
    SectionPartsPrefix(secs, render, i);
    SectionLineCount(secs[..i], render);
  }

  /** Rendered under the fallback's ids, the lines of a section whose ids are
      unique show exactly what the fallback allocated to it. */
  lemma ReadableByIdShowsFallback(brief: Brief, t: int, i: nat)
    requires i < |brief.sections|
    requires NoDups(SectionIds(brief.sections))
    requires NoDups(SubsectionIds(brief.sections[i].subsections, SectionId(brief.sections[i], i)))
    ensures var s := brief.sections[i];
            var sid := SectionId(s, i);
            var per := PerSection(brief, t);
            var m := |s.subsections|;
            var lines := SectionLinesById(FallbackBudget(brief, t).sections, s, i);
            lines[0] == H2Line(s.h2.GetOr(sid), if m == 0 then per else H2IntroWords)
    ensures forall j :: 0 <= j < |brief.sections[i].subsections| ==>
              var s := brief.sections[i];
              var sid := SectionId(s, i);
              SectionLinesById(FallbackBudget(brief, t).sections, s, i)[1 + j]
              == H3Line(s.subsections[j].h3.GetOr(SubsectionId(s.subsections[j], sid, j)),
                        SubWords(PerSection(brief, t), |s.subsections|)[j])
  {
    FallbackEntry(brief, t, i);
    AllocationLines(FallbackBudget(brief, t).sections, brief.sections[i], i, PerSection(brief, t));
    forall j | 0 <= j < |brief.sections[i].subsections|
      ensures SectionLinesById(FallbackBudget(brief, t).sections, brief.sections[i], i)[1 + j]
              == H3Line(brief.sections[i].subsections[j].h3.GetOr(SubsectionId(brief.sections[i].subsections[j], SectionId(brief.sections[i], i), j)),
                        SubWords(PerSection(brief, t), |brief.sections[i].subsections|)[j])
    {
      FallbackSubsectionLine(brief, t, i, j);
    }
  }

  lemma FallbackSubsectionLine(brief: Brief, t: int, i: nat, j: nat)
    requires i < |brief.sections| && j < |brief.sections[i].subsections|
    requires NoDups(SectionIds(brief.sections))
    requires NoDups(SubsectionIds(brief.sections[i].subsections, SectionId(brief.sections[i], i)))
    ensures SectionLinesById(FallbackBudget(brief, t).sections, brief.sections[i], i)[1 + j]
            == H3Line(brief.sections[i].subsections[j].h3.GetOr(SubsectionId(brief.sections[i].subsections[j], SectionId(brief.sections[i], i), j)),
                      SubWords(PerSection(brief, t), |brief.sections[i].subsections|)[j])
  {
    FallbackEntry(brief, t, i);
    AllocationLine(FallbackBudget(brief, t).sections, brief.sections[i], i, PerSection(brief, t), j);
  }

  /** With distinct section ids, section `i` is found under its id with its allocation. */
  lemma FallbackEntry(brief: Brief, t: int, i: nat)
    requires i < |brief.sections| && NoDups(SectionIds(brief.sections))
    ensures var sid := SectionId(brief.sections[i], i);
            EntryOf(FallbackBudget(brief, t).sections, sid) == SectionAllocation(PerSection(brief, t), brief.sections[i], sid)
  {
    var ids := SectionIds(brief.sections);
    assert forall k :: i < k < |brief.sections| ==> ids[k] != ids[i];
    FallbackSection(brief, t, i);
  }

  /** The H2 line of section `i` found under its id with the allocation for `per` words. */
  lemma AllocationLines(sections: Option<map<string, SectionEntry>>, s: Section, i: nat, per: int)
    requires EntryOf(sections, SectionId(s, i)) == SectionAllocation(per, s, SectionId(s, i))
    requires NoDups(SubsectionIds(s.subsections, SectionId(s, i)))
    ensures SectionLinesById(sections, s, i)[0]
            == H2Line(s.h2.GetOr(SectionId(s, i)), if |s.subsections| == 0 then per else H2IntroWords)
  {
    var sid := SectionId(s, i);
    ShownAllocation(per, s, sid);
    LinesUnderEntry(sections, s, sid, SubsectionIds(s.subsections, sid), SectionAllocation(per, s, sid));
  }

  /** The line of subsection `j` of section `i` found under its id with the
      allocation for `per` words. */
  lemma AllocationLine(sections: Option<map<string, SectionEntry>>, s: Section, i: nat, per: int, j: nat)
    requires j < |s.subsections|
    requires EntryOf(sections, SectionId(s, i)) == SectionAllocation(per, s, SectionId(s, i))
    requires NoDups(SubsectionIds(s.subsections, SectionId(s, i)))
    ensures SectionLinesById(sections, s, i)[1 + j]
            == H3Line(s.subsections[j].h3.GetOr(SubsectionId(s.subsections[j], SectionId(s, i), j)),
                      SubWords(per, |s.subsections|)[j])
  {
    var sid := SectionId(s, i);
    ShownAllocation(per, s, sid);
    LinesUnderEntry(sections, s, sid, SubsectionIds(s.subsections, sid), SectionAllocation(per, s, sid));
  }

  /** What an allocation shows: the H2 words it gives, and each subsection's words. */
  lemma ShownAllocation(per: int, s: Section, sid: string)
    requires NoDups(SubsectionIds(s.subsections, sid))
    ensures var e := SectionAllocation(per, s, sid);
            var m := |s.subsections|;
            && ShownH2(e) == (if m == 0 then per else H2IntroWords)
            && forall j :: 0 <= j < m ==>
                 ShownH3(ShownSubsections(e), SubsectionIds(s.subsections, sid)[j]) == (per - H2IntroWords) / m + 5 * j
  {
    AllocationShape(per, s, sid);
    forall j | 0 <= j < |s.subsections|
      ensures ShownH3(ShownSubsections(SectionAllocation(per, s, sid)), SubsectionIds(s.subsections, sid)[j])
              == (per - H2IntroWords) / |s.subsections| + 5 * j
    {
      SubsectionAllocation(per, s, sid, j);
    }
  }

  /** The lines of a section looked up under `sid` show the entry found there. */
  lemma LinesUnderEntry(sections: Option<map<string, SectionEntry>>, s: Section, sid: string, ssids: seq<string>, e: SectionEntry)
    requires |ssids| == |s.subsections| && EntryOf(sections, sid) == e
    ensures var lines := SectionLinesUnder(sections, s, sid, ssids);
            && lines[0] == H2Line(s.h2.GetOr(sid), ShownH2(e))
            && forall j :: 0 <= j < |s.subsections| ==>
                 lines[1 + j] == H3Line(s.subsections[j].h3.GetOr(ssids[j]), ShownH3(ShownSubsections(e), ssids[j]))
  {
  }

  /** As written, a section without an id is looked up under `""`, which the
      fallback never writes: its H2 shows the default 100 however many words
      the fallback gave it. */
  lemma IdLessSectionShowsDefault(brief: Brief, title: string)
    requires brief == Brief([Section(None, Some(title), [], [], None, [])], [])
    ensures var entries := FallbackBudget(brief, 2000).sections.value;
            "s1" in entries && entries["s1"] == SectionData(Some(1500), Some(map[]))
    ensures SectionLines(FallbackBudget(brief, 2000).sections, brief.sections[0])[0] == H2Line(title, 100)
    ensures SectionLinesById(FallbackBudget(brief, 2000).sections, brief.sections[0], 0)[0] == H2Line(title, 1500)
  {
    assert NatToString(1) == "1";
    assert SectionId(brief.sections[0], 0) == "s1";
    assert BodyWords(2000, 0) == 1500;
    FallbackSection(brief, 2000, 0);
    assert "s1" != "";
  }
}
